=== FILE: README.md ===
# vibe-git, modelled in Dafny

vibe-git is an MCP server that wraps a coding session in a git branch.
`start_vibing` puts the repository on a fresh `vibe-<timestamp>` branch and
starts a file watcher that auto-commits every change. `stop_vibing` squashes
those commits into one, rebases onto `main`, force-pushes and opens a pull
request with `gh`. The repository holds three generations of this program:
the current Python orchestrator under `src/vibe_git/`, two earlier Python
revisions (`main.py` and `vibe_status_only.py` at the top level), and a Rust
crate under `src/`.

This project models the decision logic of all three. The outside world is
replaced by three parameters:

- **a process oracle** `Process = (Trace, Argv) -> ProcessResult`. It is
  indexed by the history of commands already issued, so one command may
  answer differently at different points of a run;
- **a trace** `seq<Argv>` of every command issued, in order;
- **integer time and an abstract `Exists` predicate** on paths. The Rust
  auto-commit task also reads a `Clock`: the commit's timestamp text and
  how long `commit_changes` runs.

Every operation is a pure function from a context (session state, trace,
running watchers, raised commit signals, persisted store) to a new context
and a result record. The contracts speak about success flags, final states
and the exact command order. The libgit2 steps of the Rust library are
opaque oracle steps of their own, `Lib = (Path, Steps, LibStep) -> Result<()>`.

Module layout (one `.dfy` per module):

- **Shared pieces:**
  - `base`: Option and Result.
  - `text`: strip, split and integer rendering.
  - `paths`: the repository walk and `validate_git_path`.
  - `commands`: `run_command` and `run_git_command`.
  - `git_utils`: the queries of `src/vibe_git/git_utils.py`.
- **Session values:**
  - `sessions`: the state machine of `state_types.py` and `state_utils.py`.
  - `persistence`: `state_persistence.py`.
  - `records`: `result_types.py` and `event_types.py`.
- **The current orchestrator `src/vibe_git/main.py`:**
  - `workspace`: the server context and `start_file_watcher`.
  - `watch`: the file handler and the auto-commit worker.
  - `start`: start.
  - `stop`: stop.
  - `retry`: the hook retry.
  - `tools`: stash/commit/here/status/orphan check and the signal handler.
- **The earlier Python revisions:**
  - `flags`: the boolean-flag session shared by both.
  - `legacy_watch` and `legacy`: top-level `main.py`.
  - `status_only`: `vibe_status_only.py`.
- **The Rust crate:**
  - `rust_lib`: `src/lib.rs`.
  - `rust_service`: `src/service.rs`.
  - `rust_client`: `src/mcp.rs` and `src/bin/vibe-git-mcp.rs`.
  - `rust_main`: `src/main.rs`.
  - `rust_watcher`: `src/watcher.rs`.
- **`api`**: the two places where modules of the repository do not fit together.

Every labelled `❌ Error …` return of `stop_vibing`
leaves the session Vibing with its observer running. Only a raised exception
resets it (`src/vibe_git/main.py:721-727`). The model follows the code;
`Stopping.OnlySuccessDeletesSession` and `Legacy.LabelledFailureLeavesHaltedVibing`
state it.

## Model

| member | source | states |
|---|---|---|
| Sessions.NewSession | src/vibe_git/state_types.py:39-43 | a fresh session is Idle |
| Sessions.TransitionTo | src/vibe_git/state_types.py:45-47 | the new state is exactly the argument, whatever the old state was |
| Sessions.TransitionToIsUnchecked | src/vibe_git/main.py:747-748 | the Idle to Idle transition that stash_and_vibe performs succeeds, though the validator rejects it with "Invalid state transition from idle to idle" |
| Sessions.KindOf | src/vibe_git/state_types.py:12-36 | every state is exactly one of Idle, Vibing and Dirty |
| Sessions.StateName | src/vibe_git/state_utils.py:10-20 | the names are "idle", "vibing" and "dirty" |
| Sessions.StateNameIdentifiesKind | src/vibe_git/state_utils.py:10-20 | two states have the same name iff they are of the same kind |
| Sessions.AllowedTransitions | src/vibe_git/state_utils.py:52-61 | the list holds one or two distinct kinds and never the state's own kind |
| Sessions.CanTransition | src/vibe_git/state_utils.py:23-41 | Idle may move to Vibing or Dirty, Vibing only to Idle, Dirty to Idle or Vibing. NoSelfTransition, VibingOnlyStops and AllowedTransitionsAgree state it for every pair of states |
| Sessions.AllowedTransitionsAgree | src/vibe_git/state_utils.py:52-61 | a kind is listed iff can_transition_to allows moving to it |
| Sessions.CanTransitionByKind | src/vibe_git/state_utils.py:23-41 | legality depends only on the kinds of the two states, not on their fields |
| Sessions.NoSelfTransition | src/vibe_git/state_utils.py:23-41 | no state may move to a state of its own kind |
| Sessions.VibingOnlyStops | src/vibe_git/state_utils.py:30-34 | from Vibing the only legal target is Idle |
| Sessions.TwoStepReachability | src/vibe_git/state_utils.py:23-41 | any kind can reach any other kind within two legal moves |
| Sessions.ValidateTransition | src/vibe_git/state_utils.py:44-49 | the validator reports an error iff the move is illegal, and the message names both states |
| Sessions.AtomicTransition | src/vibe_git/main.py:235-243 | when the guarded block raises, the state is put back to what it was and the same exception propagates, and when it does not, the state the block left stands. |
| Sessions.GuardedTransitionNeverRollsBack | src/vibe_git/main.py:235-243 | a guarded `transition_to` never raises, so the guard never restores anything |
| Paths.FindGitRepo | src/vibe_git/git_utils.py:13-20 | the result is the deepest prefix of cwd, but not the root, that has an exact `.git` entry; the error "Not in a git repository" occurs iff no such prefix exists |
| Paths.ValidateGitPath | src/vibe_git/type_utils.py:34-38 | the path is accepted unchanged iff `path/.git` exists; otherwise the error is "<path> is not a git repository" |
| Paths.ValidateNeedsExactName | src/vibe_git/type_utils.py:36 | a repository whose only entry has a name other than `.git` is rejected |
| Paths.ValidateRejectsLookalikes | src/vibe_git/type_utils.py:36 | `.gitx` and `.GIT` do not make a repository |
| Text.Strip | src/vibe_git/git_utils.py:35 | `str.strip()` with Python's whitespace set: the result has no blank at either end, and is empty iff the input is all blank |
| Text.StripIsSlice | src/vibe_git/git_utils.py:35 | what `str.strip()` returns is the slice of the input between a blank prefix and a blank suffix |
| Text.SplitWhitespaceKeepsText | src/vibe_git/git_utils.py:44 | the whitespace tokens, glued back together, are exactly the non-blank characters of the line, for either language's whitespace set |
| Text.SeparatorSplitsOnlyInPython | src/bin/vibe-git-mcp.rs:12 | U+001C splits a Python line but not a Rust one; an ideographic space splits a Rust line |
| Text.NoBreakSpaceIsStripped | src/vibe_git/main.py:517 | `str.strip()` removes a trailing no-break space |
| Commands.Collect | src/vibe_git/git_utils.py:23-37 | success iff the process exited with code 0; the output is the stripped stdout if that is non-empty, else the stripped stderr; an exception gives its message |
| Commands.RunCommand | src/vibe_git/git_utils.py:23-37 | exactly the one command is appended to the trace. The exception is when no cwd is given and there is no repository above: then nothing is issued and the result is a failure with "Not in a git repository" |
| Commands.RunCommandLine | src/vibe_git/git_utils.py:40-45 | the string version behaves as the list version on the whitespace split of the command |
| Commands.RunGitCommand | src/vibe_git/git_utils.py:48-50 | the git version issues `git` followed by the arguments |
| Commands.Git | src/vibe_git/main.py:202-204 | with a repository path given, the command is always issued and its result is the collected process result |
| GitUtils.VibeBranchExamples | src/vibe_git/type_utils.py:29-31 | `vibe-` is a case-sensitive prefix, so "vibe-1712345678" is a vibe branch and "feature/vibe-like", "Vibe-1" and "vibe" are not |
| GitUtils.VibeBranchName | src/vibe_git/main.py:455-457 | a generated branch name is a vibe branch whose suffix is the decimal timestamp |
| GitUtils.VibeBranchNameTimestamp | src/vibe_git/main.py:455-457 | the timestamp can be read back from the generated branch name |
| GitUtils.CurrentBranch | src/vibe_git/git_utils.py:54-60 | a branch is returned iff the query succeeded with non-empty output, and it is that stripped output; there is no detached-HEAD case |
| GitUtils.HasUncommittedChanges | src/vibe_git/git_utils.py:64-69 | the tree is dirty iff `status --porcelain` succeeded with non-empty output; the details are that output when dirty and "" otherwise |
| GitUtils.CheckoutBranch | src/vibe_git/git_utils.py:73-77 | issues exactly `git checkout <branch>` |
| GitUtils.CreateBranch | src/vibe_git/git_utils.py:80-84 | issues exactly `git checkout -b <branch>` |
| GitUtils.EnsureOnMainBranch | src/vibe_git/git_utils.py:87-101 | gives "main" iff checking out main succeeds, and then issues nothing more; `checkout master` is tried only after that fails and gives "master" iff it succeeds; None otherwise; at most two commands are issued |
| GitUtils.ResolveRepo | src/vibe_git/git_utils.py:57 | an explicit path is used as given; without one the repository is looked up from the working directory, and the lookup fails with "Not in a git repository" iff there is no repository above it |
| GitUtils.CurrentBranchAt | src/vibe_git/git_utils.py:54-61 | raises iff no path is given outside a repository; otherwise it is the branch query on the resolved path |
| GitUtils.HasUncommittedChangesAt | src/vibe_git/git_utils.py:64-69 | raises iff no path is given outside a repository; otherwise it is the status query on the resolved path |
| GitUtils.CheckoutBranchAt | src/vibe_git/git_utils.py:73-77 | raises iff no path is given outside a repository; otherwise it issues `git checkout <branch>` |
| GitUtils.CreateBranchAt | src/vibe_git/git_utils.py:80-84 | raises iff no path is given outside a repository; otherwise it issues `git checkout -b <branch>` |
| GitUtils.EnsureOnMainBranchAt | src/vibe_git/git_utils.py:87-101 | the lookup happens once, before the first checkout; it raises iff no path is given outside a repository |
| GitUtils.OmittedPathRaisesBeforeRunner | src/vibe_git/git_utils.py:24-37 | without a path and outside a repository, all five helpers raise. The command runner would instead have caught the same lookup failure and answered (False, message) without issuing anything |
| GitUtils.OmittedPathFindsRepo | src/vibe_git/git_utils.py:54-101 | inside a repository, omitting the path is the same as passing the repository the lookup finds |
| Workspace.InitialCtx | src/vibe_git/main.py:108-112 | the server starts Idle with nothing issued and no watcher |
| Workspace.StartWatcher | src/vibe_git/main.py:350-365 | a new watcher handle, not yet running nor signalled, is started and put in the returned Vibing state; the context invariant is kept |
| Workspace.MainCurrentBranch | src/vibe_git/main.py:207-215 | as the git_utils query, and also a failed query whose stripped output starts with `vibe-` yields that output |
| Workspace.BranchQueriesAgreeOnSuccess | src/vibe_git/main.py:207-211 | the two branch queries agree whenever the command succeeds |
| Workspace.DetachedHeadQueriesDiffer | src/vibe_git/main.py:207-215 | whenever the query fails with a non-zero exit and its output is a stripped vibe branch name, the main.py helper returns that name and the git_utils helper returns None |
| Records.PairAt | src/vibe_git/result_types.py:19-26 | index 0 gives the first field, index 1 the second, and any other index raises "<Record> index out of range" |
| Records.PairAtMatchesItems | src/vibe_git/result_types.py:15-26 | indexing succeeds exactly on the positions that iteration yields, with the same value |
| Records.NegativeIndexRaises | src/vibe_git/result_types.py:19-26 | index -1 raises; Python's negative indexing is not available |
| Records.CommandResultAt | src/vibe_git/result_types.py:19-26 | [0] is success, [1] is output, anything else raises "CommandResult index out of range" |
| Records.CommandResultItems | src/vibe_git/result_types.py:15-17 | iteration yields (success, output) |
| Records.ChangesResultAt | src/vibe_git/result_types.py:40-47 | [0] is has_changes, [1] is details, anything else raises |
| Records.ChangesResultItems | src/vibe_git/result_types.py:36-38 | iteration yields (has_changes, details) |
| Records.ParsedMessageAt | src/vibe_git/result_types.py:61-68 | [0] is title, [1] is body, anything else raises |
| Records.ParsedMessageItems | src/vibe_git/result_types.py:57-59 | iteration yields (title, body) |
| Records.UnpackRebuilds | src/vibe_git/result_types.py:15-68 | unpacking any of the three records and rebuilding it gives the same record |
| Records.HasBranch | src/vibe_git/result_types.py:78-81 | has_branch iff branch_name is not None; HasBranchIffAnswered ties it to the branch query |
| Records.CheckBranch | src/vibe_git/result_types.py:71-76 | the result of checking the current branch holds the answer of `get_current_branch`, and is_vibe_branch iff that answer is a vibe branch |
| Records.HasBranchIffAnswered | src/vibe_git/result_types.py:78-81 | a checked branch is present iff the branch query succeeded with non-empty output; a vibe branch is always present |
| Records.CommitHasChanges | src/vibe_git/event_types.py:19-22 | has_changes iff files_changed is non-empty; PendingCommitHasChangesIffDirty ties it to the status query |
| Records.PendingCommit | src/vibe_git/event_types.py:11-17 | the commit event for a status report lists one entry per porcelain line when dirty (the lines join back to the details) and none when clean |
| Records.PendingCommitHasChangesIffDirty | src/vibe_git/event_types.py:19-22 | a commit event built from `has_uncommitted_changes` has changes iff the tree is dirty |
| Records.NewStateTransitionEvent | src/vibe_git/event_types.py:26-32 | reason defaults to None |
| Records.StateChanged | src/vibe_git/event_types.py:34-37 | state_changed iff the two kinds differ |
| Records.StateChangedMatchesSelfTransition | src/vibe_git/event_types.py:34-37 | an event with no kind change records a transition that the validator forbids, and Idle to Idle is not a change |
| Records.NewSessionStartEvent | src/vibe_git/event_types.py:41-47 | resumed defaults to False and previous_branch to None |
| Records.NewSessionStopEvent | src/vibe_git/event_types.py:51-58 | commit_message defaults to None |
| Records.OperationFailed | src/vibe_git/event_types.py:71-74 | failed iff not success; OperationFailedIffCommandFailed ties it to the command's exit |
| Records.RecordGitOperation | src/vibe_git/event_types.py:61-69 | the event for a git command holds its name and arguments, and success and output are the runner's (success, output) |
| Records.OperationFailedIffCommandFailed | src/vibe_git/event_types.py:71-74 | a recorded operation failed iff the spawn raised or the exit code was not 0 |
| Records.NewFileWatchEvent | src/vibe_git/event_types.py:78-84 | ignored defaults to False |
| Persistence.NewPersisted | src/vibe_git/state_persistence.py:14-22 | the defaults are last_commit_time None, pr_url None and auto_commit_enabled True |
| Persistence.ToDict | src/vibe_git/state_persistence.py:24-26 | the dictionary has exactly the five field names as keys, holding the record's values |
| Persistence.FromDict | src/vibe_git/state_persistence.py:28-31 | a dictionary is accepted iff it is well formed: no unknown key, the two required keys present, values of the right type; omitted optional keys take their defaults |
| Persistence.FromToDict | src/vibe_git/state_persistence.py:24-31 | from_dict(to_dict(s)) == s for every record |
| Persistence.ToFromDict | src/vibe_git/state_persistence.py:24-31 | a dictionary that is accepted and has all five keys is rebuilt exactly by to_dict |
| Persistence.FromDictDefaults | src/vibe_git/state_persistence.py:20-31 | a dictionary with only the two required keys gives a record with the defaults |
| Persistence.FromDictRejectsUnknownKey | src/vibe_git/state_persistence.py:28-31 | an extra key makes from_dict fail |
| Persistence.Save | src/vibe_git/state_persistence.py:42-53 | the file then holds the record, and exactly one "session_saved" event carrying it is appended |
| Persistence.Load | src/vibe_git/state_persistence.py:55-66 | a missing file gives None and changes nothing. A file that is not UTF-8 raises its decoding error and is kept. A well-formed file gives its record and changes nothing. Any other readable file gives None and is removed. The event log is never touched |
| Persistence.Delete | src/vibe_git/state_persistence.py:68-75 | the file is gone and exactly one "session_ended" event is appended |
| Persistence.HasSession | src/vibe_git/state_persistence.py:82-84 | true iff the state file exists, even when it is garbled. SaveThenLoad, DeleteThenLoad and CorruptFileIsRemoved state it after each operation |
| Persistence.SaveThenLoad | src/vibe_git/state_persistence.py:42-66 | loading after saving returns the saved record; has_session then holds; the log grows by one |
| Persistence.DeleteThenLoad | src/vibe_git/state_persistence.py:68-84 | after delete, has_session is false and load returns None without further change |
| Persistence.CorruptFileIsRemoved | src/vibe_git/state_persistence.py:60-66 | a UTF-8 file that is not JSON, or whose JSON is not an accepted record, is reported as no session and is removed, though has_session held before |
| Persistence.UndecodableFileIsKept | src/vibe_git/state_persistence.py:55-66 | a file that is not UTF-8 makes load_session raise its decoding error before the except clause, so it stays; get_session_age_seconds and is_session_stale raise the same error |
| Persistence.SessionAge | src/vibe_git/state_persistence.py:86-97 | raises iff loading raises; otherwise the age is known iff a session loads and its start time parses, and it is then now minus the start |
| Persistence.IsSessionStale | src/vibe_git/state_persistence.py:99-105 | raises iff loading raises; otherwise stale iff the age is known and strictly greater than max_age_hours times 3600 |
| Persistence.StaleBoundary | src/vibe_git/state_persistence.py:99-105 | exactly 24 hours old is not stale; one second more is |
| Persistence.UnknownAgeNotStale | src/vibe_git/state_persistence.py:86-105 | when the file loads without a session, or with an unparseable start time, the session is not stale |
| Watch.NewHandler | src/vibe_git/main.py:249-254 | a new handler has last commit time 0 and minimum interval 0 |
| Watch.Relative | src/vibe_git/main.py:272-279 | a relative path is kept as is; an absolute path is relativised iff it lies under the repository, and the repository plus the result gives the path back |
| Watch.CheckIgnore | src/vibe_git/main.py:265-285 | paths with a `.git` component, and absolute paths outside the repository, are ignored without a command. Otherwise exactly one `git check-ignore <relative>` is issued and its success decides |
| Watch.OnAnyEvent | src/vibe_git/main.py:287-301 | the signal is raised, and last_commit_time becomes now, iff the event is not a directory, the path is not ignored and the debounce interval has passed; otherwise nothing changes |
| Watch.DebouncePasses | src/vibe_git/main.py:297 | an event passes unless less than min_commit_interval has elapsed since the last commit. With the interval 0 this means only that time did not go backwards (DebounceOnlyCatchesClockSteps) |
| Watch.Deliver | src/vibe_git/main.py:287-301 | an event at a stopped observer changes nothing. Otherwise the handler comes back as on_any_event left it, and its last commit time changes only to the event's time and only together with its own signal. Delivery touches only the raised signals, and at most its own |
| Watch.DeliverAllRecordsEventTimes | src/vibe_git/main.py:287-301 | after a run of events delivered to one handler, its last commit time is its initial one or the time of one of the events, and only its own signal can have been raised |
| Watch.SecondEventMeasuredFromFirst | src/vibe_git/main.py:296-301 | the commit time recorded by a signalled event persists in the handler: a next event sooner than the interval after it is suppressed and raises nothing |
| Watch.DebounceOnlyCatchesClockSteps | src/vibe_git/main.py:253-254 | with the interval 0.0 the debounce passes iff time has not gone backwards, so under monotone time it never suppresses anything |
| Watch.HalfSecondLaterStillSignals | src/vibe_git/main.py:295-301 | an eligible event half a second after the previous signal still raises the signal |
| Watch.GitInternalsIgnored | src/vibe_git/main.py:268-270 | events under `.git` never signal and issue no command |
| Watch.CommitAll | src/vibe_git/main.py:322-330 | the worker commits with `git add .` followed by `git commit -m "Auto-commit <ts>" --no-verify` |
| Watch.CommitIfDirty | src/vibe_git/main.py:318-330 | after the porcelain query, add and commit are issued iff the tree is dirty |
| Watch.AutoCommitStep | src/vibe_git/main.py:312-330 | a worker pass acts iff the session is Vibing and its signal is raised; it then clears the signal and runs the dirty check. Nothing else in the context changes |
| Watch.AutoCommitStepValid | src/vibe_git/main.py:312-330 | a worker pass keeps the context invariant |
| Watch.AutoCommitOnlyWhenDirty | src/vibe_git/main.py:318-330 | a signalled pass issues the auto-commit iff the tree is dirty |
| Starting.Activate | src/vibe_git/main.py:467-479 | activation moves to Vibing on a new running watcher and saves the session record; no command is issued |
| Starting.PullAndCreate | src/vibe_git/main.py:452-459 | the pull is issued and its result ignored, then `checkout -b vibe-<ts>` decides |
| Starting.CleanStart | src/vibe_git/main.py:443-485 | with no main or master the start fails and the session is untouched. Otherwise it succeeds iff the branch creation succeeds, and only then becomes Vibing on `vibe-<ts>` with a saved record; the result names the base branch used, or carries the failed creation's output |
| Starting.FreshStart | src/vibe_git/main.py:400-441 | on a current vibe branch it reuses that branch without creating one. Otherwise a dirty tree gives Dirty(current or "unknown", porcelain text) and a failure naming that branch. Otherwise it is a clean start |
| Starting.ProbeIdle | src/vibe_git/main.py:372-376 | the Idle start first loads the saved session, then queries the current branch; a load that raises ends it before the query |
| Starting.WantsResume | src/vibe_git/main.py:378-379 | a resume is attempted iff a session was loaded and its branch differs from the current branch, or there is no current branch |
| Starting.StartIdle | src/vibe_git/main.py:368-398 | a state file that cannot be read raises with nothing changed. A saved session on a different branch whose checkout succeeds is resumed with a refreshed start time; if that checkout fails, or there is nothing to resume, it falls through to the fresh start |
| Starting.StartFromState | src/vibe_git/main.py:488-511 | from Vibing nothing is issued and success is returned with the stored branch. From Dirty nothing is issued and failure is returned with the recovery options. From Idle it is the Idle start |
| Starting.StartVibing | src/vibe_git/main.py:557-564 | outside a repository the context is untouched; a start that raised is reported as "❌ Error starting vibe session: <error>"; otherwise the answer is the message of the start dispatched on the current state |
| Starting.UndecodableStateBlocksStart | src/vibe_git/main.py:557-564 | from Idle, a state file that is not UTF-8 gives "❌ Error starting vibe session: <decoding error>", changes nothing and leaves the file in place |
| Starting.IdleStartSuccessIsVibing | src/vibe_git/main.py:368-485 | an Idle start succeeds iff it ends Vibing, on the reported branch and on a new watcher; otherwise no watcher is started |
| Starting.FreshStartShape | src/vibe_git/main.py:400-485 | the same for the fresh-start part |
| Starting.StartKeepsValid | src/vibe_git/main.py:368-511 | starting keeps the context invariant |
| Starting.FreshStartValid | src/vibe_git/main.py:400-485 | the fresh-start part keeps the context invariant |
| Starting.NoBaseBranchStaysIdle | src/vibe_git/main.py:443-450 | when neither main nor master can be checked out, the session stays Idle; the trace is exactly the branch query, the porcelain query and the two checkouts |
| Starting.StartExtendsTrace | src/vibe_git/main.py:368-511 | a start only appends to the trace |
| Starting.FreshStartExtends | src/vibe_git/main.py:400-485 | the fresh-start part only appends to the trace |
| Stopping.ParseCommitMessage | src/vibe_git/main.py:514-520 | the title is the first line of the stripped message and holds no newline; the body is the message unchanged |
| Stopping.SingleLineTitle | src/vibe_git/main.py:514-520 | a single-line message has its stripped self as title |
| Stopping.ParseCommitLines | src/vibe_git/main.py:533-540 | no lines give "No commit message" twice; otherwise the title is the stripped first line and the body the lines joined with newlines |
| Stopping.ParseCommitLinesOfSplit | src/vibe_git/main.py:514-540 | the list version applied to the message's lines returns the message as body and its stripped first line as title |
| Stopping.FindBase | src/vibe_git/main.py:593-604 | merge-base against master is tried only if main failed; if both fail, stop reports the branch-point error |
| Stopping.SquashCommands | src/vibe_git/main.py:614-636 | reset, commit --no-verify and commit --amend run in order; the first failure ends the stop with its own label |
| Stopping.Squash | src/vibe_git/main.py:606-613 | the squash runs only when the commit count succeeded and is above 1. An unparseable count raises |
| Stopping.SquashMany | src/vibe_git/main.py:612-636 | a finished squash reports the counted commits |
| Stopping.Refresh | src/vibe_git/main.py:638-650 | checkout main, pull origin main and checkout <branch> run in order; the first failure ends the stop with its own label |
| Stopping.RebaseAndPush | src/vibe_git/main.py:652-676 | a failed rebase is aborted and counts as a conflict; the force push follows either way; a failed push ends the stop with the label for its case |
| Stopping.OpenPr | src/vibe_git/main.py:678-695 | `gh pr create` goes through run_command with the parsed title and body. A PR URL is recorded iff gh succeeded with output. The final checkout of main decides |
| Stopping.Publish | src/vibe_git/main.py:638-719 | a finished publish reports conflicts iff the rebase failed, and then carries exactly the force-push warning |
| Stopping.Script | src/vibe_git/main.py:593-719 | the script ends in a stop, a labelled failure or a raised error |
| Stopping.StopScript | src/vibe_git/main.py:593-719 | the reference list of commands a completed stop issues, written independently of the stage functions: merge-base (with the master fallback), rev-list, the optional squash, checkout main, pull, checkout of the branch, rebase, the optional abort, push, `gh pr create`, checkout main. StoppedFollowsScript proves a completed stop issued exactly this list |
| Stopping.StopVibing | src/vibe_git/main.py:567-727 | not Vibing: nothing happens. A labelled failure leaves the state, watchers and store alone. A raised error stops the observer and forces Idle. Success stops the observer, sets the signal, forces Idle and deletes the saved session |
| Stopping.StopVibingTool | src/vibe_git/main.py:582-583 | when not vibing the tool answers "Not currently vibing…" |
| Stopping.FindBaseTrace | src/vibe_git/main.py:593-602 | the found base issues merge-base main, and merge-base master only after that failed |
| Stopping.SquashTrace | src/vibe_git/main.py:606-636 | a completed squash step issues rev-list, then the three squash commands iff commits were squashed |
| Stopping.RefreshTrace | src/vibe_git/main.py:638-650 | a completed refresh issues checkout main, pull, checkout <branch> |
| Stopping.RebaseTrace | src/vibe_git/main.py:652-676 | a completed rebase step issues rebase main, rebase --abort iff conflicts, then the force push |
| Stopping.OpenPrTrace | src/vibe_git/main.py:678-695 | a completed PR step issues `gh pr create` then checkout main |
| Stopping.PublishTrace | src/vibe_git/main.py:638-695 | the order of the publishing commands |
| Stopping.StoppedFollowsScript | src/vibe_git/main.py:593-719 | a successful stop issued exactly the documented script, in order. The parts that depend on the fallback, the squash and the conflicts appear iff those happened |
| Stopping.MainFailureStopsPublish | src/vibe_git/main.py:639-641 | when checkout main fails, publishing ends at once with that label |
| Stopping.MasterOnlyNeverStops | src/vibe_git/main.py:597-602 | in a repository with only master, stop never succeeds despite the merge-base fallback; a labelled failure leaves the state unchanged |
| Stopping.StopKeepsValid | src/vibe_git/main.py:567-727 | stopping keeps the context invariant |
| Stopping.OnlySuccessDeletesSession | src/vibe_git/main.py:602-727 | only a successful stop touches the saved session. A labelled failure leaves state, watchers, signals and store as they were. A raised error forces Idle but keeps the store |
| Retrying.RunGitWithHookRetry | src/vibe_git/main.py:543-553 | with at least one allowed attempt the result is that of the retry loop; with none, the final line reads an unbound variable |
| Retrying.AttemptsBounded | src/vibe_git/main.py:547-552 | the loop issues between one and max_retries copies of the same command and nothing else |
| Retrying.NoRetryWithoutHook | src/vibe_git/main.py:549-550 | a success, or a failure whose lower-cased output does not mention "hook", is returned after one attempt; lower-casing maps A-Z and the KELVIN SIGN, the characters Python lowers to h, o or k |
| Retrying.KelvinSignCountsAsHook | src/vibe_git/main.py:549 | output spelling "HOO" followed by U+212A, alone or inside a longer message, counts as mentioning "hook" |
| Retrying.KelvinHookIsRetried | src/vibe_git/main.py:547-552 | such a first failure, with a second attempt allowed, is followed by at least one more command |
| Retrying.AttemptsEndOnLast | src/vibe_git/main.py:547-553 | the result is the last attempt's, unless every attempt failed on a hook; then it is "Failed after N attempts: <last output>" |
| Tools.Stash | src/vibe_git/main.py:740-742 | issues exactly `git stash push -m "Pre-vibe stash"` |
| Tools.CommitWip | src/vibe_git/main.py:771-779 | `git add .` first; the WIP commit only after add succeeded; each failure is reported as such |
| Tools.RestartFromIdle | src/vibe_git/main.py:746-750 | the state is forced to Idle and the Idle start runs |
| Tools.StashAndVibe | src/vibe_git/main.py:730-757 | a clean tree returns "No changes…" and starts nothing. A failed stash stops there. Otherwise the state is forced to Idle and started |
| Tools.CommitAndVibe | src/vibe_git/main.py:760-791 | a clean tree returns "No changes…" and starts nothing; otherwise the WIP commit decides |
| Tools.AfterWip | src/vibe_git/main.py:771-788 | a failed add or commit stops with its message; a committed WIP restarts from Idle |
| Tools.RestartLeaksWatcher | src/vibe_git/main.py:746-750 | forcing Idle from Vibing does not stop the old observer, and a new session gets a different watcher |
| Tools.StashOnlyWhenDirty | src/vibe_git/main.py:736-750 | a clean tree issues only the porcelain query. A dirty one stashes before anything else. A restart succeeds iff the session ends Vibing |
| Tools.ChooseBranch | src/vibe_git/main.py:803-819 | no current branch is an error; a vibe branch is reused; any other branch gets a new vibe branch |
| Tools.MakeBranch | src/vibe_git/main.py:809-817 | `checkout -b vibe-<ts>` decides between the new branch and the creation error |
| Tools.VibeFromHere | src/vibe_git/main.py:794-837 | from Vibing nothing happens; outside a repository nothing happens; otherwise the branch choice and watch-here steps run |
| Tools.WatchHere | src/vibe_git/main.py:821-834 | the session becomes Vibing on a new watcher before the dirty check. The signal is raised iff the tree is dirty |
| Tools.VibeFromHereKeepsValid | src/vibe_git/main.py:794-837 | vibe_from_here keeps the context invariant and never touches the saved session |
| Tools.VibeFromHereStarts | src/vibe_git/main.py:798-834 | it starts iff the session ends Vibing having not been Vibing before; the branch is a vibe branch; the new watcher's signal is raised iff the tree was dirty |
| Tools.VibeFromHereFailureKeepsCtx | src/vibe_git/main.py:798-817 | a failed vibe_from_here changes nothing but the trace |
| Tools.VibeStatus | src/vibe_git/main.py:840-869 | VIBING iff Vibing on the real branch; DIRTY iff Dirty; VIBE BRANCH DETECTED iff otherwise on a vibe branch; IDLE otherwise. A Vibing state on another branch is reset to Idle without stopping its observer. Nothing else changes |
| Tools.VibeStatusTool | src/vibe_git/main.py:840-869 | the tool leaves the context VibeStatus leaves; its text is rendered from the status answer (weaker, see "Left out") |
| Tools.StatusResetLeaksWatcher | src/vibe_git/main.py:850-856 | the self-healing reset leaves the old observer running |
| Tools.StatusLight | src/vibe_git/main.py:852-869 | the leading light is green iff VIBING, yellow iff DIRTY or VIBE BRANCH DETECTED, blue iff IDLE, white iff NOT INITIALIZED |
| Tools.CheckOrphanedSessions | src/vibe_git/main.py:142-171 | nothing is reported outside a repository, without a session file or when it loads without a session; a load that raises is reported as an error; otherwise the saved session is judged |
| Tools.JudgeSession | src/vibe_git/main.py:155-171 | a staleness test that raises is reported as an error; a stale session is deleted and reported; otherwise it is compared with the current branch |
| Tools.UndecodableStateIsReported | src/vibe_git/main.py:142-171 | a state file that is not UTF-8 is not a RuntimeError: the startup check answers "⚠️ Error checking for orphaned sessions: <decoding error>" and changes nothing |
| Tools.Resumable | src/vibe_git/main.py:160-165 | "found existing" iff the current branch is the saved one, "orphaned" otherwise |
| Tools.FreshSavedSessionIsJudged | src/vibe_git/main.py:148-165 | a session saved less than 24 hours ago reaches the branch comparison |
| Tools.StaleSessionIsDeleted | src/vibe_git/main.py:155-158 | reporting a stale session has removed it and logged one "session_ended" event, with no other change |
| Tools.SignalHandler | src/vibe_git/main.py:872-877 | the handler stops a running observer and forces Idle |
| Flags.NewFlagSession | vibe_status_only.py:13-17 | a new flag session has no branch, is not vibing, and has no observer or event |
| Flags.Forget | vibe_status_only.py:62-65 | the reset clears is_vibing and the branch but keeps observer and event |
| StatusOnly.VibeStatus | vibe_status_only.py:45-74 | outside a repository it reports the error. A failed branch query gives "Could not determine current branch" and leaves the session alone. Otherwise the stripped branch is judged |
| StatusOnly.Judge | vibe_status_only.py:58-71 | VIBING iff vibing with a non-empty branch equal to the current one. A mismatch resets the session. VIBE BRANCH DETECTED iff otherwise on a vibe branch and not vibing. Otherwise IDLE |
| StatusOnly.NamelessVibingLooksReady | vibe_status_only.py:59 | is_vibing with an empty branch name is reported IDLE and left as is |
| StatusOnly.MismatchOnVibeBranchIsSeen | vibe_status_only.py:62-69 | after a mismatch reset, a vibe branch is reported as detected |
| StatusOnly.JudgeIsStable | vibe_status_only.py:58-71 | judging again with the resulting session gives the same answer |
| StatusOnly.FailedQueryKeepsSession | vibe_status_only.py:51-55 | a failed query answers exactly "⚪ NOT INITIALIZED: Could not determine current branch" and keeps the session |
| LegacyWatch.NewLegacyHandler | main.py:74-79 | a new handler has last commit time 0 and a 1-second interval |
| LegacyWatch.Name | main.py:83 | the name is the last path component |
| LegacyWatch.MatchesAny | main.py:91-96 | some pattern matches iff one of the list does |
| LegacyWatch.ShouldIgnorePath | main.py:81-98 | ignored iff some pattern of the fixed list matches. A `*` pattern matches a name suffix; any other pattern matches a whole component |
| LegacyWatch.GitComponentIgnored | main.py:86-96 | a `.git` component is always ignored |
| LegacyWatch.ComponentsAreWhole | main.py:91-96 | `.gitignore` is not ignored, while `pkg/m.pyc` is |
| LegacyWatch.OnEvent | main.py:100-114 | the signal is raised, and last becomes now, iff the event is not a directory, not ignored, and at least a second has passed |
| LegacyWatch.SignalsAreASecondApart | main.py:108-114 | after a signal, no event within the next second signals again |
| LegacyWatch.FreshHandlerSignals | main.py:78-114 | a new handler signals on the first eligible event after the first second |
| Legacy.StartWatching | main.py:192-204 | the session's branch, flag, observer and event are all set, on a new watcher |
| Legacy.LegacyStart | main.py:144-209 | while vibing, "Already vibing" is returned and nothing is issued. Outside a repository the start fails |
| Legacy.StartOnBranch | main.py:158-176 | a successful query naming a vibe branch is reused without any checkout |
| Legacy.StartFresh | main.py:178-206 | main, else master, else the error. Then `checkout -b vibe-<ts>`. The session is set only after that succeeds |
| Legacy.StartFreshOutcome | main.py:178-206 | a started session is vibing on a vibe branch with a new observer; a failed one changes nothing but the trace |
| Legacy.LegacyStartOutcome | main.py:144-209 | the same for the whole start, which also keeps the context invariant |
| Legacy.Halt | main.py:225-230 | before any git command, the observer is stopped and the event set |
| Legacy.Reset | main.py:284-292 | the exception path clears all four fields and stops the observer |
| Legacy.LegacyStop | main.py:213-292 | not vibing: nothing happens. Outside a repository the session is reset. Otherwise the watcher is halted first and the script runs |
| Legacy.LegacyScript | main.py:233-241 | no branch point ends the stop with "Error finding branch point" |
| Legacy.LegacySquash | main.py:243-249 | the reset runs only when the count succeeded and is above 1; the commit runs only after the reset succeeded, and its result is ignored; an unparseable count raises |
| Legacy.AfterBase | main.py:243-292 | a raised squash resets the session; otherwise publishing follows |
| Legacy.WithBranch | main.py:222 | a command built from a missing branch name fails without being issued |
| Legacy.LegacyPublish | main.py:251-256 | checkout main, pull and the branch checkout run with their results ignored |
| Legacy.Rebase | main.py:257-264 | a failed rebase or push returns its error and keeps the session vibing |
| Legacy.OpenLegacyPr | main.py:266-282 | the PR command is routed through git, so `git gh pr create …` is issued. The PR is reported iff it succeeded. The session is cleared either way |
| Legacy.LabelledFailureLeavesHaltedVibing | main.py:234-264 | after a labelled failure the observer is stopped while the session still says vibing, so the next start answers "Already vibing" |
| Legacy.StoppedForgetsSession | main.py:266-282 | a finished stop clears the session and its last command is the PR command |
| Legacy.StopIssuesOnlyGit | main.py:213-292 | every command legacy stop issues, the PR creation included, starts with `git` |
| Legacy.LegacyStatus | main.py:296-315 | VIBING iff vibing with a branch equal to the real one. A mismatch or a failed query clears the flag and branch. Otherwise IDLE |
| Legacy.StatusResetKeepsObserver | main.py:306-310 | the status reset leaves the observer running |
| Legacy.LegacySignal | main.py:318-324 | the signal handler stops the observer and clears only the flag |
| Legacy.LegacyCommitIfDirty | main.py:127-136 | after the porcelain query, add and commit are issued iff the tree is dirty |
| Legacy.LegacyWorkerPass | main.py:121-136 | a worker pass acts iff vibing with a raised event; it clears the event and runs the dirty check |
| Legacy.LegacyToolsKeepConsistent | main.py:213-324 | status, the signal handler, a worker pass and stop keep the context invariant |
| RustLib.RunSteps | src/lib.rs:39-43 | with `?` semantics, the steps run in order. The run ends at the first failing step, with that step's error. On success every step ran and succeeded |
| RustLib.NewSession | src/lib.rs:25-33 | a session exists iff repository validation succeeds |
| RustLib.RustBranchName | src/lib.rs:36 | the branch is `vibe-` followed by the timestamp, so it is a vibe branch |
| RustLib.StartVibing | src/lib.rs:35-52 | create-from-main, checkout and start-watcher run in order with early exit; success returns the Vibing session and the branch |
| RustLib.StopVibing | src/lib.rs:56-84 | backup, checkout main, pull, checkout branch, squash, push, PR and checkout main run in order with early exit; success returns Idle on the same repository |
| RustLib.StopCompletesOnMain | src/lib.rs:62-83 | a successful stop ran all eight steps, the first creating `backup-<branch>` and the last checking out main |
| RustLib.FirstFailureEndsRun | src/lib.rs:62-78 | when step n is the first to fail, exactly the steps up to n ran and the result is its error |
| RustLib.FailedPushStopsScript | src/lib.rs:74 | a failing push is the last step run: no PR, no checkout of main |
| RustLib.StartStopsAtFirstError | src/lib.rs:39-43 | the first failing start step is the last one run and the start fails |
| RustService.NewService | src/service.rs:25-31 | the service exists iff validation succeeds, and then holds an Idle session |
| RustService.StartHeld | src/service.rs:58-74 | on success the holder is Vibing with the branch. On failure the holder is a fresh Idle iff revalidation succeeds, and None otherwise |
| RustService.StartFresh | src/service.rs:75-91 | with no holder a session is created first; a creation or start failure leaves the holder None |
| RustService.ServiceStart | src/service.rs:47-95 | while Vibing it answers "Already vibing" and changes nothing; from Idle or None it runs the respective start |
| RustService.ServiceStop | src/service.rs:97-124 | with no holder or an Idle holder nothing changes. From Vibing, success gives an Idle holder, while failure leaves the holder None because the session was taken |
| RustService.ServiceStatus | src/service.rs:126-141 | the status is VIBING, IDLE or NOT INITIALIZED exactly as the holder is Vibing, Idle or None |
| RustService.ToolsKeepOwnership | src/service.rs:47-124 | a held session always belongs to the service's own repository |
| RustService.FailedStopLosesSession | src/service.rs:107-113 | after a failed stop the status is NOT INITIALIZED and a second stop answers "No active session" |
| RustService.StartIsIdempotentWhileVibing | src/service.rs:51-55 | a started service answers a second start with "Already vibing" and no change |
| RustService.StopThenStatusIdle | src/service.rs:106-111 | after a successful stop the status is IDLE, and it was VIBING before |
| RustClient.NewClient | src/mcp.rs:10-12 | a new client has no session and branch() is None |
| RustClient.ClientStart | src/mcp.rs:15-20 | with no session it starts one on the branch; with one it is a no-op |
| RustClient.ClientStop | src/mcp.rs:23-27 | an active session is finished exactly once and cleared; with none it is a no-op |
| RustClient.StartThenStopFinishesBranch | src/mcp.rs:15-27 | start followed by stop finishes exactly that branch and leaves no session |
| RustClient.ParseCommand | src/bin/vibe-git-mcp.rs:12-33 | the command is the first whitespace token: "start" with a second token, a bare "start", "stop", "status", or unknown. Extra tokens are ignored |
| RustClient.BlankLineIsUnknown | src/bin/vibe-git-mcp.rs:33 | a blank line is an unknown command |
| RustClient.Execute | src/bin/vibe-git-mcp.rs:14-33 | "start b" starts and prints "started b"; "stop" stops and prints "stopped"; "status" prints "vibing on b" iff a branch is active, else "idle"; the rest change nothing |
| RustClient.StartReportsEvenWhenActive | src/bin/vibe-git-mcp.rs:14-18 | "start b" prints "started b" even when another session is active and nothing changes |
| RustClient.LinesRead | src/bin/vibe-git-mcp.rs:7-11 | only lines that were read count |
| RustClient.OneOutputPerLine | src/bin/vibe-git-mcp.rs:7-35 | exactly one line is printed per line read |
| RustClient.ServeAppend | src/bin/vibe-git-mcp.rs:7-35 | serving two inputs in turn is serving their concatenation |
| RustClient.ReadErrorIsSkipped | src/bin/vibe-git-mcp.rs:10 | a read error prints nothing and changes nothing |
| RustMain.FindGitRepository | src/main.rs:7-20 | the deepest prefix of cwd with a `.git` entry, the root included; the error iff there is none |
| RustMain.LocatorsAgreeBelowRoot | src/main.rs:7-20 | whenever the Python walk finds a repository, the Rust walk finds the same one |
| RustMain.RootRepositoryOnlySeenByRust | src/main.rs:10-18 | a repository at the filesystem root is found by the Rust walk and missed by the Python walk |
| RustMain.RepoPath | src/main.rs:24-28 | argv[1] is used when present. Otherwise the discovered directory is used, and the program panics iff there is none |
| RustMain.ArgumentWinsOverSearch | src/main.rs:25-28 | an explicit argument is used even when no repository could be discovered |
| RustMain.Launch | src/main.rs:24-31 | the service starts iff a path is found and validated, and then reports IDLE for that path |
| RustWatcher.AnyGitPath | src/watcher.rs:50-53 | an event is skipped iff one of its paths contains `.git` as a substring |
| RustWatcher.SubstringFilterSkipsLookalikes | src/watcher.rs:51 | any name starting with `.git` is skipped |
| RustWatcher.GitignoreSkipped | src/watcher.rs:51 | changes to `.gitignore` are skipped |
| RustWatcher.Elapsed | src/watcher.rs:56 | elapsed time saturates at zero |
| RustWatcher.CommitChanges | src/watcher.rs:72-87 | `add .` then `commit -m "Auto-commit at <ts>"`; the commit is skipped iff add failed to spawn |
| RustWatcher.SpawnTask | src/watcher.rs:39-40 | the task starts with last_commit at its own start time and nothing committed |
| RustWatcher.OnEvent | src/watcher.rs:49-59 | a skipped event, or one within a second of the last commit, changes nothing; otherwise it commits and resets last_commit to the instant the commit returned |
| RustWatcher.ThrottleRunsFromCommitEnd | src/watcher.rs:55-58 | the second is counted from the end of a commit: an event less than a second after the commit returned is not committed, however long after the event that caused it |
| RustWatcher.Iterate | src/watcher.rs:42-63 | shutdown is checked before draining; on shutdown the task ends with nothing drained |
| RustWatcher.Drain | src/watcher.rs:49-60 | the queued events are handled in arrival order, and handling them never changes whether the task has stopped; DrainExtendsTrace and ShutdownDrainsNothing state the rest |
| RustWatcher.SkippedEventsNeverCommit | src/watcher.rs:50-53 | a batch of skipped events changes nothing |
| RustWatcher.NothingWithinASecond | src/watcher.rs:55-59 | events within a second of the last commit change nothing |
| RustWatcher.NoCommitInFirstSecond | src/watcher.rs:40 | nothing is committed during the first second |
| RustWatcher.DrainExtendsTrace | src/watcher.rs:49-60 | draining only appends commands |
| RustWatcher.ShutdownDrainsNothing | src/watcher.rs:43-46 | a pending shutdown stops the task before any event is drained |
| RustWatcher.StopHandle | src/watcher.rs:14-18 | stop succeeds iff the task still receives |
| RustWatcher.StopEndsLoop | src/watcher.rs:14-46 | a successful stop ends the loop at its next iteration |
| RustWatcher.Queued | src/watcher.rs:26-36 | events reach the task only while the watcher is alive |
| RustWatcher.StartAutoCommit | src/watcher.rs:21-70 | as written the watcher is a local dropped at return, so the task's event source is closed |
| RustWatcher.DroppedWatcherNeverCommits | src/watcher.rs:21-70 | as written the auto-commit task never commits, whatever happens in the repository |
| RustWatcher.StartAutoCommitKept | src/watcher.rs:21-70 | the intended version keeps the watcher alive with the task |
| RustWatcher.KeptWatcherCommits | src/watcher.rs:49-59 | kept alive, an eligible event after the first second is committed, and last_commit becomes the instant that commit returned |
| Api.Unresolved | src/vibe_git/result_types.py:5 | the unresolved uses are exactly those not defined: every reported use is made and not defined, and every undefined use is reported. The same function checks the names result_types.py imports and the calls src/mcp.rs makes |
| Api.UnresolvedIdempotent | src/vibe_git/result_types.py:5 | resolving the report again reports the same uses, so nothing reported is defined |
| Api.ResultTypesImportFails | src/vibe_git/result_types.py:5 | PRBody and PRTitle are imported from type_utils, which defines neither |
| Api.NoneDefinedAllUnresolved | src/mcp.rs:15-31 | when no use is defined, every use is reported, in order |
| Api.ClientApiIsMissing | src/mcp.rs:15-31 | none of new(&str), start, finish and branch that the client calls exists in src/lib.rs |

## Left out

- **Processes, threads, timers and signals.** These are all outside the model:
  - subprocess spawning, the watchdog observer, threading Event/Thread and join timeouts;
  - `time.sleep` (`src/vibe_git/main.py:633-634`);
  - `sys.exit`, tokio tasks, the 100 ms sleep, and mpsc channels.

  They become the process oracle, watcher handles in the `running` set, and commit signals in the `signalled` set. Nothing runs concurrently.
- **src/git.rs** (the libgit2 wrappers): each is an opaque oracle step `LibStep` of the `src/lib.rs` scripts.
- **src/typestate.rs**: it holds marker types with no behaviour.
- **MCP plumbing**: FastMCP registration, the rmcp `ServerHandler`, the JSON-RPC transport and the `main()` entry points are out of scope. The same holds for the mutex in `src/service.rs`, which only serialises calls.
- **JSON and ISO-8601**: the encoding and time parsing in `state_persistence.py`. The state file is `NoFile`, `Json(map)`, `Corrupt` (UTF-8 text that is not an accepted JSON object) or `Undecodable(error)` (bytes that are not UTF-8, with the text of the decoding error taken as given). Other reading failures, such as a permission error, are not modelled. Start-time parsing is a parameter `parseTime`. Ages are integer seconds.
- **Floating-point time**: Python's float seconds are integer milliseconds in the handlers and integer seconds elsewhere.
- **Message texts**: most are separate `*Text` functions that the contracts do not constrain. Only the strings the behaviour depends on are stated.
- **beartype and plum runtime checks and dispatch**: the overloads are modelled as separate functions. The `NonEmptyString` overload of `parse_commit_message` (`src/vibe_git/main.py:523-530`) is not modelled; it agrees with the string version on every non-empty message.
- **Tests and mutants**: the test scripts and `mutants/` are not modelled.
- Persistence.FromDict: a value of the wrong JSON type for a field is rejected. Python's dataclass would accept it and store it unchecked. Values are limited to null, booleans and strings.
- Text.ToLower: maps A-Z and U+212A only. Python's `str.lower()` also lowers other letters, and turns U+0130 into two characters. None of those results contains h, o or k, so whether the lowered output mentions "hook" is the same.
- Retrying.RunGitWithHookRetry: when `max_retries <= 0` the source raises `UnboundLocalError` at line 553. The model returns a distinct `Unbound` result instead of an exception value.
- Commands.RunCommand: the only exception modelled is the repository lookup failing when no cwd is given. Any other spawn failure is a `Raised` result of the oracle.
- RustMain.RepoPath: a failure of `env::current_dir()` is not modelled. The panic text approximates the `Debug` rendering of the error.
- RustMain.FindGitRepository: paths are sequences of components, and the root is the empty path.
- RustService.ServiceStop: the branch answering "Error: Could not access vibing session" (`src/service.rs:116`) cannot be reached once the lock is held. It is not modelled.
- RustLib.StartVibing: the watcher handle is dropped when `start_vibing` returns, so no shutdown is ever sent to the task. The task itself is modelled in `RustWatcher`.
- RustWatcher.Queued: events that arrive between creating the watcher and dropping it are not modelled.
- RustClient.ClientStart: `src/mcp.rs` calls a session API that `src/lib.rs` does not define (`Api.ClientApiIsMissing`). The client is modelled on what the calls evidently mean: a session per branch, finished once.
- RustClient.ClientBranch and RustClient.Serve are helpers with no contract of their own. Their properties are stated by `ClientStart`, `ClientStop`, `OneOutputPerLine`, `ServeAppend` and `ReadErrorIsSkipped`.
- RustWatcher.RunTask is the loop of the spawned task (`src/watcher.rs:42-63`), one tick per iteration, with no contract of its own. `DroppedWatcherNeverCommits` and `KeptWatcherCommits` state what it does with and without the watcher.
- **Records built from queries**: nothing in the source builds a `BranchCheckResult`, `CommitEvent` or `GitOperationEvent`. `Records.CheckBranch`, `Records.PendingCommit` and `Records.RecordGitOperation` fill their fields from the model's own queries, as the field names describe. `PendingCommit` lists whole porcelain lines, status letters included, as the changed files.
- Tools.VibeStatusTool: the contract states only the context left behind; the answer texts are not constrained.
- Stopping.StopVibingTool: beyond the not-vibing answer, the texts are not constrained.
- Stopping.Squash: the commit count is parsed by `Text.ParseInt`, which takes only an optional sign and ASCII digits. Python's `int()` also accepts underscores between digits (`"1_0"`) and non-ASCII decimal digits (`"٣"`). The count is the output of a successful `git rev-list --count`, which is always plain ASCII digits, so the difference only shows on output git does not produce.
- Stopping.Squash: for a count that does not parse, the error text `IntError` always puts the text in single quotes. Python renders it with `%.200R`: it switches to double quotes when the text holds a single quote, escapes it as `repr` does, and cuts it at 200 characters.
- Legacy.LegacySquash: the same two simplifications as `Stopping.Squash`, since it parses the count with the same `Text.ParseInt` and reports with the same `IntError`.
- Records.PairAt: Python's negative indices are not modelled; `__getitem__` raises for them, as for every index other than 0 and 1.

## Findings

| source | as written | input that shows it | evidently intended | confidence | as-written member | corrected member |
|---|---|---|---|---|---|---|
| src/watcher.rs:26-36 | `start_auto_commit` keeps the notify watcher in a local variable. The variable is dropped when the function returns, which ends the watch, so the spawned task's event channel is never fed | start a session, then modify any tracked file more than a second later: no auto-commit is issued | the watcher lives as long as the task, so file changes after the first second are committed | medium, not executed | RustWatcher.DroppedWatcherNeverCommits | RustWatcher.KeptWatcherCommits |

=== FILE: api.dfy ===
/**
 * Name resolution between modules of the repository, where it fails:
 * src/vibe_git/result_types.py imports two names that
 * src/vibe_git/type_utils.py does not define, and src/mcp.rs calls a
 * session API that src/lib.rs does not provide. A module is reduced to the
 * names it defines and the names it uses.
 */
module Api {

  /** The top-level names src/vibe_git/type_utils.py defines. */
  const TypeUtilsNames: set<string> := {
    "GitPath", "BranchName", "CommitHash", "CommitMessage", "CommandResult",
    "is_vibe_branch", "validate_git_path"}

  /** `from .type_utils import BranchName, PRBody, PRTitle`. */
  const ResultTypesImports: seq<string> := ["BranchName", "PRBody", "PRTitle"]

  /**
   * The uses with no matching definition, in order of use: the imported
   * names a module does not define, or the calls a crate does not provide.
   */
  function Unresolved<T(==)>(uses: seq<T>, defined: set<T>): (r: seq<T>)
    ensures forall i :: 0 <= i < |r| ==> r[i] in uses && r[i] !in defined
    ensures forall i :: 0 <= i < |uses| && uses[i] !in defined ==> uses[i] in r
    ensures r == [] <==> forall i :: 0 <= i < |uses| ==> uses[i] in defined
    decreases |uses|
  {
    if uses == [] then []
    else
      var rest := Unresolved(uses[1..], defined);
      assert forall i :: 1 <= i < |uses| ==> uses[i] == uses[1..][i - 1];
      if uses[0] in defined then rest else [uses[0]] + rest
  }

  /** Resolving the report again reports the same uses: nothing reported is defined. */
  lemma {:induction false} UnresolvedIdempotent<T>(uses: seq<T>, defined: set<T>)
    ensures Unresolved(Unresolved(uses, defined), defined) == Unresolved(uses, defined)
    decreases |uses|
  {
    if uses != [] {
      UnresolvedIdempotent(uses[1..], defined);
      if uses[0] !in defined {
        var rest := Unresolved(uses[1..], defined);
        assert ([uses[0]] + rest)[1..] == rest;
      }
    }
  }

  /** When nothing used is defined, every use is reported, in order. */
  lemma {:induction false} NoneDefinedAllUnresolved<T>(uses: seq<T>, defined: set<T>)
    requires forall i :: 0 <= i < |uses| ==> uses[i] !in defined
    ensures Unresolved(uses, defined) == uses
    decreases |uses|
  {
    if uses != [] {
      var rest := uses[1..];
      assert forall i :: 0 <= i < |rest| ==> rest[i] == uses[i + 1];
      NoneDefinedAllUnresolved(rest, defined);
      assert [uses[0]] + rest == uses;
    }
  }

  /** Importing src/vibe_git/result_types.py fails: PRBody and PRTitle are not there. */
  lemma ResultTypesImportFails()
    ensures Unresolved(ResultTypesImports, TypeUtilsNames) == ["PRBody", "PRTitle"]
  {
    assert "PRBody" !in TypeUtilsNames && "PRTitle" !in TypeUtilsNames;
  }

  /** An associated function or method: the type it is on, its name, what it takes besides the receiver. */
  datatype Sig = Sig(onType: string, name: string, takes: seq<string>)

  /** What src/lib.rs provides on `VibeSession`. */
  const LibSigs: set<Sig> := {
    Sig("VibeSession<Idle>", "new", ["PathBuf"]),
    Sig("VibeSession<Idle>", "start_vibing", []),
    Sig("VibeSession<Vibing>", "stop_vibing", ["String", "String"])}

  /** What src/mcp.rs calls on it. */
  const McpCalls: seq<Sig> := [
    Sig("VibeSession<Idle>", "new", ["&str"]),
    Sig("VibeSession<Idle>", "start", []),
    Sig("VibeSession<Vibing>", "finish", []),
    Sig("VibeSession<Vibing>", "branch", [])]

  /** None of the client's four calls exists in src/lib.rs as called. */
  lemma ClientApiIsMissing()
    ensures Unresolved(McpCalls, LibSigs) == McpCalls
  {
    assert ["&str"] != ["PathBuf"] by { assert ["&str"][0] != ["PathBuf"][0]; }
    assert forall i :: 0 <= i < |McpCalls| ==> McpCalls[i] !in LibSigs;
    NoneDefinedAllUnresolved(McpCalls, LibSigs);
  }
}

=== FILE: base.dfy ===
/** Failure-carrying wrappers shared by every module of the model. */
module Base {

  /** A value that may be absent: Python's `X | None`, Rust's `Option<X>`. */
  datatype Option<+T> = None | Some(value: T) {
    function GetOr(default: T): T {
      match this
      case Some(v) => v
      case None => default
    }
  }

  /** A computation that either produces a value or raises an error with a message. */
  datatype Result<+T> = Ok(value: T) | Err(message: string) {
    function ToOption(): Option<T> {
      match this
      case Ok(v) => Some(v)
      case Err(_) => None
    }
  }
}

=== FILE: commands.dfy ===
/**
 * The command runner (`run_command` / `run_git_command` in
 * src/vibe_git/git_utils.py, duplicated in src/vibe_git/main.py, main.py and
 * vibe_status_only.py). Spawning a process is replaced by an oracle that
 * answers each command given the history of commands issued before it, so the
 * same command may succeed once and fail later. Every issued command is
 * appended to a trace, which is what the operation contracts speak about.
 */
module Commands {
  import opened Base
  import opened Text
  import opened Paths

  type Argv = seq<string>
  type Trace = seq<Argv>

  /** What the operating system reports for one spawned process. */
  datatype ProcessResult =
    | Exited(code: int, stdout: string, stderr: string)
    | Raised(message: string)   // the spawn itself failed (missing binary, bad cwd, ...)

  /** The outside world: its answer to a command, given every command issued before it. */
  type Process = (Trace, Argv) -> ProcessResult

  /** The fixed inputs of one call: process oracle, working directory, filesystem, clock. */
  datatype Env = Env(
    proc: Process,
    cwd: Path,
    present: Exists,
    now: nat,         // int(time.time())
    nowIso: string)   // datetime.now().isoformat()

  /** `(success, output)` as the runner returns it. */
  datatype Outcome = Outcome(ok: bool, out: string)

  /** An outcome together with the trace after the command. */
  datatype Ran = Ran(outcome: Outcome, trace: Trace)

  /**
   * How a finished process becomes `(success, output)`: success is a zero exit
   * code; the output is the stripped stdout, or the stripped stderr when stdout
   * is blank; a spawn failure gives `(False, str(e))`.
   */
  function Collect(p: ProcessResult): (o: Outcome)
    ensures o.ok <==> p.Exited? && p.code == 0
    ensures p.Raised? ==> o.out == p.message
    ensures p.Exited? ==> Strip(o.out) == o.out
    ensures p.Exited? ==> (o.out == "" <==> Strip(p.stdout) == "" && Strip(p.stderr) == "")
    ensures p.Exited? && Strip(p.stdout) != "" ==> o.out == Strip(p.stdout)
    ensures p.Exited? && Strip(p.stdout) == "" ==> o.out == Strip(p.stderr)
  {
    match p
    case Raised(m) => Outcome(false, m)
    case Exited(code, so, se) => Outcome(code == 0, Output(so, se))
  }

  /** The output text of a finished process: stripped stdout, or stripped stderr when stdout is blank. */
  function Output(stdout: string, stderr: string): (out: string)
    ensures Strip(out) == out
    ensures out == "" <==> Strip(stdout) == "" && Strip(stderr) == ""
    ensures Strip(stdout) != "" ==> out == Strip(stdout)
    ensures Strip(stdout) == "" ==> out == Strip(stderr)
  {
    StripIdempotent(stdout);
    StripIdempotent(stderr);
    if Strip(stdout) != "" then Strip(stdout) else Strip(stderr)
  }

  /**
   * `run_command(args, cwd)`. Without an explicit `cwd` the repository root is
   * looked up first; when that lookup fails nothing is spawned and the lookup's
   * error comes back as a failed result.
   */
  function RunCommand(env: Env, trace: Trace, argv: Argv, cwd: Option<Path>): (r: Ran)
    ensures r.trace == trace || r.trace == trace + [argv]
    ensures r.trace == trace <==> cwd.None? && !RepoAbove(env.present, env.cwd)
    ensures r.trace == trace ==> r.outcome == Outcome(false, NotInRepository)
    ensures r.trace != trace ==> r.outcome == Collect(env.proc(trace, argv))
  {
    var dir := if cwd.Some? then Ok(cwd.value) else FindGitRepo(env.cwd, env.present);
    match dir
    case Err(e) => Ran(Outcome(false, e), trace)
    case Ok(_) =>
      assert |trace + [argv]| != |trace|;
      Ran(Collect(env.proc(trace, argv)), trace + [argv])
  }

  /** `run_command(command: str, cwd)`: the whitespace-split words of the command line. */
  function RunCommandLine(env: Env, trace: Trace, command: string, cwd: Option<Path>): (r: Ran)
    ensures r == RunCommand(env, trace, SplitWhitespace(PythonBlanks, command), cwd)
    ensures r.trace != trace ==> r.trace[|trace|] == SplitWhitespace(PythonBlanks, command)
  {
    RunCommand(env, trace, SplitWhitespace(PythonBlanks, command), cwd)
  }

  /** `run_git_command(args, cwd)`: the same runner with "git" in front of the arguments. */
  function RunGitCommand(env: Env, trace: Trace, args: Argv, cwd: Option<Path>): (r: Ran)
    ensures r == RunCommand(env, trace, ["git"] + args, cwd)
    ensures r.trace != trace ==> r.trace[|trace|][0] == "git" && r.trace[|trace|][1..] == args
  {
    RunCommand(env, trace, ["git"] + args, cwd)
  }

  /** A git command run in a known repository: it is always issued. */
  function Git(env: Env, trace: Trace, repo: Path, args: Argv): (r: Ran)
    ensures r.trace == trace + [["git"] + args]
    ensures r.outcome == Collect(env.proc(trace, ["git"] + args))
  {
    RunGitCommand(env, trace, args, Some(repo))
  }

  /** `git add .`: stage everything, as the auto-commits and the WIP commit do. */
  const AddAllArgv: Argv := ["git", "add", "."]

  /** Appending commands one at a time is appending them together; stated generically so the argv contents stay out of the proof. */
  lemma AppendTwo<T>(t: seq<T>, a: T, b: T)
    ensures t + [a] + [b] == t + [a, b]
  {
  }

  lemma AppendThree<T>(t: seq<T>, a: T, b: T, c: T)
    ensures t + [a] + [b] + [c] == t + [a, b, c]
  {
  }

  lemma AppendOneTwo<T>(t: seq<T>, a: T, b: T, c: T)
    ensures t + [a] + [b, c] == t + [a, b, c]
  {
  }

  lemma AppendOneOneTwo<T>(t: seq<T>, a: T, b: T, c: T, d: T)
    ensures t + [a] + [b] + [c, d] == t + [a, b, c, d]
  {
  }

  /** `t2` is `t1` with more commands issued after it. */
  predicate Extends(t2: Trace, t1: Trace) {
    |t1| <= |t2| && t2[..|t1|] == t1
  }

  lemma ExtendsTrans(t3: Trace, t2: Trace, t1: Trace)
    requires Extends(t3, t2) && Extends(t2, t1)
    ensures Extends(t3, t1)
  {
    assert t3[..|t1|] == t3[..|t2|][..|t1|];
  }

  lemma ExtendsAppend(t: Trace, more: Trace)
    ensures Extends(t + more, t)
  {
    assert (t + more)[..|t|] == t;
  }
}

=== FILE: flags.dfy ===
/**
 * The session record of the two earlier Python revisions, main.py and
 * vibe_status_only.py: four independent fields instead of a state datatype.
 * The observer and the commit Event are watcher handles, as in the current
 * revision's model.
 */
module Flags {
  import opened Base

  datatype FlagSession = FlagSession(
    branch: Option<string>,   // branch_name
    vibing: bool,             // is_vibing
    observer: Option<nat>,    // observer
    event: Option<nat>)       // commit_event

  /** `VibeSession()`: every field None or False. */
  function NewFlagSession(): (s: FlagSession)
    ensures s.branch.None? && !s.vibing && s.observer.None? && s.event.None?
  {
    FlagSession(None, false, None, None)
  }

  /** Python truthiness of `branch_name`: present and non-empty. */
  predicate HasBranchName(s: FlagSession) {
    s.branch.Some? && s.branch.value != ""
  }

  /** The record after a reset: nothing vibing, no branch. */
  function Forget(s: FlagSession): (t: FlagSession)
    ensures !t.vibing && t.branch.None? && t.observer == s.observer && t.event == s.event
  {
    s.(vibing := false, branch := None)
  }
}

=== FILE: git_utils.dfy ===
/**
 * Repository queries and branch helpers of src/vibe_git/git_utils.py and
 * src/vibe_git/type_utils.py. Each helper takes an optional `repo_path`; the
 * functions on an explicit path come first, and the `...At` functions add the
 * lookup that runs when the path is omitted.
 *
 * src/vibe_git/main.py has its own copies that require the path. Its
 * `has_uncommitted_changes` and `ensure_on_main_branch` issue the same
 * commands with the same results as the explicit-path functions here; its
 * `get_current_branch` adds a detached-HEAD fallback and is modelled in the
 * Workspace module.
 */
module GitUtils {
  import opened Base
  import opened Text
  import opened Paths
  import opened Commands

  /** A query's answer and the trace after asking it. */
  datatype Query<T> = Query(value: T, trace: Trace)

  /** `(has_changes, details)`. */
  datatype Changes = Changes(dirty: bool, details: string)

  const ShowCurrent: Argv := ["git", "branch", "--show-current"]
  const Porcelain: Argv := ["git", "status", "--porcelain"]

  /** The prefix that marks branches created by the tool. */
  const VibePrefix: string := "vibe-"

  /** `is_vibe_branch`: a case-sensitive prefix test. */
  predicate IsVibeBranch(branch: string) {
    StartsWith(branch, VibePrefix)
  }

  /** Only the prefix counts: "vibe-" in the middle of a name does not make a vibe branch. */
  lemma VibeBranchExamples()
    ensures IsVibeBranch("vibe-1712345678")
    ensures !IsVibeBranch("feature/vibe-like")
    ensures !IsVibeBranch("Vibe-1")
    ensures !IsVibeBranch("vibe")
  {
    assert "feature/vibe-like"[0] != VibePrefix[0];
    assert "Vibe-1"[0] != VibePrefix[0];
  }

  /** The branch name a session creates at time `ts`: `vibe-<ts>`. */
  function VibeBranchName(ts: nat): (b: string)
    ensures IsVibeBranch(b)
    ensures b[|VibePrefix|..] == NatToString(ts)
    ensures AllDigits(b[|VibePrefix|..]) && |b| > |VibePrefix|
  {
    var b := VibePrefix + NatToString(ts);
    assert b[..|VibePrefix|] == VibePrefix;
    b
  }

  /** The timestamp is recoverable from a generated branch name. */
  lemma VibeBranchNameTimestamp(ts: nat)
    ensures ParseNat(VibeBranchName(ts)[|VibePrefix|..]) == Some(ts)
  {
    ParseNatToString(ts);
  }

  /**
   * `get_current_branch` of git_utils.py: the command's output when it
   * succeeded with non-empty output, and None otherwise. There is no
   * detached-HEAD special case in this revision.
   */
  function CurrentBranch(env: Env, trace: Trace, repo: Path): (r: Query<Option<string>>)
    ensures r.trace == trace + [ShowCurrent]
    ensures var o := Collect(env.proc(trace, ShowCurrent));
      && (r.value.Some? <==> o.ok && o.out != "")
      && (r.value.Some? ==> r.value.value == o.out && Strip(r.value.value) == r.value.value)
  {
    assert ["git"] + ["branch", "--show-current"] == ShowCurrent;
    var ran := Git(env, trace, repo, ["branch", "--show-current"]);
    var o := ran.outcome;
    if o.ok && o.out != "" then Query(Some(Strip(o.out)), ran.trace) else Query(None, ran.trace)
  }

  /**
   * `has_uncommitted_changes`: dirty exactly when `status --porcelain`
   * succeeded with non-blank output; the details are that output when dirty
   * and empty otherwise.
   */
  function HasUncommittedChanges(env: Env, trace: Trace, repo: Path): (r: Query<Changes>)
    ensures r.trace == trace + [Porcelain]
    ensures var o := Collect(env.proc(trace, Porcelain));
      && (r.value.dirty <==> o.ok && Strip(o.out) != "")
      && (r.value.dirty ==> r.value.details == o.out && r.value.details != "")
      && (!r.value.dirty ==> r.value.details == "")
  {
    assert ["git"] + ["status", "--porcelain"] == Porcelain;
    var ran := Git(env, trace, repo, ["status", "--porcelain"]);
    var o := ran.outcome;
    var dirty := o.ok && Strip(o.out) != "";
    Query(Changes(dirty, if dirty then Strip(o.out) else ""), ran.trace)
  }

  /** `checkout_branch`: issues exactly `git checkout <branch>`. */
  function CheckoutBranch(env: Env, trace: Trace, repo: Path, branch: string): (r: Ran)
    ensures r.trace == trace + [["git", "checkout", branch]]
    ensures r.outcome == Collect(env.proc(trace, ["git", "checkout", branch]))
  {
    assert ["git"] + ["checkout", branch] == ["git", "checkout", branch];
    Git(env, trace, repo, ["checkout", branch])
  }

  /** `create_branch`: issues exactly `git checkout -b <branch>`. */
  function CreateBranch(env: Env, trace: Trace, repo: Path, branch: string): (r: Ran)
    ensures r.trace == trace + [["git", "checkout", "-b", branch]]
    ensures r.outcome == Collect(env.proc(trace, ["git", "checkout", "-b", branch]))
  {
    assert ["git"] + ["checkout", "-b", branch] == ["git", "checkout", "-b", branch];
    Git(env, trace, repo, ["checkout", "-b", branch])
  }

  /**
   * `ensure_on_main_branch`: "main" when `checkout main` succeeds; otherwise
   * `checkout master` is tried and gives "master" on success; None when both
   * fail. At most two checkouts are issued and master is only tried after main
   * failed.
   */
  function EnsureOnMainBranch(env: Env, trace: Trace, repo: Path): (r: Query<Option<string>>)
    ensures var main := Collect(env.proc(trace, ["git", "checkout", "main"]));
      && (main.ok <==> r.value == Some("main"))
      && (main.ok ==> r.trace == trace + [["git", "checkout", "main"]])
      && (!main.ok ==> r.trace == trace + [["git", "checkout", "main"], ["git", "checkout", "master"]])
      && (!main.ok ==>
            var master := Collect(env.proc(trace + [["git", "checkout", "main"]], ["git", "checkout", "master"]));
            (master.ok <==> r.value == Some("master")) && (!master.ok <==> r.value == None))
  {
    var m := CheckoutBranch(env, trace, repo, "main");
    if m.outcome.ok then Query(Some("main"), m.trace)
    else
      var n := CheckoutBranch(env, m.trace, repo, "master");
      if n.outcome.ok then Query(Some("master"), n.trace) else Query(None, n.trace)
  }

  // ---------------------------------------------------------------------------
  // The optional `repo_path`
  // ---------------------------------------------------------------------------

  /**
   * `repo_path or find_git_repo()`: an explicit path is used as given;
   * otherwise the repository is looked up from the working directory, and
   * outside a repository the lookup raises "Not in a git repository".
   */
  function ResolveRepo(env: Env, repoPath: Option<Path>): (r: Result<Path>)
    ensures repoPath.Some? ==> r == Ok(repoPath.value)
    ensures r.Err? <==> repoPath.None? && !RepoAbove(env.present, env.cwd)
    ensures r.Err? ==> r.message == NotInRepository
    ensures repoPath.None? && r.Ok? ==> HasGitEntry(env.present, r.value)
  {
    if repoPath.Some? then Ok(repoPath.value) else FindGitRepo(env.cwd, env.present)
  }

  /**
   * `get_current_branch(repo_path)`. The lookup runs before `run_git_command`
   * and outside its try, so a failed lookup raises instead of answering None.
   */
  function CurrentBranchAt(env: Env, trace: Trace, repoPath: Option<Path>): (r: Result<Query<Option<string>>>)
    ensures r.Err? <==> repoPath.None? && !RepoAbove(env.present, env.cwd)
    ensures r.Err? ==> r.message == NotInRepository
    ensures r.Ok? ==> r.value == CurrentBranch(env, trace, ResolveRepo(env, repoPath).value)
  {
    match ResolveRepo(env, repoPath)
    case Err(e) => Err(e)
    case Ok(repo) => Ok(CurrentBranch(env, trace, repo))
  }

  /** `has_uncommitted_changes(repo_path)`; raises like CurrentBranchAt. */
  function HasUncommittedChangesAt(env: Env, trace: Trace, repoPath: Option<Path>): (r: Result<Query<Changes>>)
    ensures r.Err? <==> repoPath.None? && !RepoAbove(env.present, env.cwd)
    ensures r.Err? ==> r.message == NotInRepository
    ensures r.Ok? ==> r.value == HasUncommittedChanges(env, trace, ResolveRepo(env, repoPath).value)
  {
    match ResolveRepo(env, repoPath)
    case Err(e) => Err(e)
    case Ok(repo) => Ok(HasUncommittedChanges(env, trace, repo))
  }

  /** `checkout_branch(branch, repo_path)`; raises like CurrentBranchAt. */
  function CheckoutBranchAt(env: Env, trace: Trace, repoPath: Option<Path>, branch: string): (r: Result<Ran>)
    ensures r.Err? <==> repoPath.None? && !RepoAbove(env.present, env.cwd)
    ensures r.Err? ==> r.message == NotInRepository
    ensures r.Ok? ==> r.value == CheckoutBranch(env, trace, ResolveRepo(env, repoPath).value, branch)
  {
    match ResolveRepo(env, repoPath)
    case Err(e) => Err(e)
    case Ok(repo) => Ok(CheckoutBranch(env, trace, repo, branch))
  }

  /** `create_branch(branch, repo_path)`; raises like CurrentBranchAt. */
  function CreateBranchAt(env: Env, trace: Trace, repoPath: Option<Path>, branch: string): (r: Result<Ran>)
    ensures r.Err? <==> repoPath.None? && !RepoAbove(env.present, env.cwd)
    ensures r.Err? ==> r.message == NotInRepository
    ensures r.Ok? ==> r.value == CreateBranch(env, trace, ResolveRepo(env, repoPath).value, branch)
  {
    match ResolveRepo(env, repoPath)
    case Err(e) => Err(e)
    case Ok(repo) => Ok(CreateBranch(env, trace, repo, branch))
  }

  /**
   * `ensure_on_main_branch(repo_path)`: the lookup happens once, before the
   * first checkout, and the resolved path is passed on to both checkouts.
   */
  function EnsureOnMainBranchAt(env: Env, trace: Trace, repoPath: Option<Path>): (r: Result<Query<Option<string>>>)
    ensures r.Err? <==> repoPath.None? && !RepoAbove(env.present, env.cwd)
    ensures r.Err? ==> r.message == NotInRepository
    ensures r.Ok? ==> r.value == EnsureOnMainBranch(env, trace, ResolveRepo(env, repoPath).value)
  {
    match ResolveRepo(env, repoPath)
    case Err(e) => Err(e)
    case Ok(repo) => Ok(EnsureOnMainBranch(env, trace, repo))
  }

  /**
   * Outside a repository and without a path, the helpers raise, whereas the
   * command runner they call would have caught the same lookup failure and
   * answered with a failed result without issuing anything.
   */
  lemma {:induction false} OmittedPathRaisesBeforeRunner(env: Env, trace: Trace, branch: string)
    requires !RepoAbove(env.present, env.cwd)
    ensures CurrentBranchAt(env, trace, None) == Err(NotInRepository)
    ensures HasUncommittedChangesAt(env, trace, None) == Err(NotInRepository)
    ensures CheckoutBranchAt(env, trace, None, branch) == Err(NotInRepository)
    ensures CreateBranchAt(env, trace, None, branch) == Err(NotInRepository)
    ensures EnsureOnMainBranchAt(env, trace, None) == Err(NotInRepository)
    ensures RunGitCommand(env, trace, ["branch", "--show-current"], None) == Ran(Outcome(false, NotInRepository), trace)
  {
    var r := RunGitCommand(env, trace, ["branch", "--show-current"], None);
    assert r.trace == trace;
  }

  /** Inside a repository, omitting the path is the same as passing the repository the lookup finds. */
  lemma OmittedPathFindsRepo(env: Env, trace: Trace)
    requires RepoAbove(env.present, env.cwd)
    ensures var repo := FindGitRepo(env.cwd, env.present).value;
      && CurrentBranchAt(env, trace, None) == CurrentBranchAt(env, trace, Some(repo))
      && HasUncommittedChangesAt(env, trace, None) == HasUncommittedChangesAt(env, trace, Some(repo))
      && EnsureOnMainBranchAt(env, trace, None) == EnsureOnMainBranchAt(env, trace, Some(repo))
  {
  }
}

=== FILE: legacy.dfy ===
/**
 * The tools of the earliest revision, main.py: a flag session, start and stop
 * without persistence, a two-outcome status, and `gh` issued through the git
 * runner. Commands are answered by the same history-indexed oracle as in the
 * current revision's model.
 */
module Legacy {
  import opened Base
  import opened Text
  import opened Paths
  import opened Commands
  import opened GitUtils
  import opened Flags
  import opened Stopping

  /** Everything a legacy tool call can change. */
  datatype LCtx = LCtx(
    session: FlagSession,
    trace: Trace,
    running: set<nat>,     // observers not stopped
    signalled: set<nat>,   // commit Events that are set
    nextWatcher: nat)

  /**
   * A vibing session always has a branch name, and every handle in use was
   * allocated.
   */
  predicate Consistent(c: LCtx) {
    && (c.session.vibing ==> c.session.branch.Some?)
    && (c.session.observer.Some? ==> c.session.observer.value < c.nextWatcher)
    && (c.session.event.Some? ==> c.session.event.value < c.nextWatcher)
    && (forall w :: w in c.running ==> w < c.nextWatcher)
    && (forall w :: w in c.signalled ==> w < c.nextWatcher)
  }

  /** Every command issued so far went through the git runner. */
  predicate AllGit(t: Trace) {
    forall i :: 0 <= i < |t| ==> |t[i]| > 0 && t[i][0] == "git"
  }

  lemma AllGitAppend(t: Trace, more: Trace)
    requires AllGit(t) && AllGit(more)
    ensures AllGit(t + more)
  {
    assert forall i :: |t| <= i < |t + more| ==> (t + more)[i] == more[i - |t|];
  }

  // ---------------------------------------------------------------------------
  // start_vibing
  // ---------------------------------------------------------------------------

  datatype LStart =
    | AlreadyVibing
    | StartCrashed(error: string)
    | NoMainBranch
    | CreateFailed(out: string)
    | Started(branch: string, reused: bool)

  datatype LStartOut = LStartOut(result: LStart, ctx: LCtx)

  /** A new observer and Event (one handle) for `branch`, and the session set to vibing on it. */
  function StartWatching(c: LCtx, branch: string): (r: LCtx)
    ensures r.session == FlagSession(Some(branch), true, Some(c.nextWatcher), Some(c.nextWatcher))
    ensures r.running == c.running + {c.nextWatcher} && r.nextWatcher == c.nextWatcher + 1
    ensures r.trace == c.trace && r.signalled == c.signalled
    ensures Consistent(c) ==> Consistent(r) && c.nextWatcher !in c.running
  {
    var w := c.nextWatcher;
    c.(session := FlagSession(Some(branch), true, Some(w), Some(w)), running := c.running + {w}, nextWatcher := w + 1)
  }

  /**
   * `start_vibing`: refused while vibing; outside a repository the walk raises
   * and the error is returned; otherwise the current branch decides.
   */
  function LegacyStart(env: Env, c: LCtx): (r: LStartOut)
    ensures c.session.vibing ==> r == LStartOut(AlreadyVibing, c)
    ensures !c.session.vibing && FindGitRepo(env.cwd, env.present).Err? ==>
      r == LStartOut(StartCrashed(NotInRepository), c)
    ensures !c.session.vibing && FindGitRepo(env.cwd, env.present).Ok? ==>
      r == StartOnBranch(env, c, FindGitRepo(env.cwd, env.present).value)
  {
    if c.session.vibing then LStartOut(AlreadyVibing, c)
    else
      match FindGitRepo(env.cwd, env.present)
      case Err(e) => LStartOut(StartCrashed(e), c)
      case Ok(repo) => StartOnBranch(env, c, repo)
  }

  /**
   * A successful branch query naming a "vibe-" branch is reused with no
   * checkout; anything else goes to main (or master) for a new branch.
   */
  function StartOnBranch(env: Env, c: LCtx, repo: Path): (r: LStartOut)
    ensures var cur := Collect(env.proc(c.trace, ShowCurrent));
      var c1 := c.(trace := c.trace + [ShowCurrent]);
      && (cur.ok && IsVibeBranch(cur.out) ==> r == LStartOut(Started(cur.out, true), StartWatching(c1, cur.out)))
      && (!(cur.ok && IsVibeBranch(cur.out)) ==> r == StartFresh(env, c1, repo))
  {
    assert ["git"] + ["branch", "--show-current"] == ShowCurrent;
    var cur := Git(env, c.trace, repo, ["branch", "--show-current"]);
    var c1 := c.(trace := cur.trace);
    if cur.outcome.ok && IsVibeBranch(cur.outcome.out) then LStartOut(Started(cur.outcome.out, true), StartWatching(c1, cur.outcome.out))
    else StartFresh(env, c1, repo)
  }

  /**
   * `checkout main`, else `checkout master`, else an error; then
   * `checkout -b vibe-<now>`. The session changes only once that succeeded.
   */
  function StartFresh(env: Env, c: LCtx, repo: Path): (r: LStartOut)
    ensures var base := EnsureOnMainBranch(env, c.trace, repo);
      var made := CreateBranch(env, base.trace, repo, VibeBranchName(env.now));
      && (base.value.None? ==> r == LStartOut(NoMainBranch, c.(trace := base.trace)))
      && (base.value.Some? && !made.outcome.ok ==> r == LStartOut(CreateFailed(made.outcome.out), c.(trace := made.trace)))
      && (base.value.Some? && made.outcome.ok ==>
            r == LStartOut(Started(VibeBranchName(env.now), false), StartWatching(c.(trace := made.trace), VibeBranchName(env.now))))
  {
    var base := EnsureOnMainBranch(env, c.trace, repo);
    if base.value.None? then LStartOut(NoMainBranch, c.(trace := base.trace))
    else
      var made := CreateBranch(env, base.trace, repo, VibeBranchName(env.now));
      if !made.outcome.ok then LStartOut(CreateFailed(made.outcome.out), c.(trace := made.trace))
      else LStartOut(Started(VibeBranchName(env.now), false), StartWatching(c.(trace := made.trace), VibeBranchName(env.now)))
  }

  /** The fresh-branch path keeps the session consistent and starts only on a "vibe-" branch. */
  lemma {:induction false} StartFreshOutcome(env: Env, c: LCtx, repo: Path)
    requires Consistent(c)
    ensures var r := StartFresh(env, c, repo);
      && Consistent(r.ctx)
      && (r.result.Started? ==>
            && IsVibeBranch(r.result.branch) && r.ctx.session.branch == Some(r.result.branch) && r.ctx.session.vibing
            && r.ctx.session.observer == Some(c.nextWatcher) && c.nextWatcher !in c.running && c.nextWatcher in r.ctx.running)
      && (!r.result.Started? ==> r.ctx == c.(trace := r.ctx.trace))
  {
    var base := EnsureOnMainBranch(env, c.trace, repo);
    var made := CreateBranch(env, base.trace, repo, VibeBranchName(env.now));
    if base.value.None? {
      KeepsConsistent(c, base.trace);
    } else if !made.outcome.ok {
      KeepsConsistent(c, made.trace);
    } else {
      KeepsConsistent(c, made.trace);
      VibeBranchNameIsVibe(env.now);
      var w := StartWatching(c.(trace := made.trace), VibeBranchName(env.now));
      assert StartFresh(env, c, repo) == LStartOut(Started(VibeBranchName(env.now), false), w);
    }
  }

  lemma KeepsConsistent(c: LCtx, t: Trace)
    requires Consistent(c)
    ensures Consistent(c.(trace := t))
  {
  }

  /**
   * A legacy start ends vibing exactly when it reports Started, always on a
   * "vibe-" branch and with a fresh running watcher; every other ending
   * changes nothing but the trace.
   */
  lemma {:induction false} LegacyStartOutcome(env: Env, c: LCtx)
    requires Consistent(c)
    ensures var r := LegacyStart(env, c);
      && Consistent(r.ctx)
      && (r.result.Started? ==>
            && IsVibeBranch(r.result.branch) && r.ctx.session.branch == Some(r.result.branch) && r.ctx.session.vibing
            && r.ctx.session.observer == Some(c.nextWatcher) && c.nextWatcher !in c.running && c.nextWatcher in r.ctx.running)
      && (!r.result.Started? ==> r.ctx == c.(trace := r.ctx.trace))
  {
    if !c.session.vibing && FindGitRepo(env.cwd, env.present).Ok? {
      var repo := FindGitRepo(env.cwd, env.present).value;
      var cur := Collect(env.proc(c.trace, ShowCurrent));
      var c1 := c.(trace := c.trace + [ShowCurrent]);
      KeepsConsistent(c, c1.trace);
      if !(cur.ok && IsVibeBranch(cur.out)) {
        StartFreshOutcome(env, c1, repo);
        assert LegacyStart(env, c) == StartFresh(env, c1, repo);
      } else {
        assert LegacyStart(env, c) == LStartOut(Started(cur.out, true), StartWatching(c1, cur.out));
      }
    }
  }

  lemma VibeBranchNameIsVibe(now: nat)
    ensures IsVibeBranch(VibeBranchName(now))
  {
  }

  // ---------------------------------------------------------------------------
  // stop_vibing
  // ---------------------------------------------------------------------------

  datatype LStop =
    | NotVibingNow
    | StopCrashed(error: string)
    | NoBranchPoint(out: string)
    | RebaseFailed(out: string)
    | PushFailed(out: string)
    | Finished(prInfo: Option<string>)

  datatype LStopOut = LStopOut(result: LStop, ctx: LCtx)

  function LegacyCommitArgv(msg: string): Argv { ["git", "commit", "-m", msg] }
  function LegacyPushArgv(b: string): Argv { ["git", "push", "-u", "origin", b] }

  /** `gh pr create`, handed to the git runner, so git is asked to run a `gh` subcommand. */
  function LegacyPrArgv(msg: string): Argv {
    ["git", "gh", "pr", "create", "--title", msg, "--body", "Vibe session completed.\n\n" + msg]
  }

  /** Python's TypeError text when a None branch name reaches `subprocess.run`. */
  const NoneArgument: string := "expected str, bytes or os.PathLike object, not NoneType"

  /**
   * A command naming the session branch. With no branch name the spawn itself
   * raises, which the runner turns into a failure without any process.
   */
  function WithBranch(env: Env, trace: Trace, b: Option<string>, argv: string -> Argv): (r: Ran)
    ensures b.None? ==> r == Ran(Outcome(false, NoneArgument), trace)
    ensures b.Some? ==> r == Ran(Next(env, trace, argv(b.value)), trace + [argv(b.value)])
  {
    if b.None? then Ran(Outcome(false, NoneArgument), trace)
    else Ran(Next(env, trace, argv(b.value)), trace + [argv(b.value)])
  }

  /** The observer is stopped and the Event set, before any command. */
  function Halt(c: LCtx): (r: LCtx)
    ensures r.session == c.session && r.trace == c.trace && r.nextWatcher == c.nextWatcher
    ensures c.session.observer.Some? ==> r.running == c.running - {c.session.observer.value}
    ensures c.session.observer.None? ==> r.running == c.running
    ensures c.session.event.Some? ==> r.signalled == c.signalled + {c.session.event.value}
    ensures c.session.event.None? ==> r.signalled == c.signalled
  {
    var c1 := if c.session.observer.Some? then c.(running := c.running - {c.session.observer.value}) else c;
    if c.session.event.Some? then c1.(signalled := c1.signalled + {c.session.event.value}) else c1
  }

  /** The exception handler: nothing vibing, no branch, the observer stopped, both handles dropped. */
  function Reset(c: LCtx): (r: LCtx)
    ensures r.session == NewFlagSession()
    ensures r.trace == c.trace && r.signalled == c.signalled && r.nextWatcher == c.nextWatcher
    ensures c.session.observer.Some? ==> r.running == c.running - {c.session.observer.value}
    ensures c.session.observer.None? ==> r.running == c.running
  {
    var c1 := if c.session.observer.Some? then c.(running := c.running - {c.session.observer.value}) else c;
    c1.(session := NewFlagSession())
  }

  /**
   * `stop_vibing`: nothing while not vibing; a failed walk raises into the
   * exception handler; otherwise the watcher is halted and the script runs.
   */
  function LegacyStop(env: Env, c: LCtx, msg: string): (r: LStopOut)
    ensures !c.session.vibing ==> r == LStopOut(NotVibingNow, c)
    ensures c.session.vibing && FindGitRepo(env.cwd, env.present).Err? ==>
      r == LStopOut(StopCrashed(NotInRepository), Reset(c))
    ensures c.session.vibing && FindGitRepo(env.cwd, env.present).Ok? ==> r == LegacyScript(env, Halt(c), msg)
  {
    if !c.session.vibing then LStopOut(NotVibingNow, c)
    else
      match FindGitRepo(env.cwd, env.present)
      case Err(e) => LStopOut(StopCrashed(e), Reset(c))
      case Ok(_) => LegacyScript(env, Halt(c), msg)
  }

  /**
   * The branch point (main, else master), then the squash; a count that is
   * not a number raises into the exception handler.
   */
  function LegacyScript(env: Env, c: LCtx, msg: string): (r: LStopOut)
    ensures var base := FindBase(env, c.trace);
      && (base.Exit? ==> r == LStopOut(NoBranchPoint(base.result.detail), c.(trace := base.trace)))
      && (base.Continue? ==> r == AfterBase(env, c, msg, base.value, base.trace))
  {
    var base := FindBase(env, c.trace);
    match base
    case Exit(res, t) => LStopOut(NoBranchPoint(res.detail), c.(trace := t))
    case Continue(b, t) => AfterBase(env, c, msg, b, t)
  }

  /** `rev-list --count`; `reset --soft` and `commit -m` only for more than one commit. */
  function LegacySquash(env: Env, trace: Trace, base: string, msg: string): (r: Result<Trace>)
    ensures var count := Next(env, trace, RevListArgv(base));
      var t1 := trace + [RevListArgv(base)];
      var n := ParseInt(Strip(count.out));
      && (!count.ok ==> r == Ok(t1))
      && (count.ok && n.None? ==> r == Err(IntError(Strip(count.out))))
      && (count.ok && n.Some? && n.value <= 1 ==> r == Ok(t1))
      && (count.ok && n.Some? && n.value > 1 && !Next(env, t1, ResetArgv(base)).ok ==> r == Ok(t1 + [ResetArgv(base)]))
      && (count.ok && n.Some? && n.value > 1 && Next(env, t1, ResetArgv(base)).ok ==>
            r == Ok(t1 + [ResetArgv(base)] + [LegacyCommitArgv(msg)]))
  {
    var count := Next(env, trace, RevListArgv(base));
    var t1 := trace + [RevListArgv(base)];
    if !count.ok then Ok(t1)
    else
      var n := ParseInt(Strip(count.out));
      if n.None? then Err(IntError(Strip(count.out)))
      else if n.value <= 1 then Ok(t1)
      else
        var t2 := t1 + [ResetArgv(base)];
        if !Next(env, t1, ResetArgv(base)).ok then Ok(t2) else Ok(t2 + [LegacyCommitArgv(msg)])
  }

  function AfterBase(env: Env, c: LCtx, msg: string, base: string, trace: Trace): (r: LStopOut)
    ensures var sq := LegacySquash(env, trace, base, msg);
      && (sq.Err? ==> r == LStopOut(StopCrashed(sq.message), Reset(c.(trace := trace + [RevListArgv(base)]))))
      && (sq.Ok? ==> r == LegacyPublish(env, c, msg, sq.value))
  {
    var sq := LegacySquash(env, trace, base, msg);
    match sq
    case Err(e) =>
      var t := trace + [RevListArgv(base)];
      LStopOut(StopCrashed(e), Reset(c.(trace := t)))
    case Ok(t) => LegacyPublish(env, c, msg, t)
  }

  /**
   * `checkout main` and `pull origin main` (results ignored), `checkout
   * <branch>` (ignored), `rebase main`, `push -u origin <branch>`, then the PR
   * through the git runner. Success forgets the whole session.
   */
  function LegacyPublish(env: Env, c: LCtx, msg: string, trace: Trace): (r: LStopOut)
    ensures var t1 := trace + [CheckoutArgv("main"), PullMainArgv()];
      var back := WithBranch(env, t1, c.session.branch, CheckoutArgv);
      r == Rebase(env, c, msg, back.trace)
  {
    var t1 := trace + [CheckoutArgv("main"), PullMainArgv()];
    var back := WithBranch(env, t1, c.session.branch, CheckoutArgv);
    Rebase(env, c, msg, back.trace)
  }

  function Rebase(env: Env, c: LCtx, msg: string, trace: Trace): (r: LStopOut)
    ensures var rb := Next(env, trace, RebaseArgv());
      var t1 := trace + [RebaseArgv()];
      var push := WithBranch(env, t1, c.session.branch, LegacyPushArgv);
      && (!rb.ok ==> r == LStopOut(RebaseFailed(rb.out), c.(trace := t1)))
      && (rb.ok && !push.outcome.ok ==> r == LStopOut(PushFailed(push.outcome.out), c.(trace := push.trace)))
      && (rb.ok && push.outcome.ok ==> r == OpenLegacyPr(env, c, msg, push.trace))
  {
    var rb := Next(env, trace, RebaseArgv());
    var t1 := trace + [RebaseArgv()];
    if !rb.ok then LStopOut(RebaseFailed(rb.out), c.(trace := t1))
    else
      var push := WithBranch(env, t1, c.session.branch, LegacyPushArgv);
      if !push.outcome.ok then LStopOut(PushFailed(push.outcome.out), c.(trace := push.trace))
      else OpenLegacyPr(env, c, msg, push.trace)
  }

  /** The PR command's output is reported only when it succeeded; the session is then forgotten. */
  function OpenLegacyPr(env: Env, c: LCtx, msg: string, trace: Trace): (r: LStopOut)
    ensures var pr := Next(env, trace, LegacyPrArgv(msg));
      && r.ctx == c.(session := NewFlagSession(), trace := trace + [LegacyPrArgv(msg)])
      && (pr.ok <==> r.result == Finished(Some(pr.out)))
      && (!pr.ok <==> r.result == Finished(None))
  {
    var pr := Next(env, trace, LegacyPrArgv(msg));
    var c2 := c.(session := NewFlagSession(), trace := trace + [LegacyPrArgv(msg)]);
    if pr.ok then LStopOut(Finished(Some(pr.out)), c2) else LStopOut(Finished(None), c2)
  }

  /**
   * What any run of the script does to the halted context `c` it started
   * from, with `t0` the trace it was given: watchers are never started or
   * signalled; a labelled failure keeps the session; a completion or an
   * exception forgets it; a completion ends with the PR command; and only git
   * commands are added.
   */
  predicate StopShape(c: LCtx, t0: Trace, msg: string, r: LStopOut) {
    && r.ctx.running <= c.running && r.ctx.signalled == c.signalled && r.ctx.nextWatcher == c.nextWatcher
    && !r.result.NotVibingNow?
    && (r.result.NoBranchPoint? || r.result.RebaseFailed? || r.result.PushFailed? ==>
          r.ctx.session == c.session && r.ctx.running == c.running)
    && (r.result.Finished? || r.result.StopCrashed? ==> r.ctx.session == NewFlagSession())
    && (r.result.Finished? ==> |r.ctx.trace| > 0 && r.ctx.trace[|r.ctx.trace| - 1] == LegacyPrArgv(msg))
    && (AllGit(t0) ==> AllGit(r.ctx.trace))
  }

  lemma OpenPrShape(env: Env, c: LCtx, msg: string, t: Trace)
    ensures StopShape(c, t, msg, OpenLegacyPr(env, c, msg, t))
  {
    if AllGit(t) {
      AllGitAppend(t, [LegacyPrArgv(msg)]);
    }
  }

  lemma BranchCommandAllGit(env: Env, t: Trace, b: Option<string>, argv: string -> Argv)
    requires AllGit(t)
    requires forall x: string {:trigger argv(x)} :: |argv(x)| > 0 && argv(x)[0] == "git"
    ensures AllGit(WithBranch(env, t, b, argv).trace)
  {
    if b.Some? {
      AllGitAppend(t, [argv(b.value)]);
    }
  }

  lemma {:induction false} RebaseShape(env: Env, c: LCtx, msg: string, t: Trace)
    ensures StopShape(c, t, msg, Rebase(env, c, msg, t))
  {
    var rb := Next(env, t, RebaseArgv());
    var t1 := t + [RebaseArgv()];
    var push := WithBranch(env, t1, c.session.branch, LegacyPushArgv);
    if AllGit(t) {
      AllGitAppend(t, [RebaseArgv()]);
      BranchCommandAllGit(env, t1, c.session.branch, LegacyPushArgv);
    }
    if !rb.ok || !push.outcome.ok {
      KeptShape(c, t, msg, Rebase(env, c, msg, t));
    } else {
      OpenPrShape(env, c, msg, push.trace);
    }
  }

  /** A labelled failure that only extended the trace with git commands has the stop shape. */
  lemma KeptShape(c: LCtx, t0: Trace, msg: string, r: LStopOut)
    requires r.ctx == c.(trace := r.ctx.trace)
    requires r.result.NoBranchPoint? || r.result.RebaseFailed? || r.result.PushFailed?
    requires AllGit(t0) ==> AllGit(r.ctx.trace)
    ensures StopShape(c, t0, msg, r)
  {
  }

  lemma {:induction false} PublishShapeL(env: Env, c: LCtx, msg: string, t: Trace)
    ensures StopShape(c, t, msg, LegacyPublish(env, c, msg, t))
  {
    var t1 := t + [CheckoutArgv("main"), PullMainArgv()];
    var back := WithBranch(env, t1, c.session.branch, CheckoutArgv);
    RebaseShape(env, c, msg, back.trace);
    assert LegacyPublish(env, c, msg, t) == Rebase(env, c, msg, back.trace);
    if AllGit(t) {
      AllGitAppend(t, [CheckoutArgv("main"), PullMainArgv()]);
      BranchCommandAllGit(env, t1, c.session.branch, CheckoutArgv);
    }
  }

  lemma {:induction false} AfterBaseShape(env: Env, c: LCtx, msg: string, base: string, t: Trace)
    ensures StopShape(c, t, msg, AfterBase(env, c, msg, base, t))
  {
    if LegacySquash(env, t, base, msg).Ok? {
      SquashedShape(env, c, msg, base, t);
    } else {
      UnparsedCountShape(env, c, msg, base, t);
    }
  }

  lemma SquashedShape(env: Env, c: LCtx, msg: string, base: string, t: Trace)
    requires LegacySquash(env, t, base, msg).Ok?
    ensures StopShape(c, t, msg, AfterBase(env, c, msg, base, t))
  {
    var t1 := LegacySquash(env, t, base, msg).value;
    PublishShapeL(env, c, msg, t1);
    if AllGit(t) {
      SquashAllGit(env, t, base, msg);
    }
    ShapeFromEarlier(c, t, t1, msg, AfterBase(env, c, msg, base, t));
  }

  lemma UnparsedCountShape(env: Env, c: LCtx, msg: string, base: string, t: Trace)
    requires LegacySquash(env, t, base, msg).Err?
    ensures StopShape(c, t, msg, AfterBase(env, c, msg, base, t))
  {
    var t1 := t + [RevListArgv(base)];
    if AllGit(t) {
      AllGitAppend(t, [RevListArgv(base)]);
    }
    CrashedShape(c, t, t1, msg, LegacySquash(env, t, base, msg).message);
  }

  /** The shape from a later starting trace carries back to an earlier one that only git commands extend. */
  lemma ShapeFromEarlier(c: LCtx, t0: Trace, t1: Trace, msg: string, r: LStopOut)
    requires StopShape(c, t1, msg, r)
    requires AllGit(t0) ==> AllGit(t1)
    ensures StopShape(c, t0, msg, r)
  {
  }

  /** The exception handler after some git commands has the stop shape. */
  lemma CrashedShape(c: LCtx, t0: Trace, t1: Trace, msg: string, e: string)
    requires AllGit(t0) ==> AllGit(t1)
    ensures StopShape(c, t0, msg, LStopOut(StopCrashed(e), Reset(c.(trace := t1))))
  {
  }

  lemma {:induction false} ScriptShapeL(env: Env, c: LCtx, msg: string)
    ensures StopShape(c, c.trace, msg, LegacyScript(env, c, msg))
  {
    var base := FindBase(env, c.trace);
    if AllGit(c.trace) {
      FindBaseAllGit(env, c.trace);
    }
    if base.Continue? {
      AfterBaseShape(env, c, msg, base.value, base.trace);
    }
  }

  /**
   * Once a vibing session's stop has found the repository, its observer is
   * stopped whatever follows. A labelled failure nevertheless leaves the
   * session flagged as vibing on its branch: it claims a watcher that no
   * longer runs, and a later start is refused as "Already vibing".
   */
  lemma LabelledFailureLeavesHaltedVibing(env: Env, c: LCtx, msg: string)
    requires c.session.vibing && FindGitRepo(env.cwd, env.present).Ok?
    ensures var r := LegacyStop(env, c, msg);
      && (c.session.observer.Some? ==> c.session.observer.value !in r.ctx.running)
      && (r.result.NoBranchPoint? || r.result.RebaseFailed? || r.result.PushFailed? ==>
            r.ctx.session == c.session && LegacyStart(env, r.ctx).result == AlreadyVibing)
  {
    ScriptShapeL(env, Halt(c), msg);
  }

  /**
   * A completed stop forgets the session entirely, and the PR command is the
   * last command it issued.
   */
  lemma StoppedForgetsSession(env: Env, c: LCtx, msg: string)
    ensures var r := LegacyStop(env, c, msg);
      r.result.Finished? ==>
        r.ctx.session == NewFlagSession() && |r.ctx.trace| > 0 && r.ctx.trace[|r.ctx.trace| - 1] == LegacyPrArgv(msg)
  {
    if c.session.vibing && FindGitRepo(env.cwd, env.present).Ok? {
      ScriptShapeL(env, Halt(c), msg);
    }
  }

  /**
   * Every command a legacy stop issues, the PR included, is a git command:
   * `gh` only ever appears as git's first argument.
   */
  lemma StopIssuesOnlyGit(env: Env, c: LCtx, msg: string)
    requires AllGit(c.trace)
    ensures AllGit(LegacyStop(env, c, msg).ctx.trace)
  {
    ScriptShapeL(env, Halt(c), msg);
  }

  lemma FindBaseAllGit(env: Env, t: Trace)
    requires AllGit(t)
    ensures AllGit(FindBase(env, t).trace)
  {
    AllGitAppend(t, [MergeBaseArgv("main")]);
    AllGitAppend(t + [MergeBaseArgv("main")], [MergeBaseArgv("master")]);
  }

  lemma SquashAllGit(env: Env, t: Trace, base: string, msg: string)
    requires AllGit(t)
    ensures LegacySquash(env, t, base, msg).Ok? ==> AllGit(LegacySquash(env, t, base, msg).value)
  {
    var t1 := t + [RevListArgv(base)];
    AllGitAppend(t, [RevListArgv(base)]);
    AllGitAppend(t1, [ResetArgv(base)]);
    AllGitAppend(t1 + [ResetArgv(base)], [LegacyCommitArgv(msg)]);
  }

  // ---------------------------------------------------------------------------
  // vibe_status, signal_handler, auto_commit_worker
  // ---------------------------------------------------------------------------

  datatype LStatus = LVibing(branch: string) | LResetIdle | LIdle | LNotInitialized(error: string)

  datatype LStatusOut = LStatusOut(status: LStatus, ctx: LCtx)

  /**
   * `vibe_status`: only a vibing session with a branch name is checked, by one
   * branch query; a failed query or another branch forgets the session (its
   * observer keeps running).
   */
  function LegacyStatus(env: Env, c: LCtx): (r: LStatusOut)
    ensures FindGitRepo(env.cwd, env.present).Err? ==> r == LStatusOut(LNotInitialized(NotInRepository), c)
    ensures FindGitRepo(env.cwd, env.present).Ok? && !(c.session.vibing && HasBranchName(c.session)) ==>
      r == LStatusOut(LIdle, c)
    ensures FindGitRepo(env.cwd, env.present).Ok? && c.session.vibing && HasBranchName(c.session) ==>
      var cur := Collect(env.proc(c.trace, ShowCurrent));
      var c1 := c.(trace := c.trace + [ShowCurrent]);
      && (cur.ok && cur.out == c.session.branch.value ==> r == LStatusOut(LVibing(c.session.branch.value), c1))
      && (!(cur.ok && cur.out == c.session.branch.value) ==> r == LStatusOut(LResetIdle, c1.(session := Forget(c.session))))
  {
    match FindGitRepo(env.cwd, env.present)
    case Err(e) => LStatusOut(LNotInitialized(e), c)
    case Ok(repo) =>
      if !(c.session.vibing && HasBranchName(c.session)) then LStatusOut(LIdle, c)
      else
        assert ["git"] + ["branch", "--show-current"] == ShowCurrent;
        var cur := Git(env, c.trace, repo, ["branch", "--show-current"]);
        var c1 := c.(trace := cur.trace);
        if cur.outcome.ok && cur.outcome.out == c.session.branch.value then LStatusOut(LVibing(c.session.branch.value), c1)
        else LStatusOut(LResetIdle, c1.(session := Forget(c.session)))
  }

  /**
   * A status reset drops the flag but not the watcher: the observer the
   * session pointed at is still running and is still recorded in the session.
   */
  lemma StatusResetKeepsObserver(env: Env, c: LCtx)
    requires LegacyStatus(env, c).status.LResetIdle?
    ensures var r := LegacyStatus(env, c).ctx;
      !r.session.vibing && r.running == c.running && r.session.observer == c.session.observer
  {
  }

  /** SIGINT/SIGTERM: the observer is stopped and the flag cleared; the branch name stays. */
  function LegacySignal(c: LCtx): (r: LCtx)
    ensures !r.session.vibing && r.session.branch == c.session.branch && r.trace == c.trace
    ensures c.session.observer.Some? ==> r.running == c.running - {c.session.observer.value}
    ensures c.session.observer.None? ==> r.running == c.running
  {
    var c1 := if c.session.observer.Some? then c.(running := c.running - {c.session.observer.value}) else c;
    c1.(session := c1.session.(vibing := false))
  }

  function LegacyAutoCommitArgv(ts: nat): Argv { ["git", "commit", "-m", "Auto-commit " + NatToString(ts)] }

  /** The woken worker's commands: the status query, and `add .` plus the commit when it shows changes. */
  function LegacyCommitIfDirty(env: Env, trace: Trace, repo: Path): (t: Trace)
    ensures var dirty := HasUncommittedChanges(env, trace, repo).value.dirty;
      && (dirty ==> t == trace + [Porcelain] + [AddAllArgv, LegacyAutoCommitArgv(env.now)])
      && (!dirty ==> t == trace + [Porcelain])
  {
    var ch := HasUncommittedChanges(env, trace, repo);
    if ch.value.dirty then ch.trace + [AddAllArgv, LegacyAutoCommitArgv(env.now)] else ch.trace
  }

  /**
   * One pass of the legacy worker: it runs while the session is vibing with an
   * Event; a set Event is cleared and the changes, if any, committed with the
   * hooks running.
   */
  function LegacyWorkerPass(env: Env, c: LCtx, repo: Path): (r: LCtx)
    ensures r.session == c.session && r.running == c.running && r.nextWatcher == c.nextWatcher
    ensures !(c.session.vibing && c.session.event.Some? && c.session.event.value in c.signalled) ==> r == c
    ensures c.session.vibing && c.session.event.Some? && c.session.event.value in c.signalled ==>
      r.signalled == c.signalled - {c.session.event.value} && r.trace == LegacyCommitIfDirty(env, c.trace, repo)
  {
    if !(c.session.vibing && c.session.event.Some? && c.session.event.value in c.signalled) then c
    else c.(trace := LegacyCommitIfDirty(env, c.trace, repo), signalled := c.signalled - {c.session.event.value})
  }

  /** Every legacy tool keeps the session consistent. */
  lemma {:induction false} LegacyToolsKeepConsistent(env: Env, c: LCtx, msg: string, repo: Path)
    requires Consistent(c)
    ensures Consistent(LegacyStatus(env, c).ctx)
    ensures Consistent(LegacySignal(c))
    ensures Consistent(LegacyWorkerPass(env, c, repo))
    ensures Consistent(LegacyStop(env, c, msg).ctx)
  {
    LegacyStatusConsistent(env, c);
    LegacySignalConsistent(c);
    LegacyWorkerConsistent(env, c, repo);
    LegacyStopConsistent(env, c, msg);
  }

  lemma LegacyStatusConsistent(env: Env, c: LCtx)
    requires Consistent(c)
    ensures Consistent(LegacyStatus(env, c).ctx)
  {
    ShrinkingKeepsConsistent(c, LegacyStatus(env, c).ctx);
  }

  lemma LegacySignalConsistent(c: LCtx)
    requires Consistent(c)
    ensures Consistent(LegacySignal(c))
  {
    ShrinkingKeepsConsistent(c, LegacySignal(c));
  }

  lemma LegacyWorkerConsistent(env: Env, c: LCtx, repo: Path)
    requires Consistent(c)
    ensures Consistent(LegacyWorkerPass(env, c, repo))
  {
    ShrinkingKeepsConsistent(c, LegacyWorkerPass(env, c, repo));
  }

  /** A context that creates no handle and only drops session fields or watchers stays consistent. */
  lemma ShrinkingKeepsConsistent(c: LCtx, r: LCtx)
    requires Consistent(c)
    requires r.nextWatcher == c.nextWatcher && r.running <= c.running && r.signalled <= c.signalled
    requires r.session.vibing ==> r.session.branch.Some?
    requires r.session.observer.Some? ==> r.session.observer == c.session.observer
    requires r.session.event.Some? ==> r.session.event == c.session.event
    ensures Consistent(r)
  {
  }

  lemma LegacyStopConsistent(env: Env, c: LCtx, msg: string)
    requires Consistent(c)
    ensures Consistent(LegacyStop(env, c, msg).ctx)
  {
    if c.session.vibing {
      if FindGitRepo(env.cwd, env.present).Ok? {
        var h := Halt(c);
        HaltConsistent(c);
        ScriptShapeL(env, h, msg);
        ShapeKeepsConsistent(h, msg, LegacyScript(env, h, msg));
      } else {
        ShrinkingKeepsConsistent(c, Reset(c));
      }
    }
  }

  lemma HaltConsistent(c: LCtx)
    requires Consistent(c)
    ensures Consistent(Halt(c))
  {
  }

  lemma ShapeKeepsConsistent(c: LCtx, msg: string, r: LStopOut)
    requires Consistent(c) && StopShape(c, c.trace, msg, r)
    ensures Consistent(r.ctx)
  {
  }
}

=== FILE: legacy_watch.dfy ===
/**
 * The file handler of the earliest revision, main.py: a fixed list of ignore
 * patterns instead of `git check-ignore`, and a one-second throttle.
 *
 * Event paths are the component form of the current revision's model; times
 * are integer milliseconds of `time.time()`.
 */
module LegacyWatch {
  import opened Base
  import opened Text
  import opened Paths
  import opened Watch

  /** The patterns `should_ignore_path` tries, in order. */
  const IgnorePatterns: seq<string> := [
    ".git", "__pycache__", ".pytest_cache", ".venv", "node_modules",
    ".DS_Store", "*.pyc", "*.pyo", "*.swp", "*.tmp", ".coverage"]

  /** `Path(path).name`: the last component, or "" for a path without one. */
  function Name(p: FsPath): (n: string)
    ensures p.parts != [] ==> n == p.parts[|p.parts| - 1]
    ensures p.parts == [] ==> n == ""
  {
    if p.parts == [] then "" else p.parts[|p.parts| - 1]
  }

  /**
   * One pattern: "*<suffix>" matches a file name ending in the suffix; any
   * other pattern must equal a whole component.
   */
  predicate PatternMatches(pattern: string, p: FsPath) {
    if |pattern| > 0 && pattern[0] == '*' then EndsWith(Name(p), pattern[1..])
    else pattern in p.parts
  }

  /** The patterns tried one after another, stopping at the first match. */
  function MatchesAny(patterns: seq<string>, p: FsPath): (r: bool)
    ensures r <==> exists i :: 0 <= i < |patterns| && PatternMatches(patterns[i], p)
    decreases |patterns|
  {
    if patterns == [] then false
    else if PatternMatches(patterns[0], p) then true
    else
      var rest := MatchesAny(patterns[1..], p);
      assert forall i :: 1 <= i < |patterns| ==> patterns[i] == patterns[1..][i - 1];
      rest
  }

  /** `should_ignore_path`: ignored exactly when some pattern of the list matches. */
  function ShouldIgnorePath(p: FsPath): (r: bool)
    ensures r <==> exists pattern :: pattern in IgnorePatterns && PatternMatches(pattern, p)
  {
    var r := MatchesAny(IgnorePatterns, p);
    assert forall pattern :: pattern in IgnorePatterns ==> exists i :: 0 <= i < |IgnorePatterns| && IgnorePatterns[i] == pattern;
    r
  }

  /** Anything inside a `.git` directory is ignored, by component. */
  lemma GitComponentIgnored(p: FsPath)
    requires GitEntry in p.parts
    ensures ShouldIgnorePath(p)
  {
    assert PatternMatches(IgnorePatterns[0], p);
  }

  /**
   * Components are compared whole: `.gitignore` itself is watched, and a
   * compiled file is ignored by its suffix.
   */
  lemma ComponentsAreWhole()
    ensures !ShouldIgnorePath(FsPath(false, [".gitignore"]))
    ensures ShouldIgnorePath(FsPath(false, ["pkg", "m.pyc"]))
  {
    GitignoreWatched();
    CompiledIgnored();
  }

  lemma GitignoreWatched()
    ensures !ShouldIgnorePath(FsPath(false, [".gitignore"]))
  {
    forall i | 0 <= i < |IgnorePatterns|
      ensures !PatternMatches(IgnorePatterns[i], FsPath(false, [".gitignore"]))
    {
      PatternShape(i);
      GitignoreNotMatched(IgnorePatterns[i]);
    }
  }

  /** No pattern has the length of ".gitignore", and every "*" pattern is a four-character suffix. */
  lemma PatternShape(i: int)
    requires 0 <= i < |IgnorePatterns|
    ensures |IgnorePatterns[i]| != 10
    ensures |IgnorePatterns[i]| > 0 && IgnorePatterns[i][0] == '*' ==> |IgnorePatterns[i]| == 5 && IgnorePatterns[i][1] == '.'
  {
    assert |IgnorePatterns[i]| == 5 ==> IgnorePatterns[i][1] == '.' || IgnorePatterns[i][0] != '*';
  }

  lemma GitignoreNotMatched(pattern: string)
    requires |pattern| != 10
    requires |pattern| > 0 && pattern[0] == '*' ==> |pattern| == 5 && pattern[1] == '.'
    ensures !PatternMatches(pattern, FsPath(false, [".gitignore"]))
  {
    var name := ".gitignore";
    assert Name(FsPath(false, [name])) == name;
    if |pattern| > 0 && pattern[0] == '*' {
      assert name[|name| - 4] != pattern[1..][0];
    }
  }

  lemma CompiledIgnored()
    ensures ShouldIgnorePath(FsPath(false, ["pkg", "m.pyc"]))
  {
    var p := FsPath(false, ["pkg", "m.pyc"]);
    assert PatternMatches("*.pyc", p) by { assert Name(p)[|Name(p)| - 4..] == ".pyc"; }
  }

  /** The legacy `VibeFileHandler`: its repository, its Event, and the throttle state. */
  datatype LegacyHandler = LegacyHandler(repo: Path, watcher: nat, lastCommit: int, minInterval: int)

  /** `VibeFileHandler(repo, event)`: `last_commit_time` 0 and a one-second interval. */
  function NewLegacyHandler(repo: Path, watcher: nat): (h: LegacyHandler)
    ensures h.repo == repo && h.watcher == watcher
    ensures h.lastCommit == 0 && h.minInterval == 1000
  {
    LegacyHandler(repo, watcher, 0, 1000)
  }

  datatype Step = Step(handler: LegacyHandler, signalled: set<nat>)

  /**
   * `on_any_event`: directory events and ignored paths are dropped, and so is
   * an event less than the interval after the last signal; otherwise the
   * Event is set and the time remembered.
   */
  function OnEvent(h: LegacyHandler, ev: FsEvent, now: int, signalled: set<nat>): (r: Step)
    ensures var fires := !ev.isDirectory && !ShouldIgnorePath(ev.src) && now - h.lastCommit >= h.minInterval;
      && (fires ==> r == Step(h.(lastCommit := now), signalled + {h.watcher}))
      && (!fires ==> r == Step(h, signalled))
  {
    if ev.isDirectory then Step(h, signalled)
    else if ShouldIgnorePath(ev.src) then Step(h, signalled)
    else if now - h.lastCommit < h.minInterval then Step(h, signalled)
    else Step(h.(lastCommit := now), signalled + {h.watcher})
  }

  /**
   * The throttle works, unlike the current revision's: after an event sets
   * the Event, every event in the following second is dropped.
   */
  lemma {:induction false} SignalsAreASecondApart(repo: Path, w: nat, last: int, e1: FsEvent, t1: int, e2: FsEvent, t2: int, sig: set<nat>)
    requires t1 <= t2 < t1 + 1000
    ensures var h := NewLegacyHandler(repo, w).(lastCommit := last);
      var s1 := OnEvent(h, e1, t1, sig);
      s1.signalled != sig ==> OnEvent(s1.handler, e2, t2, s1.signalled) == s1
  {
    var h := NewLegacyHandler(repo, w).(lastCommit := last);
    var s1 := OnEvent(h, e1, t1, sig);
    if s1.signalled != sig {
      assert s1.handler.lastCommit == t1 && s1.handler.minInterval == 1000;
    }
  }

  /** The first qualifying event after the first second of the epoch always signals. */
  lemma FreshHandlerSignals(repo: Path, w: nat, ev: FsEvent, now: int, sig: set<nat>)
    requires !ev.isDirectory && !ShouldIgnorePath(ev.src) && now >= 1000
    ensures OnEvent(NewLegacyHandler(repo, w), ev, now, sig).signalled == sig + {w}
  {
  }
}

=== FILE: paths.dfy ===
/**
 * Directories and the repository-root walk of the Python revisions
 * (`find_git_repo` in src/vibe_git/git_utils.py, src/vibe_git/main.py,
 * main.py and vibe_status_only.py, four copies of one loop) together with
 * `validate_git_path` from src/vibe_git/type_utils.py.
 */
module Paths {
  import opened Base
  import opened Text

  /** An absolute directory, as its components below the filesystem root; `[]` is the root. */
  type Path = seq<string>

  /** The filesystem as far as the model needs it: which absolute paths exist. */
  type Exists = Path -> bool

  /** The repository marker. Comparison is exact: no case folding. */
  const GitEntry: string := ".git"

  const NotInRepository: string := "Not in a git repository"

  function Parent(p: Path): (q: Path)
    ensures p == [] ==> q == []
    ensures p != [] ==> q == p[..|p| - 1]
  {
    if p == [] then [] else p[..|p| - 1]
  }

  /** `str(path)` for an absolute path. */
  function Render(p: Path): string {
    "/" + JoinWith(p, "/")
  }

  predicate HasGitEntry(present: Exists, p: Path) {
    present(p + [GitEntry])
  }

  /** Some directory strictly below the root, on the way from `cwd` up, holds `.git`. */
  predicate RepoAbove(present: Exists, cwd: Path) {
    exists k :: 1 <= k <= |cwd| && HasGitEntry(present, cwd[..k])
  }

  /**
   * The Python `find_git_repo`: walk from `cwd` towards the root, stopping at the
   * first directory holding `.git`. The loop guard `current != current.parent`
   * is false at the root, so the root itself is never examined.
   */
  function FindGitRepo(cwd: Path, present: Exists): (r: Result<Path>)
    ensures r.Ok? ==> 1 <= |r.value| <= |cwd| && r.value == cwd[..|r.value|]
    ensures r.Ok? ==> HasGitEntry(present, r.value)
    ensures r.Ok? ==> forall k :: |r.value| < k <= |cwd| ==> !HasGitEntry(present, cwd[..k])
    ensures r.Err? <==> !RepoAbove(present, cwd)
    ensures r.Err? ==> r.message == NotInRepository
    decreases |cwd|
  {
    if cwd == [] then Err(NotInRepository)
    else if HasGitEntry(present, cwd) then
      assert cwd[..|cwd|] == cwd;
      Ok(cwd)
    else
      var up := cwd[..|cwd| - 1];
      var r := FindGitRepo(up, present);
      assert forall k :: 1 <= k <= |up| ==> up[..k] == cwd[..k];
      assert cwd[..|cwd|] == cwd;
      r
  }

  /**
   * `validate_git_path`: the argument itself when `path/.git` exists, otherwise
   * the ValueError text "<path> is not a git repository".
   */
  function ValidateGitPath(p: Path, present: Exists): (r: Result<Path>)
    ensures r.Ok? <==> present(p + [".git"])
    ensures r.Ok? ==> r.value == p
    ensures r.Err? ==> r.message == Render(p) + " is not a git repository"
  {
    if !HasGitEntry(present, p) then Err(Render(p) + " is not a git repository") else Ok(p)
  }

  /**
   * Only the exact entry name counts: a directory whose sole entry is named
   * differently (".gitx", ".GIT", ...) is rejected.
   */
  lemma ValidateNeedsExactName(p: Path, name: string)
    requires name != ".git"
    ensures ValidateGitPath(p, q => q == p + [name]).Err?
  {
    assert (p + [".git"])[|p|] != (p + [name])[|p|];
  }

  lemma ValidateRejectsLookalikes(p: Path)
    ensures ValidateGitPath(p, q => q == p + [".gitx"]).Err?
    ensures ValidateGitPath(p, q => q == p + [".GIT"]).Err?
  {
    ValidateNeedsExactName(p, ".gitx");
    ValidateNeedsExactName(p, ".GIT");
  }
}

=== FILE: persistence.dfy ===
/**
 * Session persistence of src/vibe_git/state_persistence.py: the record saved
 * to `.git/vibe-session.json`, its dictionary form, and the operations over
 * the state file and the append-only event log `.git/vibe-events.jsonl`.
 *
 * The state file is absent, a JSON document, text that is not a JSON object
 * (`Corrupt`), or bytes that are not UTF-8 (`Undecodable`), which
 * `read_text` refuses with a `UnicodeDecodeError` that `load_session` does
 * not catch.
 * Clock readings are parameters: `nowIso` is `datetime.now().isoformat()` and
 * `now` the same instant in whole seconds; `parseTime` stands for
 * `datetime.fromisoformat` and yields None for text it rejects or whose
 * subtraction from a naive `now` raises.
 */
module Persistence {
  import opened Base

  /** The JSON values the record's fields hold. */
  datatype Value = Null | Bool(b: bool) | Str(s: string)

  /** `PersistedSessionState`. */
  datatype Persisted = Persisted(
    branch: string,
    sessionStart: string,
    lastCommit: Option<string>,
    prUrl: Option<string>,
    autoCommit: bool)

  const BranchKey: string := "branch_name"
  const StartKey: string := "session_start_time"
  const LastCommitKey: string := "last_commit_time"
  const PrUrlKey: string := "pr_url"
  const AutoCommitKey: string := "auto_commit_enabled"

  function FieldNames(): set<string> {
    {BranchKey, StartKey, LastCommitKey, PrUrlKey, AutoCommitKey}
  }

  /** The constructor with its defaults: no last commit, no PR, auto-commit on. */
  function NewPersisted(branch: string, sessionStart: string): (p: Persisted)
    ensures p.branch == branch && p.sessionStart == sessionStart
    ensures p.lastCommit == None && p.prUrl == None && p.autoCommit
  {
    Persisted(branch, sessionStart, None, None, true)
  }

  function OptionValue(o: Option<string>): Value {
    match o
    case None => Null
    case Some(s) => Str(s)
  }

  /** `to_dict` (`asdict`): one entry per field, under the field's name. */
  function ToDict(p: Persisted): (d: map<string, Value>)
    ensures d.Keys == FieldNames()
    ensures d[BranchKey] == Str(p.branch) && d[StartKey] == Str(p.sessionStart)
    ensures d[AutoCommitKey] == Bool(p.autoCommit)
  {
    map[BranchKey := Str(p.branch),
        StartKey := Str(p.sessionStart),
        LastCommitKey := OptionValue(p.lastCommit),
        PrUrlKey := OptionValue(p.prUrl),
        AutoCommitKey := Bool(p.autoCommit)]
  }

  /** Reads an optional field; a missing key gives the default. */
  function OptionalField(d: map<string, Value>, key: string): Result<Option<string>> {
    if key !in d then Ok(None)
    else match d[key]
      case Null => Ok(None)
      case Str(s) => Ok(Some(s))
      case Bool(_) => Err(key + " has the wrong type")
  }

  /** A dictionary `from_dict` accepts, keyword by keyword. */
  predicate WellFormedDict(d: map<string, Value>) {
    && d.Keys <= FieldNames()
    && BranchKey in d && d[BranchKey].Str?
    && StartKey in d && d[StartKey].Str?
    && (LastCommitKey in d ==> !d[LastCommitKey].Bool?)
    && (PrUrlKey in d ==> !d[PrUrlKey].Bool?)
    && (AutoCommitKey in d ==> d[AutoCommitKey].Bool?)
  }

  /**
   * `from_dict` (`cls(**data)`): an unknown key or a missing required key
   * raises TypeError; absent optional keys take their defaults.
   */
  function FromDict(d: map<string, Value>): (r: Result<Persisted>)
    ensures r.Ok? <==> WellFormedDict(d)
    ensures r.Ok? ==> Str(r.value.branch) == d[BranchKey] && Str(r.value.sessionStart) == d[StartKey]
    ensures r.Ok? && LastCommitKey !in d ==> r.value.lastCommit == None
    ensures r.Ok? && PrUrlKey !in d ==> r.value.prUrl == None
    ensures r.Ok? && AutoCommitKey !in d ==> r.value.autoCommit
  {
    if !(d.Keys <= FieldNames()) then Err("unexpected keyword argument")
    else if BranchKey !in d || StartKey !in d then Err("missing required argument")
    else if !d[BranchKey].Str? || !d[StartKey].Str? then Err("required field has the wrong type")
    else
      var last := OptionalField(d, LastCommitKey);
      var pr := OptionalField(d, PrUrlKey);
      var auto := if AutoCommitKey !in d then Ok(true)
                  else if d[AutoCommitKey].Bool? then Ok(d[AutoCommitKey].b)
                  else Err(AutoCommitKey + " has the wrong type");
      if last.Err? then Err(last.message)
      else if pr.Err? then Err(pr.message)
      else if auto.Err? then Err(auto.message)
      else Ok(Persisted(d[BranchKey].s, d[StartKey].s, last.value, pr.value, auto.value))
  }

  /** `from_dict(to_dict(s)) == s`. */
  lemma FromToDict(p: Persisted)
    ensures FromDict(ToDict(p)) == Ok(p)
  {
    var d := ToDict(p);
    assert OptionalField(d, LastCommitKey) == Ok(p.lastCommit);
    assert OptionalField(d, PrUrlKey) == Ok(p.prUrl);
  }

  /** A complete accepted dictionary is reproduced by `to_dict`. */
  lemma ToFromDict(d: map<string, Value>)
    requires FromDict(d).Ok? && d.Keys == FieldNames()
    ensures ToDict(FromDict(d).value) == d
  {
    var p := FromDict(d).value;
    assert p.lastCommit == (if d[LastCommitKey].Null? then None else Some(d[LastCommitKey].s));
    assert p.prUrl == (if d[PrUrlKey].Null? then None else Some(d[PrUrlKey].s));
    assert p.autoCommit == d[AutoCommitKey].b;
  }

  /** A record written with only the two required keys loads with every default. */
  lemma FromDictDefaults(branch: string, start: string)
    ensures FromDict(map[BranchKey := Str(branch), StartKey := Str(start)])
         == Ok(NewPersisted(branch, start))
  {
  }

  /** An unknown key is rejected even when every field is present. */
  lemma FromDictRejectsUnknownKey(p: Persisted, key: string)
    requires key !in FieldNames()
    ensures FromDict(ToDict(p)[key := Null]).Err?
  {
    assert key in ToDict(p)[key := Null].Keys;
  }

  // ---------------------------------------------------------------------------
  // The store: state file and event log
  // ---------------------------------------------------------------------------

  /**
   * What `.git/vibe-session.json` holds. `Corrupt` is UTF-8 text that
   * `json.loads` rejects or that is not an object; `Undecodable` carries the
   * text of the `UnicodeDecodeError` that reading it raises.
   */
  datatype StateFile = NoFile | Json(doc: map<string, Value>) | Corrupt | Undecodable(error: string)

  /** One line of `.git/vibe-events.jsonl`. */
  datatype LogEvent =
    | SessionSaved(timestamp: string, state: map<string, Value>)
    | SessionEnded(timestamp: string)

  datatype Store = Store(file: StateFile, events: seq<LogEvent>)

  /** `save_session`: the file holds the record, and one "session_saved" line is appended. */
  function Save(st: Store, p: Persisted, nowIso: string): (r: Store)
    ensures r.file.Json? && FromDict(r.file.doc) == Ok(p)
    ensures r.events == st.events + [SessionSaved(nowIso, ToDict(p))]
  {
    FromToDict(p);
    Store(Json(ToDict(p)), st.events + [SessionSaved(nowIso, ToDict(p))])
  }

  /** The result of `load_session`, with the store after it. */
  datatype Loaded = Loaded(session: Option<Persisted>, store: Store)

  /**
   * `load_session`: None without a file; None when the text does not decode to
   * an accepted record, in which case the file is removed. A file that is not
   * UTF-8 makes the call raise, before the `try` can remove it, so the store
   * stays as it was. The log is never touched.
   */
  function Load(st: Store): (r: Result<Loaded>)
    ensures r.Err? <==> st.file.Undecodable?
    ensures r.Err? ==> r.message == st.file.error
    ensures r.Ok? ==> r.value.store.events == st.events
    ensures st.file.NoFile? ==> r == Ok(Loaded(None, st))
    ensures r.Ok? ==> (r.value.session.Some? <==> st.file.Json? && FromDict(st.file.doc).Ok?)
    ensures r.Ok? && r.value.session.Some? ==> r.value.session.value == FromDict(st.file.doc).value && r.value.store == st
    ensures r.Ok? && r.value.session.None? ==> r.value.store.file == NoFile
  {
    match st.file
    case NoFile => Ok(Loaded(None, st))
    case Undecodable(e) => Err(e)
    case Corrupt => Ok(Loaded(None, st.(file := NoFile)))
    case Json(doc) =>
      var p := FromDict(doc);
      if p.Ok? then Ok(Loaded(Some(p.value), st)) else Ok(Loaded(None, st.(file := NoFile)))
  }

  /** `delete_session`: the file is gone and one "session_ended" line is appended. */
  function Delete(st: Store, nowIso: string): (r: Store)
    ensures r.file == NoFile
    ensures r.events == st.events + [SessionEnded(nowIso)]
  {
    Store(NoFile, st.events + [SessionEnded(nowIso)])
  }

  /** `has_session`: a state file exists, corrupt or not. */
  predicate HasSession(st: Store) {
    !st.file.NoFile?
  }

  /** Saving and loading back gives the saved record, and loading does not disturb the store. */
  lemma SaveThenLoad(st: Store, p: Persisted, nowIso: string)
    ensures Load(Save(st, p, nowIso)) == Ok(Loaded(Some(p), Save(st, p, nowIso)))
    ensures HasSession(Save(st, p, nowIso))
    ensures |Save(st, p, nowIso).events| == |st.events| + 1
  {
  }

  /** After a delete there is no session and loading finds nothing. */
  lemma DeleteThenLoad(st: Store, nowIso: string)
    ensures !HasSession(Delete(st, nowIso))
    ensures Load(Delete(st, nowIso)) == Ok(Loaded(None, Delete(st, nowIso)))
  {
  }

  /**
   * A readable file that is not JSON, or whose JSON is not an accepted record,
   * is reported as no session and removed, so a second load finds no file.
   */
  lemma CorruptFileIsRemoved(st: Store)
    requires st.file.Corrupt? || (st.file.Json? && FromDict(st.file.doc).Err?)
    ensures Load(st).Ok? && Load(st).value.session == None
    ensures !HasSession(Load(st).value.store)
    ensures HasSession(st)
  {
  }

  /**
   * A file that is not UTF-8 makes loading raise with the decoding error, and
   * it is kept: every later load raises the same way until something else
   * deletes or overwrites it.
   */
  lemma UndecodableFileIsKept(st: Store, maxAgeHours: int, now: int, parseTime: string -> Option<int>)
    requires st.file.Undecodable?
    ensures Load(st) == Err(st.file.error)
    ensures HasSession(st)
    ensures SessionAge(st, now, parseTime) == Err(st.file.error)
    ensures IsSessionStale(st, maxAgeHours, now, parseTime) == Err(st.file.error)
  {
  }

  /** The result of an operation that answers a value and may rewrite the store. */
  datatype Answer<T> = Answer(value: T, store: Store)

  /**
   * `get_session_age_seconds`: None when no record loads or its start time does
   * not parse; otherwise `now` minus the start time, in seconds. A load that
   * raises propagates.
   */
  function SessionAge(st: Store, now: int, parseTime: string -> Option<int>): (r: Result<Answer<Option<int>>>)
    ensures r.Err? <==> Load(st).Err?
    ensures r.Err? ==> r.message == Load(st).message
    ensures r.Ok? ==>
      var l := Load(st).value;
      && r.value.store == l.store
      && (r.value.value.Some? <==> l.session.Some? && parseTime(l.session.value.sessionStart).Some?)
      && (r.value.value.Some? ==> r.value.value.value == now - parseTime(l.session.value.sessionStart).value)
  {
    match Load(st)
    case Err(e) => Err(e)
    case Ok(l) =>
      if l.session.None? then Ok(Answer(None, l.store))
      else
        var t := parseTime(l.session.value.sessionStart);
        if t.None? then Ok(Answer(None, l.store)) else Ok(Answer(Some(now - t.value), l.store))
  }

  /** `is_session_stale(max_age_hours)`: strictly older than the limit; unknown age is not stale. */
  function IsSessionStale(st: Store, maxAgeHours: int, now: int, parseTime: string -> Option<int>): (r: Result<Answer<bool>>)
    ensures r.Err? <==> Load(st).Err?
    ensures r.Err? ==> r.message == Load(st).message
    ensures r.Ok? ==>
      var a := SessionAge(st, now, parseTime).value;
      && r.value.store == a.store
      && (r.value.value <==> exists age :: a.value == Some(age) && age > maxAgeHours * 3600)
  {
    match SessionAge(st, now, parseTime)
    case Err(e) => Err(e)
    case Ok(a) =>
      match a.value
      case None => Ok(Answer(false, a.store))
      case Some(age) => Ok(Answer(age > maxAgeHours * 3600, a.store))
  }

  /** The threshold is strict: a session exactly 24 hours old is not stale, one second more is. */
  lemma StaleBoundary(branch: string, start: string, t0: int, parseTime: string -> Option<int>)
    requires parseTime(start) == Some(t0)
    ensures var st := Store(Json(ToDict(NewPersisted(branch, start))), []);
      && IsSessionStale(st, 24, t0 + 24 * 3600, parseTime) == Ok(Answer(false, st))
      && IsSessionStale(st, 24, t0 + 24 * 3600 + 1, parseTime) == Ok(Answer(true, st))
  {
    FromToDict(NewPersisted(branch, start));
  }

  /** Without a loadable record or with an unparseable start time the session is never stale. */
  lemma UnknownAgeNotStale(st: Store, maxAgeHours: int, now: int, parseTime: string -> Option<int>)
    requires Load(st).Ok?
    requires Load(st).value.session.None? || parseTime(Load(st).value.session.value.sessionStart).None?
    ensures IsSessionStale(st, maxAgeHours, now, parseTime) == Ok(Answer(false, Load(st).value.store))
  {
  }
}

=== FILE: records.dfy ===
/**
 * The value records of src/vibe_git/result_types.py and
 * src/vibe_git/event_types.py. The three result records unpack like 2-tuples
 * but index through their own `__getitem__`, which accepts exactly 0 and 1;
 * timestamps are abstract integers.
 */
module Records {
  import opened Base
  import opened Text
  import opened Paths
  import opened Commands
  import opened GitUtils
  import opened Sessions

  /** One element of a two-field record: its first field or its second. */
  datatype Item<A, B> = First(first: A) | Second(second: B)

  /**
   * The shared `__getitem__` rule: index 0 is the first field, index 1 the
   * second, and every other index, negative ones included, raises IndexError
   * "<Record> index out of range".
   */
  function PairAt<A, B>(x: A, y: B, i: int, record: string): (r: Result<Item<A, B>>)
    ensures r.Ok? <==> i == 0 || i == 1
    ensures i == 0 ==> r == Ok(First(x))
    ensures i == 1 ==> r == Ok(Second(y))
    ensures r.Err? ==> r.message == record + " index out of range"
  {
    if i == 0 then Ok(First(x))
    else if i == 1 then Ok(Second(y))
    else Err(record + " index out of range")
  }

  /** The shared `__iter__` rule: the two fields, in declaration order. */
  function PairItems<A, B>(x: A, y: B): (s: seq<Item<A, B>>)
    ensures |s| == 2 && s[0] == First(x) && s[1] == Second(y)
  {
    [First(x), Second(y)]
  }

  /** Indexing and iteration agree: an index is accepted exactly when it is a position of the iteration. */
  lemma PairAtMatchesItems<A, B>(x: A, y: B, i: int, record: string)
    ensures PairAt(x, y, i, record).Ok? <==> 0 <= i < |PairItems(x, y)|
    ensures 0 <= i < |PairItems(x, y)| ==> PairAt(x, y, i, record).value == PairItems(x, y)[i]
  {
  }

  /** Unlike a tuple, `-1` does not select the last field. */
  lemma NegativeIndexRaises<A, B>(x: A, y: B, record: string)
    ensures PairAt(x, y, -1, record).Err?
  {
  }

  // ---------------------------------------------------------------------------
  // result_types.py
  // ---------------------------------------------------------------------------

  datatype CommandResult = CommandResult(success: bool, output: string)

  function CommandResultAt(c: CommandResult, i: int): (r: Result<Item<bool, string>>)
    ensures r.Ok? <==> i == 0 || i == 1
    ensures i == 0 ==> r == Ok(First(c.success))
    ensures i == 1 ==> r == Ok(Second(c.output))
    ensures r.Err? ==> r.message == "CommandResult index out of range"
  {
    PairAt(c.success, c.output, i, "CommandResult")
  }

  function CommandResultItems(c: CommandResult): (s: seq<Item<bool, string>>)
    ensures s == [First(c.success), Second(c.output)]
  {
    PairItems(c.success, c.output)
  }

  datatype ChangesResult = ChangesResult(hasChanges: bool, details: string)

  function ChangesResultAt(c: ChangesResult, i: int): (r: Result<Item<bool, string>>)
    ensures r.Ok? <==> i == 0 || i == 1
    ensures i == 0 ==> r == Ok(First(c.hasChanges))
    ensures i == 1 ==> r == Ok(Second(c.details))
    ensures r.Err? ==> r.message == "ChangesResult index out of range"
  {
    PairAt(c.hasChanges, c.details, i, "ChangesResult")
  }

  function ChangesResultItems(c: ChangesResult): (s: seq<Item<bool, string>>)
    ensures s == [First(c.hasChanges), Second(c.details)]
  {
    PairItems(c.hasChanges, c.details)
  }

  datatype ParsedMessage = ParsedMessage(title: string, body: string)

  function ParsedMessageAt(m: ParsedMessage, i: int): (r: Result<Item<string, string>>)
    ensures r.Ok? <==> i == 0 || i == 1
    ensures i == 0 ==> r == Ok(First(m.title))
    ensures i == 1 ==> r == Ok(Second(m.body))
    ensures r.Err? ==> r.message == "ParsedMessage index out of range"
  {
    PairAt(m.title, m.body, i, "ParsedMessage")
  }

  function ParsedMessageItems(m: ParsedMessage): (s: seq<Item<string, string>>)
    ensures s == [First(m.title), Second(m.body)]
  {
    PairItems(m.title, m.body)
  }

  /** Unpacking and then rebuilding gives back the same record, for each of the three. */
  lemma UnpackRebuilds(c: CommandResult, d: ChangesResult, m: ParsedMessage)
    ensures var s := CommandResultItems(c); CommandResult(s[0].first, s[1].second) == c
    ensures var s := ChangesResultItems(d); ChangesResult(s[0].first, s[1].second) == d
    ensures var s := ParsedMessageItems(m); ParsedMessage(s[0].first, s[1].second) == m
  {
  }

  datatype BranchCheckResult = BranchCheckResult(branch: Option<string>, isVibeBranch: bool)

  /** `has_branch`: a branch name is present. */
  function HasBranch(b: BranchCheckResult): (r: bool)
    ensures r <==> b.branch.Some?
  {
    b.branch != None
  }

  /**
   * The BranchCheckResult of the current branch: the answer of
   * `get_current_branch` and whether that is a vibe branch. No caller in the
   * source builds one; this is what its two fields describe.
   */
  function CheckBranch(env: Env, trace: Trace, repo: Path): (r: BranchCheckResult)
    ensures r.branch == CurrentBranch(env, trace, repo).value
    ensures r.isVibeBranch <==> r.branch.Some? && IsVibeBranch(r.branch.value)
  {
    var b := CurrentBranch(env, trace, repo).value;
    BranchCheckResult(b, b.Some? && IsVibeBranch(b.value))
  }

  /** A checked branch is present exactly when the branch query succeeded with output; a vibe branch is always present. */
  lemma {:induction false} HasBranchIffAnswered(env: Env, trace: Trace, repo: Path)
    ensures var o := Collect(env.proc(trace, ShowCurrent));
      HasBranch(CheckBranch(env, trace, repo)) <==> o.ok && o.out != ""
    ensures CheckBranch(env, trace, repo).isVibeBranch ==> HasBranch(CheckBranch(env, trace, repo))
  {
    var r := CheckBranch(env, trace, repo);
    assert HasBranch(r) <==> CurrentBranch(env, trace, repo).value.Some?;
  }

  // ---------------------------------------------------------------------------
  // event_types.py
  // ---------------------------------------------------------------------------

  datatype CommitEvent = CommitEvent(timestamp: int, filesChanged: seq<string>, branch: string)

  /** `has_changes`: the file list is non-empty. */
  function CommitHasChanges(e: CommitEvent): (r: bool)
    ensures r <==> |e.filesChanged| > 0
  {
    e.filesChanged != []
  }

  /**
   * The CommitEvent for what `has_uncommitted_changes` reported: one entry
   * per line of the porcelain details when dirty, none when clean.
   */
  function PendingCommit(c: Changes, branch: string, timestamp: int): (e: CommitEvent)
    requires c.dirty ==> c.details != ""
    ensures c.dirty ==> JoinWith(e.filesChanged, "\n") == c.details
    ensures !c.dirty ==> e.filesChanged == []
    ensures e.branch == branch && e.timestamp == timestamp
  {
    if c.dirty then
      JoinSplit(c.details, '\n');
      CommitEvent(timestamp, SplitOn(c.details, '\n'), branch)
    else CommitEvent(timestamp, [], branch)
  }

  /** A commit event built from the status query has changes exactly when the tree is dirty. */
  lemma {:induction false} PendingCommitHasChangesIffDirty(env: Env, trace: Trace, repo: Path, branch: string, timestamp: int)
    ensures var c := HasUncommittedChanges(env, trace, repo).value;
      CommitHasChanges(PendingCommit(c, branch, timestamp)) <==> c.dirty
  {
    var c := HasUncommittedChanges(env, trace, repo).value;
    if c.dirty {
      assert JoinWith([], "\n") == "";
    }
  }

  datatype StateTransitionEvent = StateTransitionEvent(
    fromState: StateKind, toState: StateKind, timestamp: int, reason: Option<string>)

  /** The constructor with its default: no reason. */
  function NewStateTransitionEvent(from: StateKind, to: StateKind, timestamp: int): (e: StateTransitionEvent)
    ensures e.reason == None && e.fromState == from && e.toState == to && e.timestamp == timestamp
  {
    StateTransitionEvent(from, to, timestamp, None)
  }

  /** `state_changed`: the two state classes differ. */
  function StateChanged(e: StateTransitionEvent): (r: bool)
    ensures r <==> e.fromState != e.toState
  {
    e.fromState != e.toState
  }

  /** A forced Idle-to-Idle move records no change, and no changing event is a self-transition. */
  lemma StateChangedMatchesSelfTransition(e: StateTransitionEvent, s: SessionState, t: SessionState)
    requires e.fromState == KindOf(s) && e.toState == KindOf(t)
    ensures !StateChanged(e) ==> !CanTransition(s, t)
    ensures StateChanged(NewStateTransitionEvent(IdleKind, IdleKind, e.timestamp)) == false
  {
    if !StateChanged(e) {
      NoSelfTransition(s, t);
    }
  }

  datatype SessionStartEvent = SessionStartEvent(
    branch: string, timestamp: int, resumed: bool, previousBranch: Option<string>)

  function NewSessionStartEvent(branch: string, timestamp: int): (e: SessionStartEvent)
    ensures e.branch == branch && e.timestamp == timestamp
    ensures !e.resumed && e.previousBranch == None
  {
    SessionStartEvent(branch, timestamp, false, None)
  }

  datatype SessionStopEvent = SessionStopEvent(
    branch: string, timestamp: int, commitCount: int, prCreated: bool, commitMessage: Option<string>)

  function NewSessionStopEvent(branch: string, timestamp: int, commitCount: int, prCreated: bool): (e: SessionStopEvent)
    ensures e.branch == branch && e.timestamp == timestamp
    ensures e.commitCount == commitCount && e.prCreated == prCreated
    ensures e.commitMessage == None
  {
    SessionStopEvent(branch, timestamp, commitCount, prCreated, None)
  }

  datatype GitOperationEvent = GitOperationEvent(
    operation: string, args: seq<string>, success: bool, output: string, timestamp: int)

  /** `failed`: exactly the negation of success. */
  function OperationFailed(e: GitOperationEvent): (r: bool)
    ensures r <==> !e.success
  {
    !e.success
  }

  /** The GitOperationEvent recording a git command run in `repo`, named `operation`. */
  function RecordGitOperation(env: Env, trace: Trace, repo: Path, operation: string, args: Argv, timestamp: int): (e: GitOperationEvent)
    ensures var o := Collect(env.proc(trace, ["git"] + args));
      e.success == o.ok && e.output == o.out
    ensures e.operation == operation && e.args == args && e.timestamp == timestamp
  {
    var ran := Git(env, trace, repo, args);
    GitOperationEvent(operation, args, ran.outcome.ok, ran.outcome.out, timestamp)
  }

  /** A recorded operation failed exactly when the command's exit code was not 0 or the spawn raised. */
  lemma {:induction false} OperationFailedIffCommandFailed(env: Env, trace: Trace, repo: Path, operation: string, args: Argv, timestamp: int)
    ensures var p := env.proc(trace, ["git"] + args);
      var e := RecordGitOperation(env, trace, repo, operation, args, timestamp);
      OperationFailed(e) <==> p.Raised? || (p.Exited? && p.code != 0)
  {
    var p := env.proc(trace, ["git"] + args);
    assert Collect(p).ok <==> p.Exited? && p.code == 0;
  }

  datatype FileWatchEvent = FileWatchEvent(path: string, eventType: string, timestamp: int, ignored: bool)

  function NewFileWatchEvent(path: string, eventType: string, timestamp: int): (e: FileWatchEvent)
    ensures e.path == path && e.eventType == eventType && e.timestamp == timestamp
    ensures !e.ignored
  {
    FileWatchEvent(path, eventType, timestamp, false)
  }
}

=== FILE: retry.dfy ===
/**
 * `run_git_with_hook_retry` of src/vibe_git/main.py: a git command is
 * repeated while it fails with output mentioning a hook, at most
 * `max_retries` times. The one-second pause between attempts is not modelled.
 */
module Retrying {
  import opened Text
  import opened Paths
  import opened Commands

  /** A failure that the retry loop treats as a hook still running: "hook" in the lowercased output. */
  predicate HookFailure(o: Outcome) {
    !o.ok && Contains(ToLower(o.out), "hook")
  }

  /** A failure whose output spells "hook" with a KELVIN SIGN for the k is retried as well. */
  lemma KelvinSignCountsAsHook(msg: string)
    ensures HookFailure(Outcome(false, "HOO\U{212A}"))
    ensures HookFailure(Outcome(false, msg + "Pre-commit HOO\U{212A} failed"))
  {
    var s := "HOO\U{212A}";
    assert ToLower(s) == "hook";
    assert StartsWith(ToLower(s), "hook");
    var t := msg + "Pre-commit HOO\U{212A} failed";
    var k := |msg| + 11;
    assert t[k..k + 4] == s;
    assert ToLower(t)[k..][..4] == ToLower(s);
    ContainsAt(ToLower(t), "hook");
  }

  /** Such a failure on the first attempt is followed by a second attempt when one is left. */
  lemma KelvinHookIsRetried(env: Env, trace: Trace, argv: Argv, left: nat, total: int)
    requires left >= 2
    requires Collect(env.proc(trace, argv)) == Outcome(false, "HOO\U{212A}")
    ensures |Attempts(env, trace, argv, left, total).1| >= |trace| + 2
  {
    KelvinSignCountsAsHook("");
    AttemptsBounded(env, trace + [argv], argv, left - 1, total);
  }

  /** The text returned once every attempt failed on a hook. */
  function Exhausted(maxRetries: int, last: Outcome): string {
    "Failed after " + IntToString(maxRetries) + " attempts: " + last.out
  }

  /**
   * The attempts as a recursion, for reference: `left` attempts remain, out
   * of `total`. The first outcome that is not a hook failure is returned as it
   * is; when the last attempt fails on a hook too, the exhaustion message is.
   */
  function Attempts(env: Env, trace: Trace, argv: Argv, left: nat, total: int): (r: (Outcome, Trace))
    requires left >= 1
    decreases left
  {
    var o := Collect(env.proc(trace, argv));
    if !HookFailure(o) then (o, trace + [argv])
    else if left == 1 then (Outcome(false, Exhausted(total, o)), trace + [argv])
    else Attempts(env, trace + [argv], argv, left - 1, total)
  }

  /** How a call ended: a result, or `UnboundLocalError` when the loop never ran. */
  datatype RetryOut = Finished(outcome: Outcome, trace: Trace) | Unbound(trace: Trace)

  /**
   * `run_git_with_hook_retry(args, repo, max_retries)`. With `max_retries`
   * at most 0 the loop body never runs and reading `output` afterwards raises;
   * otherwise the call ends as the reference recursion does.
   */
  method RunGitWithHookRetry(env: Env, trace: Trace, repo: Path, args: Argv, maxRetries: int) returns (r: RetryOut)
    ensures maxRetries <= 0 ==> r == Unbound(trace)
    ensures maxRetries > 0 ==> r.Finished? && (r.outcome, r.trace) == Attempts(env, trace, ["git"] + args, maxRetries, maxRetries)
  {
    var argv := ["git"] + args;
    if maxRetries <= 0 {
      // `range(max_retries)` is empty, so `output` is never bound
      return Unbound(trace);
    }
    var t := trace;
    var i := 0;
    while i < maxRetries
      invariant 0 <= i < maxRetries
      invariant Attempts(env, trace, argv, maxRetries, maxRetries) == Attempts(env, t, argv, maxRetries - i, maxRetries)
      decreases maxRetries - i
    {
      var o := Collect(env.proc(t, argv));   // `run_git_command(args, repo)`
      AttemptStep(env, t, argv, maxRetries - i, maxRetries);
      if !HookFailure(o) {
        return Finished(o, t + [argv]);
      }
      if i == maxRetries - 1 {
        return Finished(Outcome(false, Exhausted(maxRetries, o)), t + [argv]);
      }
      t := t + [argv];
      i := i + 1;
    }
  }

  /** One attempt of the reference recursion. */
  lemma AttemptStep(env: Env, trace: Trace, argv: Argv, left: nat, total: int)
    requires left >= 1
    ensures var o := Collect(env.proc(trace, argv));
      && (!HookFailure(o) ==> Attempts(env, trace, argv, left, total) == (o, trace + [argv]))
      && (HookFailure(o) && left == 1 ==> Attempts(env, trace, argv, left, total) == (Outcome(false, Exhausted(total, o)), trace + [argv]))
      && (HookFailure(o) && left > 1 ==> Attempts(env, trace, argv, left, total) == Attempts(env, trace + [argv], argv, left - 1, total))
  {
  }

  /** Every attempt issues the same command, and there are between one and `left` of them. */
  lemma {:induction false} AttemptsBounded(env: Env, trace: Trace, argv: Argv, left: nat, total: int)
    requires left >= 1
    ensures var (_, t) := Attempts(env, trace, argv, left, total);
      && |trace| < |t| <= |trace| + left
      && t[..|trace|] == trace
      && forall k :: |trace| <= k < |t| ==> t[k] == argv
    decreases left
  {
    var o := Collect(env.proc(trace, argv));
    if HookFailure(o) && left > 1 {
      AttemptsBounded(env, trace + [argv], argv, left - 1, total);
      var (_, t) := Attempts(env, trace, argv, left, total);
      assert t[..|trace| + 1][..|trace|] == t[..|trace|];
    }
  }

  /**
   * A result other than a hook failure is never retried and comes back as it
   * is; in particular a first attempt that succeeds issues the command once.
   */
  lemma NoRetryWithoutHook(env: Env, trace: Trace, argv: Argv, left: nat, total: int)
    requires left >= 1 && !HookFailure(Collect(env.proc(trace, argv)))
    ensures Attempts(env, trace, argv, left, total) == (Collect(env.proc(trace, argv)), trace + [argv])
  {
  }

  /**
   * The result is decided by the last attempt: either its outcome, returned
   * as it is because it was not a hook failure, or, when every one of the
   * `left` attempts failed on a hook, the exhaustion message quoting it.
   */
  lemma {:induction false} AttemptsEndOnLast(env: Env, trace: Trace, argv: Argv, left: nat, total: int)
    requires left >= 1
    ensures var (o, t) := Attempts(env, trace, argv, left, total);
      |trace| < |t| &&
      var last := Collect(env.proc(t[..|t| - 1], argv));
      || (o == last && !HookFailure(last))
      || (|t| == |trace| + left && HookFailure(last) && o == Outcome(false, Exhausted(total, last)))
    decreases left
  {
    var o := Collect(env.proc(trace, argv));
    if !HookFailure(o) || left == 1 {
      assert (trace + [argv])[..|trace|] == trace;
    } else {
      AttemptsEndOnLast(env, trace + [argv], argv, left - 1, total);
    }
  }
}

=== FILE: rust_client.dfy ===
/**
 * The line-command client of the Rust crate: `McpClient` (src/mcp.rs) and
 * the stdin loop that drives it (src/bin/vibe-git-mcp.rs). The client calls
 * a session API (`new(&str)`, `start`, `finish`, `branch`) that src/lib.rs
 * does not define; here a session is what those calls evidently stand for,
 * the name of the branch being vibed on.
 */
module RustClient {
  import opened Base
  import opened Text

  /** `McpClient`, plus the sessions `finish()` was called on, oldest first. */
  datatype Client = Client(session: Option<string>, finished: seq<string>)

  /** `McpClient::new` (and `Default`): no session, nothing finished. */
  function NewClient(): (c: Client)
    ensures ClientBranch(c) == None && c.finished == []
  {
    Client(None, [])
  }

  /** `start_vibing`: opens a session on `branch` only when none is active. */
  function ClientStart(c: Client, branch: string): (r: Client)
    ensures c.session.None? ==> ClientBranch(r) == Some(branch)
    ensures c.session.Some? ==> r == c
    ensures r.finished == c.finished
  {
    if c.session.None? then c.(session := Some(branch)) else c
  }

  /** `stop_vibing`: finishes the active session exactly once and clears it; a no-op otherwise. */
  function ClientStop(c: Client): (r: Client)
    ensures ClientBranch(r) == None
    ensures c.session.Some? ==> r.finished == c.finished + [c.session.value]
    ensures c.session.None? ==> r == c
  {
    match c.session
    case Some(b) => Client(None, c.finished + [b])
    case None => c
  }

  /** `branch`: the active session's branch, if any. */
  function ClientBranch(c: Client): Option<string> {
    c.session
  }

  /** Stopping right after a start finishes exactly the started branch. */
  lemma StartThenStopFinishesBranch(c: Client, branch: string)
    requires c.session.None?
    ensures ClientStop(ClientStart(c, branch)).finished == c.finished + [branch]
    ensures ClientBranch(ClientStop(ClientStart(c, branch))) == None
  {
  }

  /** What a line asks for: the first token names the command, extra tokens are ignored. */
  datatype Command =
    | StartOn(branch: string)
    | StartUsage
    | StopCmd
    | StatusCmd
    | UnknownCmd

  function ParseCommand(line: string): (cmd: Command)
    ensures var t := SplitWhitespace(RustBlanks, line);
      && (cmd.StartOn? <==> |t| >= 2 && t[0] == "start")
      && (cmd.StartOn? ==> cmd.branch == t[1] && IsToken(RustBlanks, cmd.branch))
      && (cmd == StartUsage <==> t == ["start"])
      && (cmd == StopCmd <==> |t| >= 1 && t[0] == "stop")
      && (cmd == StatusCmd <==> |t| >= 1 && t[0] == "status")
      && (cmd == UnknownCmd <==> t == [] || t[0] !in {"start", "stop", "status"})
  {
    var t := SplitWhitespace(RustBlanks, line);
    if t == [] then UnknownCmd
    else if t[0] == "start" then (if |t| >= 2 then StartOn(t[1]) else StartUsage)
    else if t[0] == "stop" then StopCmd
    else if t[0] == "status" then StatusCmd
    else UnknownCmd
  }

  /** A blank line, like any unrecognised one, is an unknown command. */
  lemma BlankLineIsUnknown(line: string)
    requires AllBlank(RustBlanks, line)
    ensures ParseCommand(line) == UnknownCmd
  {
    SplitWhitespaceEmpty(RustBlanks, line);
  }

  /** The client after a command, and the line printed for it. */
  datatype Handled = Handled(client: Client, output: string)

  function Execute(c: Client, cmd: Command): (r: Handled)
    ensures cmd.StartOn? ==> r == Handled(ClientStart(c, cmd.branch), "started " + cmd.branch)
    ensures cmd.StopCmd? ==> r == Handled(ClientStop(c), "stopped")
    ensures cmd.StatusCmd? ==>
      && r.client == c
      && (ClientBranch(c).Some? <==> r.output != "idle")
      && (ClientBranch(c).Some? ==> r.output == "vibing on " + ClientBranch(c).value)
    ensures cmd.StartUsage? || cmd.UnknownCmd? ==> r.client == c
  {
    match cmd
    case StartOn(b) => Handled(ClientStart(c, b), "started " + b)
    case StartUsage => Handled(c, "usage: start <branch>")
    case StopCmd => Handled(ClientStop(c), "stopped")
    case StatusCmd =>
      (match ClientBranch(c)
       case Some(b) =>
         assert ("vibing on " + b)[0] == 'v' != "idle"[0];
         Handled(c, "vibing on " + b)
       case None => Handled(c, "idle"))
    case UnknownCmd => Handled(c, "unknown command")
  }

  /**
   * "start <b>" reports "started <b>" even when another session is active;
   * the active session is kept.
   */
  lemma StartReportsEvenWhenActive(c: Client, line: string, active: string)
    requires c.session == Some(active)
    requires ParseCommand(line).StartOn?
    ensures var r := Execute(c, ParseCommand(line));
      r.client == c && r.output == "started " + ParseCommand(line).branch
  {
  }

  /** A line of stdin, or a line that failed to read. */
  datatype LineRead = Line(text: string) | ReadError

  /** The lines actually read. */
  function LinesRead(input: seq<LineRead>): (n: nat)
    ensures n <= |input|
  {
    if input == [] then 0
    else LinesRead(input[..|input| - 1]) + (if input[|input| - 1].Line? then 1 else 0)
  }

  /** The client at end of input and everything printed, in order. */
  datatype Session = Session(client: Client, printed: seq<string>)

  /** The `for line in stdin.lock().lines()` loop; failed input are skipped. */
  function Serve(c: Client, input: seq<LineRead>): (r: Session)
    decreases |input|
  {
    if input == [] then Session(c, [])
    else
      var before := Serve(c, input[..|input| - 1]);
      match input[|input| - 1]
      case ReadError => before
      case Line(text) =>
        var h := Execute(before.client, ParseCommand(text));
        Session(h.client, before.printed + [h.output])
  }

  /** Exactly one line is printed per line read. */
  lemma {:induction false} OneOutputPerLine(c: Client, input: seq<LineRead>)
    ensures |Serve(c, input).printed| == LinesRead(input)
    decreases |input|
  {
    if input != [] {
      OneOutputPerLine(c, input[..|input| - 1]);
    }
  }

  /** Input splits anywhere: the second part continues from where the first left off. */
  lemma {:induction false} ServeAppend(c: Client, a: seq<LineRead>, b: seq<LineRead>)
    ensures var first := Serve(c, a);
      var second := Serve(first.client, b);
      Serve(c, a + b) == Session(second.client, first.printed + second.printed)
    decreases |b|
  {
    if b == [] {
      assert a + b == a;
    } else {
      var b' := b[..|b| - 1];
      assert (a + b)[..|a + b| - 1] == a + b';
      assert (a + b)[|a + b| - 1] == b[|b| - 1];
      ServeAppend(c, a, b');
    }
  }

  /** A read error changes nothing and prints nothing. */
  lemma ReadErrorIsSkipped(c: Client, input: seq<LineRead>)
    ensures Serve(c, input + [ReadError]) == Serve(c, input)
  {
    assert (input + [ReadError])[..|input|] == input;
  }
}

=== FILE: rust_lib.dfy ===
/**
 * The typestate session of the Rust crate (src/lib.rs). A session is Idle or
 * Vibing by its type; both hold only the repository path. Every git step is
 * a call into src/git.rs, a libgit2 layer whose behaviour is not modelled: an
 * oracle answers each step, given the steps run before it, with success or an
 * error message. `?` makes each script stop at its first error.
 */
module RustLib {
  import opened Base
  import opened Text
  import opened Paths
  import opened GitUtils

  /** The calls into src/git.rs (and the watcher start) that the scripts make. */
  datatype LibStep =
    | ValidateRepository
    | CreateBranchFromMain(branch: string)
    | CheckoutBranch(branch: string)
    | StartAutoCommit
    | CreateBranch(branch: string)
    | Pull
    | SquashRebaseOntoMain(message: string)
    | PushBranch(branch: string)
    | CreatePr(branch: string, message: string)

  type Steps = seq<LibStep>

  /** The outside world of the crate: the result of a step on a repository, given the steps run before it. */
  type Lib = (Path, Steps, LibStep) -> Result<()>

  /** The result of a script and every step run so far. */
  datatype LibOut<T> = LibOut(result: Result<T>, done: Steps)

  /** The first `n` of `steps`, run after `done`, all succeeded. */
  predicate FirstSucceed(lib: Lib, repo: Path, done: Steps, steps: Steps, n: nat)
    requires n <= |steps|
  {
    forall i :: 0 <= i < n ==> StepOk(lib, repo, done, steps, i)
  }

  /** Step `i` of `steps`, if there is one, succeeds after the ones before it. */
  predicate StepOk(lib: Lib, repo: Path, done: Steps, steps: Steps, i: int) {
    0 <= i < |steps| ==> lib(repo, done + steps[..i], steps[i]).Ok?
  }

  lemma PrefixShift(done: Steps, steps: Steps, i: nat)
    requires i < |steps|
    ensures done + steps[..i + 1] == (done + [steps[0]]) + steps[1..][..i]
  {
    assert steps[..i + 1] == [steps[0]] + steps[1..][..i];
  }

  /**
   * A chain of `?`: the steps run in order, and the first error ends the chain
   * and is the chain's result. On success every step ran; on an error the
   * steps before the failing one succeeded and the failing one ran last.
   */
  function RunSteps(lib: Lib, repo: Path, done: Steps, steps: Steps): (r: LibOut<()>)
    ensures |done| <= |r.done| <= |done| + |steps|
    ensures r.done == done + steps[..|r.done| - |done|]
    ensures r.result.Ok? ==> |r.done| == |done| + |steps| && FirstSucceed(lib, repo, done, steps, |steps|)
    ensures r.result.Err? ==>
      var k := |r.done| - |done| - 1;
      && 0 <= k && FirstSucceed(lib, repo, done, steps, k)
      && lib(repo, done + steps[..k], steps[k]) == r.result
    decreases |steps|
  {
    if steps == [] then LibOut(Ok(()), done)
    else
      var res := lib(repo, done, steps[0]);
      var next := done + [steps[0]];
      assert done + steps[..0] == done;
      if res.Err? then
        assert steps[..1] == [steps[0]];
        LibOut(res, next)
      else
        var r := RunSteps(lib, repo, next, steps[1..]);
        PrefixShift(done, steps, |r.done| - |next|);
        assert r.result.Err? ==> done + steps[..|r.done| - |next|] == next + steps[1..][..|r.done| - |next| - 1] by {
          if r.result.Err? { PrefixShift(done, steps, |r.done| - |next| - 1); }
        }
        assert StepOk(lib, repo, done, steps, 0);
        forall i | 1 <= i < |steps|
          ensures StepOk(lib, repo, done, steps, i) == StepOk(lib, repo, next, steps[1..], i - 1)
        {
          PrefixShift(done, steps, i - 1);
        }
        r
  }

  /** `VibeSession<Idle>` and `VibeSession<Vibing>`: the repository path only. */
  datatype IdleSession = IdleSession(repo: Path)
  datatype VibingSession = VibingSession(repo: Path)

  /** `VibeSession::<Idle>::new`: succeeds exactly when the repository validates. */
  function NewSession(lib: Lib, repo: Path, done: Steps): (r: LibOut<IdleSession>)
    ensures r.done == done + [ValidateRepository]
    ensures r.result.Ok? <==> lib(repo, done, ValidateRepository).Ok?
    ensures r.result.Ok? ==> r.result.value == IdleSession(repo)
    ensures r.result.Err? ==> r.result == Err(lib(repo, done, ValidateRepository).message)
  {
    var run := RunSteps(lib, repo, done, [ValidateRepository]);
    if run.result.Err? then LibOut(Err(run.result.message), run.done) else LibOut(Ok(IdleSession(repo)), run.done)
  }

  /** `vibe-<timestamp>`, the timestamp being a signed count of seconds. */
  function RustBranchName(timestamp: int): (b: string)
    ensures IsVibeBranch(b)
  {
    assert ("vibe-" + IntToString(timestamp))[..5] == "vibe-";
    "vibe-" + IntToString(timestamp)
  }

  function StartSteps(branch: string): Steps {
    [CreateBranchFromMain(branch), CheckoutBranch(branch), StartAutoCommit]
  }

  datatype Started = Started(session: VibingSession, branch: string)

  /**
   * `start_vibing`: create the branch from main (or master), check it out,
   * start the watcher. The Vibing session keeps the repository.
   */
  function StartVibing(lib: Lib, s: IdleSession, done: Steps, timestamp: int): (r: LibOut<Started>)
    ensures var run := RunSteps(lib, s.repo, done, StartSteps(RustBranchName(timestamp)));
      && r.done == run.done
      && (run.result.Ok? <==> r.result.Ok?)
      && (run.result.Err? ==> r.result == Err(run.result.message))
      && (r.result.Ok? ==> r.result.value == Started(VibingSession(s.repo), RustBranchName(timestamp)))
  {
    var b := RustBranchName(timestamp);
    var run := RunSteps(lib, s.repo, done, StartSteps(b));
    if run.result.Err? then LibOut(Err(run.result.message), run.done)
    else LibOut(Ok(Started(VibingSession(s.repo), b)), run.done)
  }

  function StopSteps(branch: string, message: string): Steps {
    [CreateBranch("backup-" + branch), CheckoutBranch("main"), Pull, CheckoutBranch(branch),
     SquashRebaseOntoMain(message), PushBranch(branch), CreatePr(branch, message), CheckoutBranch("main")]
  }

  /**
   * `stop_vibing`: back up the branch, refresh main, squash the branch onto
   * it, push, open the PR, return to main. The Idle session keeps the
   * repository.
   */
  function StopVibing(lib: Lib, s: VibingSession, branch: string, message: string, done: Steps): (r: LibOut<IdleSession>)
    ensures var run := RunSteps(lib, s.repo, done, StopSteps(branch, message));
      && r.done == run.done
      && (run.result.Ok? <==> r.result.Ok?)
      && (run.result.Err? ==> r.result == Err(run.result.message))
      && (r.result.Ok? ==> r.result.value == IdleSession(s.repo))
  {
    var run := RunSteps(lib, s.repo, done, StopSteps(branch, message));
    if run.result.Err? then LibOut(Err(run.result.message), run.done)
    else LibOut(Ok(IdleSession(s.repo)), run.done)
  }

  /**
   * A completed stop ran all eight steps, in order, ending with the checkout
   * of main; the backup branch was the first thing made.
   */
  lemma StopCompletesOnMain(lib: Lib, s: VibingSession, branch: string, message: string, done: Steps)
    requires StopVibing(lib, s, branch, message, done).result.Ok?
    ensures var d := StopVibing(lib, s, branch, message, done).done;
      && |d| == |done| + 8
      && d[|d| - 1] == CheckoutBranch("main")
      && d[|done|] == CreateBranch("backup-" + branch)
  {
  }

  /**
   * The first failing step ends the chain: when the `n` steps before it
   * succeed and step `n` fails, exactly `n + 1` steps run and the chain
   * returns that step's error.
   */
  lemma FirstFailureEndsRun(lib: Lib, repo: Path, done: Steps, steps: Steps, n: nat)
    requires n < |steps| && FirstSucceed(lib, repo, done, steps, n)
    requires lib(repo, done + steps[..n], steps[n]).Err?
    ensures RunSteps(lib, repo, done, steps).done == done + steps[..n + 1]
    ensures RunSteps(lib, repo, done, steps).result == lib(repo, done + steps[..n], steps[n])
  {
    var r := RunSteps(lib, repo, done, steps);
    var k := |r.done| - |done|;
    assert r.result.Ok? ==> StepOk(lib, repo, done, steps, n);
    assert r.result.Err? && k - 1 < n ==> StepOk(lib, repo, done, steps, k - 1);
    assert r.result.Err? && k - 1 > n ==> StepOk(lib, repo, done, steps, n);
  }

  /**
   * A failed push is the last step of a stop: the PR is never opened and the
   * script never returns to main.
   */
  lemma FailedPushStopsScript(lib: Lib, s: VibingSession, branch: string, message: string, done: Steps)
    requires FirstSucceed(lib, s.repo, done, StopSteps(branch, message), 5)
    requires lib(s.repo, done + StopSteps(branch, message)[..5], PushBranch(branch)).Err?
    ensures StopVibing(lib, s, branch, message, done).done == done + StopSteps(branch, message)[..6]
    ensures StopVibing(lib, s, branch, message, done).result.Err?
  {
    FirstFailureEndsRun(lib, s.repo, done, StopSteps(branch, message), 5);
  }

  /**
   * A failing start step ends the start: with the `n` steps before it
   * succeeding, only `n + 1` steps run and no later step (the checkout, the
   * watcher) is attempted.
   */
  lemma StartStopsAtFirstError(lib: Lib, s: IdleSession, done: Steps, timestamp: int, n: nat)
    requires n < 3
    requires FirstSucceed(lib, s.repo, done, StartSteps(RustBranchName(timestamp)), n)
    requires lib(s.repo, done + StartSteps(RustBranchName(timestamp))[..n], StartSteps(RustBranchName(timestamp))[n]).Err?
    ensures StartVibing(lib, s, done, timestamp).done == done + StartSteps(RustBranchName(timestamp))[..n + 1]
    ensures StartVibing(lib, s, done, timestamp).result.Err?
  {
    FirstFailureEndsRun(lib, s.repo, done, StartSteps(RustBranchName(timestamp)), n);
  }
}

=== FILE: rust_main.dfy ===
/**
 * The entry point of the Rust MCP server (src/main.rs): the repository
 * locator and the choice of repository path. Unlike the Python walk, the
 * locator examines the filesystem root too.
 */
module RustMain {
  import opened Base
  import opened Paths
  import opened RustLib
  import opened RustService

  const NoRepository: string := "No git repository found in current directory or any parent directory"

  /** Some directory from `cwd` up to and including the root holds `.git`. */
  predicate RepoOnWay(present: Exists, cwd: Path) {
    exists k :: 0 <= k <= |cwd| && HasGitEntry(present, cwd[..k])
  }

  /**
   * `find_git_repository`: the first directory, from `cwd` upward, where
   * `join(".git")` exists; an error once the root (which has no parent) has
   * been examined without a match.
   */
  function FindGitRepository(cwd: Path, present: Exists): (r: Result<Path>)
    ensures r.Ok? ==> |r.value| <= |cwd| && r.value == cwd[..|r.value|] && HasGitEntry(present, r.value)
    ensures r.Ok? ==> forall k :: |r.value| < k <= |cwd| ==> !HasGitEntry(present, cwd[..k])
    ensures r.Err? <==> !RepoOnWay(present, cwd)
    ensures r.Err? ==> r.message == NoRepository
    decreases |cwd|
  {
    assert cwd[..|cwd|] == cwd;
    if HasGitEntry(present, cwd) then Ok(cwd)
    else if cwd == [] then Err(NoRepository)
    else
      var up := cwd[..|cwd| - 1];
      assert forall k :: 0 <= k <= |up| ==> up[..k] == cwd[..k];
      FindGitRepository(up, present)
  }

  /** Wherever the Python walk finds a repository, the Rust locator finds the same one. */
  lemma {:induction false} LocatorsAgreeBelowRoot(cwd: Path, present: Exists)
    requires FindGitRepo(cwd, present).Ok?
    ensures FindGitRepository(cwd, present) == FindGitRepo(cwd, present)
    decreases |cwd|
  {
    if !HasGitEntry(present, cwd) {
      LocatorsAgreeBelowRoot(cwd[..|cwd| - 1], present);
    }
  }

  /**
   * They differ when only the root holds `.git`: the Python walk reports "Not
   * in a git repository", the Rust locator returns the root.
   */
  lemma RootRepositoryOnlySeenByRust(cwd: Path, present: Exists)
    requires HasGitEntry(present, []) && !RepoAbove(present, cwd)
    ensures FindGitRepo(cwd, present) == Err(NotInRepository)
    ensures FindGitRepository(cwd, present) == Ok([])
  {
    assert cwd[..0] == [];
  }

  /**
   * The repository path of `main`: the first argument after the program
   * name when there is one (as a path, by `asPath`), otherwise the located
   * repository. A failed search ends the program through `expect`, which is
   * the error here.
   */
  function RepoPath(args: seq<string>, cwd: Path, present: Exists, asPath: string -> Path): (r: Result<Path>)
    ensures |args| >= 2 ==> r == Ok(asPath(args[1]))
    ensures |args| < 2 ==> (r.Ok? <==> RepoOnWay(present, cwd))
    ensures |args| < 2 && r.Ok? ==> r == FindGitRepository(cwd, present)
    ensures |args| < 2 && r.Err? ==> r.message == "Failed to find git repository: " + NoRepository
  {
    if |args| >= 2 then Ok(asPath(args[1]))
    else
      var found := FindGitRepository(cwd, present);
      if found.Err? then Err("Failed to find git repository: " + found.message) else found
  }

  /** An explicit argument is used as given, even outside any repository. */
  lemma ArgumentWinsOverSearch(args: seq<string>, cwd: Path, present: Exists, asPath: string -> Path)
    requires |args| >= 2 && !RepoOnWay(present, cwd)
    ensures RepoPath(args, cwd, present, asPath) == Ok(asPath(args[1]))
    ensures FindGitRepository(cwd, present).Err?
  {
  }

  /** `main` up to serving: pick the repository, then build the service on it. */
  function Launch(lib: Lib, args: seq<string>, cwd: Path, present: Exists, asPath: string -> Path): (r: LibOut<Service>)
    ensures RepoPath(args, cwd, present, asPath).Err? ==> r.result.Err? && r.done == []
    ensures RepoPath(args, cwd, present, asPath).Ok? ==>
      var repo := RepoPath(args, cwd, present, asPath).value;
      && r.done == [ValidateRepository]
      && (r.result.Ok? <==> lib(repo, [], ValidateRepository).Ok?)
      && (r.result.Ok? ==> ServiceStatus(r.result.value) == StatusIdle && r.result.value.repo == repo)
  {
    var repo := RepoPath(args, cwd, present, asPath);
    if repo.Err? then LibOut(Err(repo.message), [])
    else NewService(lib, repo.value, [])
  }
}

=== FILE: rust_service.dfy ===
/**
 * The MCP service of the Rust crate (src/service.rs): an optional holder of
 * an Idle or a Vibing session, behind a mutex that only serialises the tool
 * calls. Each tool maps the holder it finds to the holder it leaves and a
 * reply.
 */
module RustService {
  import opened Base
  import opened Paths
  import opened RustLib

  /** `SessionHolder`. */
  datatype Holder =
    | HIdle(session: IdleSession)
    | HVibing(vibing: VibingSession, branch: string)

  /** `VibeGitService`: the repository path and the (possibly taken) holder. */
  datatype Service = Service(repo: Path, holder: Option<Holder>)

  /** Every session the service holds belongs to its repository. */
  predicate Owned(svc: Service) {
    match svc.holder
    case None => true
    case Some(HIdle(s)) => s.repo == svc.repo
    case Some(HVibing(v, _)) => v.repo == svc.repo
  }

  /** What a tool call answered. */
  datatype Answer =
    | AlreadyVibing
    | StartedVibing
    | StartError(error: string)
    | CreateError(error: string)
    | NotVibingNow
    | NoSession
    | StoppedVibing(message: string)
    | StopError(error: string)

  /** A reply, the service it leaves and every library step run so far. */
  datatype Served = Served(answer: Answer, service: Service, done: Steps)

  function AnswerText(a: Answer): string {
    match a
    case AlreadyVibing => "Already vibing! Session is active and auto-committing changes."
    case StartedVibing => "🚀 Started vibing! New branch created and auto-committing all changes every second."
    case StartError(e) => "Error starting vibe: " + e
    case CreateError(e) => "Error creating session: " + e
    case NotVibingNow =>
      "Not currently vibing - no active session to stop. Call start_vibing first if you want to begin a new session."
    case NoSession => "No active session. Call start_vibing first to begin working."
    case StoppedVibing(m) =>
      "🏁 Stopped vibing! Squashed commits, rebased on main, and created PR with message: '" + m + "'"
    case StopError(e) => "Error stopping vibe: " + e
  }

  /** `VibeGitService::new`: an Idle holder, if the repository validates. */
  function NewService(lib: Lib, repo: Path, done: Steps): (r: LibOut<Service>)
    ensures r.result.Ok? <==> lib(repo, done, ValidateRepository).Ok?
    ensures r.result.Ok? ==> r.result.value == Service(repo, Some(HIdle(IdleSession(repo)))) && Owned(r.result.value)
    ensures r.done == done + [ValidateRepository]
  {
    var s := NewSession(lib, repo, done);
    if s.result.Err? then LibOut(Err(s.result.message), s.done)
    else LibOut(Ok(Service(repo, Some(HIdle(s.result.value)))), s.done)
  }

  /** Start from an Idle session the service already holds. */
  function StartHeld(lib: Lib, repo: Path, s: IdleSession, done: Steps, timestamp: int): (r: Served)
    ensures var run := StartVibing(lib, s, done, timestamp);
      && (run.result.Ok? ==> r == Served(StartedVibing, Service(repo, Some(HVibing(VibingSession(s.repo), RustBranchName(timestamp)))), run.done))
      && (run.result.Err? ==>
            && r.answer == StartError(run.result.message)
            && r.done == run.done + [ValidateRepository]
            && (r.service.holder.Some? <==> lib(repo, run.done, ValidateRepository).Ok?)
            && (r.service.holder.Some? ==> r.service.holder.value == HIdle(IdleSession(repo))))
  {
    var run := StartVibing(lib, s, done, timestamp);
    if run.result.Ok? then
      Served(StartedVibing, Service(repo, Some(HVibing(run.result.value.session, run.result.value.branch))), run.done)
    else
      var renewed := NewSession(lib, repo, run.done);
      var holder := if renewed.result.Ok? then Some(HIdle(renewed.result.value)) else None;
      Served(StartError(run.result.message), Service(repo, holder), renewed.done)
  }

  /** Start with no holder: create a session, then start it. */
  function StartFresh(lib: Lib, repo: Path, done: Steps, timestamp: int): (r: Served)
    ensures var made := NewSession(lib, repo, done);
      && (made.result.Err? ==> r == Served(CreateError(made.result.message), Service(repo, None), made.done))
      && (made.result.Ok? ==>
            var run := StartVibing(lib, IdleSession(repo), made.done, timestamp);
            && r.done == run.done
            && (run.result.Ok? ==> r.answer == StartedVibing && r.service == Service(repo, Some(HVibing(VibingSession(repo), RustBranchName(timestamp)))))
            && (run.result.Err? ==> r.answer == StartError(run.result.message) && r.service == Service(repo, None)))
  {
    var made := NewSession(lib, repo, done);
    if made.result.Err? then Served(CreateError(made.result.message), Service(repo, None), made.done)
    else
      var run := StartVibing(lib, made.result.value, made.done, timestamp);
      if run.result.Err? then Served(StartError(run.result.message), Service(repo, None), run.done)
      else Served(StartedVibing, Service(repo, Some(HVibing(run.result.value.session, run.result.value.branch))), run.done)
  }

  /**
   * The `start_vibing` tool. While Vibing it answers "Already vibing!" and
   * runs nothing; otherwise it starts the held Idle session, or a new one.
   */
  function ServiceStart(lib: Lib, svc: Service, done: Steps, timestamp: int): (r: Served)
    ensures svc.holder.Some? && svc.holder.value.HVibing? ==> r == Served(AlreadyVibing, svc, done)
    ensures svc.holder.Some? && svc.holder.value.HIdle? ==> r == StartHeld(lib, svc.repo, svc.holder.value.session, done, timestamp)
    ensures svc.holder.None? ==> r == StartFresh(lib, svc.repo, done, timestamp)
    ensures r.service.repo == svc.repo
  {
    match svc.holder
    case Some(HVibing(_, _)) => Served(AlreadyVibing, svc, done)
    case Some(HIdle(s)) => StartHeld(lib, svc.repo, s, done, timestamp)
    case None => StartFresh(lib, svc.repo, done, timestamp)
  }

  /**
   * The `stop_vibing` tool. Only a Vibing holder runs the stop script; the
   * holder is taken first and put back (as Idle) only on success, so a
   * failed stop leaves no holder at all.
   */
  function ServiceStop(lib: Lib, svc: Service, message: string, done: Steps): (r: Served)
    ensures svc.holder.None? ==> r == Served(NoSession, svc, done)
    ensures svc.holder.Some? && svc.holder.value.HIdle? ==> r == Served(NotVibingNow, svc, done)
    ensures svc.holder.Some? && svc.holder.value.HVibing? ==>
      var h := svc.holder.value;
      var run := StopVibing(lib, h.vibing, h.branch, message, done);
      && r.done == run.done
      && (run.result.Ok? ==> r.answer == StoppedVibing(message) && r.service == Service(svc.repo, Some(HIdle(IdleSession(h.vibing.repo)))))
      && (run.result.Err? ==> r.answer == StopError(run.result.message) && r.service == Service(svc.repo, None))
  {
    match svc.holder
    case None => Served(NoSession, svc, done)
    case Some(HIdle(_)) => Served(NotVibingNow, svc, done)
    case Some(HVibing(v, branch)) =>
      var run := StopVibing(lib, v, branch, message, done);
      if run.result.Ok? then Served(StoppedVibing(message), Service(svc.repo, Some(HIdle(run.result.value))), run.done)
      else Served(StopError(run.result.message), Service(svc.repo, None), run.done)
  }

  /** The three answers of `vibe_status`. */
  datatype Status = StatusVibing | StatusIdle | StatusNotInitialized

  /** `vibe_status`: read-only, and decided by the holder alone. */
  function ServiceStatus(svc: Service): (r: Status)
    ensures r == StatusVibing <==> svc.holder.Some? && svc.holder.value.HVibing?
    ensures r == StatusIdle <==> svc.holder.Some? && svc.holder.value.HIdle?
    ensures r == StatusNotInitialized <==> svc.holder.None?
  {
    match svc.holder
    case Some(HVibing(_, _)) => StatusVibing
    case Some(HIdle(_)) => StatusIdle
    case None => StatusNotInitialized
  }

  function StatusText(s: Status): string {
    match s
    case StatusVibing =>
      "🟢 VIBING: " + "Active session running! Auto-committing all file changes every second. Call stop_vibing(commit_message) when done."
    case StatusIdle => "🔵 IDLE: " + "Ready to start vibing. Call start_vibing() to begin auto-committing changes."
    case StatusNotInitialized => "⚪ NOT INITIALIZED: " + "No session exists. Call start_vibing() to begin."
  }

  /** Every tool keeps the sessions it holds on the service's repository. */
  lemma ToolsKeepOwnership(lib: Lib, svc: Service, message: string, done: Steps, timestamp: int)
    requires Owned(svc)
    ensures Owned(ServiceStart(lib, svc, done, timestamp).service)
    ensures Owned(ServiceStop(lib, svc, message, done).service)
  {
    match svc.holder
    case Some(HIdle(s)) =>
      assert StartVibing(lib, s, done, timestamp).result.Ok? ==>
        StartVibing(lib, s, done, timestamp).result.value.session.repo == svc.repo;
    case _ =>
  }

  /**
   * A failed stop loses the session: the next status reports NOT
   * INITIALIZED, although the branch is still there to be stopped.
   */
  lemma FailedStopLosesSession(lib: Lib, svc: Service, message: string, done: Steps)
    requires svc.holder.Some? && svc.holder.value.HVibing?
    requires StopVibing(lib, svc.holder.value.vibing, svc.holder.value.branch, message, done).result.Err?
    ensures ServiceStatus(ServiceStop(lib, svc, message, done).service) == StatusNotInitialized
    ensures var after := ServiceStop(lib, svc, message, done);
      ServiceStop(lib, after.service, message, after.done).answer == NoSession
  {
  }

  /**
   * Start is idempotent while vibing: once a start succeeds, a second start
   * answers "Already vibing!", runs nothing and keeps the holder.
   */
  lemma StartIsIdempotentWhileVibing(lib: Lib, svc: Service, done: Steps, t1: int, t2: int)
    requires ServiceStart(lib, svc, done, t1).answer == StartedVibing
    ensures var first := ServiceStart(lib, svc, done, t1);
      && ServiceStatus(first.service) == StatusVibing
      && ServiceStart(lib, first.service, first.done, t2) == Served(AlreadyVibing, first.service, first.done)
  {
    var first := ServiceStart(lib, svc, done, t1);
    assert first.service.holder.Some? && first.service.holder.value.HVibing?;
  }

  /**
   * A successful stop makes the holder Idle again, so the service can be
   * started anew and the status reads IDLE.
   */
  lemma StopThenStatusIdle(lib: Lib, svc: Service, message: string, done: Steps)
    requires ServiceStop(lib, svc, message, done).answer == StoppedVibing(message)
    ensures ServiceStatus(ServiceStop(lib, svc, message, done).service) == StatusIdle
    ensures ServiceStatus(svc) == StatusVibing
  {
  }
}

=== FILE: rust_watcher.dfy ===
/**
 * The auto-commit task of the Rust crate (src/watcher.rs). A file-system
 * watcher feeds a channel; a task loops, checking for shutdown, draining
 * the channel and committing at most once a second. Time is integer
 * milliseconds of a monotonic clock; the commit runs `git add .` and
 * `git commit` through the process oracle and takes as long as the clock
 * oracle says.
 */
module RustWatcher {
  import opened Base
  import opened Text
  import opened Paths
  import opened Commands

  /** The throttle: one second between commits. */
  const ThrottleMs: nat := 1000

  /** A file-system event: its paths, as `to_string_lossy` renders them. */
  datatype RustEvent = RustEvent(paths: seq<string>)

  /** An event is skipped when any of its paths contains ".git" anywhere. */
  predicate Skipped(e: RustEvent) {
    exists i :: 0 <= i < |e.paths| && Contains(e.paths[i], GitEntry)
  }

  /** `event.paths.iter().any(...)`, path by path. */
  function AnyGitPath(paths: seq<string>): (r: bool)
    ensures r <==> exists i :: 0 <= i < |paths| && Contains(paths[i], GitEntry)
    decreases |paths|
  {
    if paths == [] then false
    else if Contains(paths[0], GitEntry) then true
    else
      var rest := AnyGitPath(paths[1..]);
      assert forall i :: 1 <= i < |paths| ==> paths[i] == paths[1..][i - 1];
      rest
  }

  /**
   * The filter works on substrings, not components: `.gitignore`, or a
   * directory named `my.github.io`, is skipped.
   */
  lemma {:induction false} SubstringFilterSkipsLookalikes(dir: string, name: string)
    requires |name| >= 4 && name[..4] == GitEntry
    ensures Skipped(RustEvent([dir + "/" + name]))
  {
    var s := dir + "/" + name;
    assert s[|dir| + 1..][..4] == GitEntry;
    ContainsAt(s, GitEntry);
    assert AnyGitPath([s]);
  }

  /** `.gitignore` is skipped here but watched by the earliest Python revision. */
  lemma GitignoreSkipped(dir: string)
    ensures Skipped(RustEvent([dir + "/.gitignore"]))
  {
    SubstringFilterSkipsLookalikes(dir, ".gitignore");
    assert dir + "/" + ".gitignore" == dir + "/.gitignore";
  }

  /** `Instant::elapsed`: saturating, never negative. */
  function Elapsed(since: nat, now: nat): (d: nat)
    ensures now >= since ==> d == now - since
    ensures now < since ==> d == 0
  {
    if now >= since then now - since else 0
  }

  function AutoCommitArgv(stamp: string): Argv {
    ["git", "commit", "-m", "Auto-commit at " + stamp]
  }

  /**
   * `commit_changes`: `git add .`, then the commit unless the add could not
   * be spawned at all. Exit codes are not looked at, so a failing add is
   * still followed by the commit.
   */
  function CommitChanges(proc: Process, trace: Trace, stamp: string): (r: Trace)
    ensures proc(trace, AddAllArgv).Raised? <==> r == trace + [AddAllArgv]
    ensures !proc(trace, AddAllArgv).Raised? ==> r == trace + [AddAllArgv, AutoCommitArgv(stamp)]
  {
    var t := trace + [AddAllArgv];
    if proc(trace, AddAllArgv).Raised? then t
    else
      AppendTwo(trace, AddAllArgv, AutoCommitArgv(stamp));
      assert |t + [AutoCommitArgv(stamp)]| != |t|;
      t + [AutoCommitArgv(stamp)]
  }

  /**
   * The clocks the task reads: the wall-clock text `commit_changes` stamps a
   * commit with, and how long `commit_changes` runs when started at a given
   * instant. `last_commit` is read again only after it returns.
   */
  datatype Clock = Clock(stampAt: nat -> string, commitMs: nat -> nat)

  /** When a commit started at `at` has returned. */
  function CommitDone(clock: Clock, at: nat): (d: nat)
    ensures d >= at
  {
    at + clock.commitMs(at)
  }

  /** An event taken from the channel, and the instant it was taken. */
  datatype Arrival = Arrival(event: RustEvent, at: nat)

  /** The task's state: the last commit instant, the commands issued, and whether the loop ended. */
  datatype Task = Task(lastCommit: nat, trace: Trace, stopped: bool)

  /** The task as spawned: `last_commit` is the spawn instant, so nothing commits in the first second. */
  function SpawnTask(startedAt: nat): (t: Task)
    ensures t.trace == [] && !t.stopped && t.lastCommit == startedAt
  {
    Task(startedAt, [], false)
  }

  /**
   * One drained event: skipped, throttled, or committed. After a commit,
   * `last_commit` is the instant the commit returned, so the next second is
   * counted from the end of the commit.
   */
  function OnEvent(proc: Process, clock: Clock, t: Task, a: Arrival): (r: Task)
    ensures r.stopped == t.stopped
    ensures Skipped(a.event) || Elapsed(t.lastCommit, a.at) < ThrottleMs ==> r == t
    ensures !Skipped(a.event) && Elapsed(t.lastCommit, a.at) >= ThrottleMs ==>
      r.lastCommit == CommitDone(clock, a.at) && r.trace == CommitChanges(proc, t.trace, clock.stampAt(a.at))
  {
    if AnyGitPath(a.event.paths) then t
    else if Elapsed(t.lastCommit, a.at) >= ThrottleMs then
      t.(lastCommit := CommitDone(clock, a.at), trace := CommitChanges(proc, t.trace, clock.stampAt(a.at)))
    else t
  }

  /** `while let Ok(event) = event_rx.try_recv()`: every queued event, in order. */
  function Drain(proc: Process, clock: Clock, t: Task, batch: seq<Arrival>): (r: Task)
    ensures r.stopped == t.stopped
    decreases |batch|
  {
    if batch == [] then t
    else OnEvent(proc, clock, Drain(proc, clock, t, batch[..|batch| - 1]), batch[|batch| - 1])
  }

  /**
   * One iteration of the loop. Shutdown is checked once, before draining:
   * a shutdown ends the loop and the events already queued are never looked at.
   */
  function Iterate(proc: Process, clock: Clock, t: Task, shutdown: bool, batch: seq<Arrival>): (r: Task)
    ensures t.stopped ==> r == t
    ensures !t.stopped && shutdown ==> r == t.(stopped := true)
    ensures !t.stopped && !shutdown ==> r == Drain(proc, clock, t, batch)
  {
    if t.stopped then t
    else if shutdown then t.(stopped := true)
    else Drain(proc, clock, t, batch)
  }

  /** A drain of skipped events issues nothing and leaves the throttle alone. */
  lemma {:induction false} SkippedEventsNeverCommit(proc: Process, clock: Clock, t: Task, batch: seq<Arrival>)
    requires forall i :: 0 <= i < |batch| ==> Skipped(batch[i].event)
    ensures Drain(proc, clock, t, batch) == t
    decreases |batch|
  {
    if batch != [] {
      SkippedEventsNeverCommit(proc, clock, t, batch[..|batch| - 1]);
    }
  }

  /** Events taken within a second of the last commit issue nothing. */
  lemma {:induction false} NothingWithinASecond(proc: Process, clock: Clock, t: Task, batch: seq<Arrival>)
    requires forall i :: 0 <= i < |batch| ==> batch[i].at < t.lastCommit + ThrottleMs
    ensures Drain(proc, clock, t, batch) == t
    decreases |batch|
  {
    if batch != [] {
      NothingWithinASecond(proc, clock, t, batch[..|batch| - 1]);
    }
  }

  /**
   * The throttle runs from the end of a commit: an event taken less than a
   * second after the previous commit returned is not committed, even when it
   * is more than a second after the event that caused that commit.
   */
  lemma ThrottleRunsFromCommitEnd(proc: Process, clock: Clock, t: Task, e1: RustEvent, at1: nat, e2: RustEvent, at2: nat)
    requires !Skipped(e1) && Elapsed(t.lastCommit, at1) >= ThrottleMs
    requires CommitDone(clock, at1) <= at2 < CommitDone(clock, at1) + ThrottleMs
    ensures var r := Drain(proc, clock, t, [Arrival(e1, at1), Arrival(e2, at2)]);
      r.lastCommit == CommitDone(clock, at1) && r.trace == CommitChanges(proc, t.trace, clock.stampAt(at1))
  {
    var batch := [Arrival(e1, at1), Arrival(e2, at2)];
    assert batch[..1] == [Arrival(e1, at1)] && batch[..1][..0] == [];
    var first := OnEvent(proc, clock, t, Arrival(e1, at1));
    assert Drain(proc, clock, t, batch[..1]) == first;
    assert Elapsed(first.lastCommit, at2) < ThrottleMs;
  }

  /** Hence a freshly spawned task commits nothing during its first second. */
  lemma NoCommitInFirstSecond(proc: Process, clock: Clock, startedAt: nat, batch: seq<Arrival>)
    requires forall i :: 0 <= i < |batch| ==> batch[i].at < startedAt + ThrottleMs
    ensures Drain(proc, clock, SpawnTask(startedAt), batch).trace == []
  {
    NothingWithinASecond(proc, clock, SpawnTask(startedAt), batch);
  }

  /** The commands issued only grow: commits are appended, never undone. */
  lemma {:induction false} DrainExtendsTrace(proc: Process, clock: Clock, t: Task, batch: seq<Arrival>)
    ensures Extends(Drain(proc, clock, t, batch).trace, t.trace)
    decreases |batch|
  {
    if batch != [] {
      var before := Drain(proc, clock, t, batch[..|batch| - 1]);
      DrainExtendsTrace(proc, clock, t, batch[..|batch| - 1]);
      var after := OnEvent(proc, clock, before, batch[|batch| - 1]);
      assert Extends(after.trace, before.trace);
      ExtendsTrans(after.trace, before.trace, t.trace);
    }
  }

  /** A shutdown iteration issues nothing, whatever is queued. */
  lemma ShutdownDrainsNothing(proc: Process, clock: Clock, t: Task, batch: seq<Arrival>)
    requires !t.stopped
    ensures Iterate(proc, clock, t, true, batch).trace == t.trace
    ensures Iterate(proc, clock, t, true, batch).stopped
  {
  }

  /** `WatcherHandle::stop`: sending the shutdown fails only when the task's receiver is gone. */
  function StopHandle(receiverAlive: bool): (r: Result<()>)
    ensures r.Ok? <==> receiverAlive
  {
    if receiverAlive then Ok(()) else Err("sending on a closed channel")
  }

  /** After a successful stop the next iteration ends the loop. */
  lemma StopEndsLoop(proc: Process, clock: Clock, t: Task, batch: seq<Arrival>)
    requires StopHandle(true).Ok? && !t.stopped
    ensures Iterate(proc, clock, t, true, batch) == t.(stopped := true)
  {
  }

  // ---------------------------------------------------------------------------
  // Where the events come from
  // ---------------------------------------------------------------------------

  /**
   * The channel the task drains. `start_auto_commit` keeps the watcher in a
   * local variable, so it is dropped when the function returns; that stops
   * the watcher and closes the sending side of the channel.
   */
  datatype Source = Live | Closed

  /** What the task can take in one iteration, given what the file system produced. */
  function Queued(source: Source, produced: seq<Arrival>): (r: seq<Arrival>)
    ensures source.Closed? ==> r == []
    ensures source.Live? ==> r == produced
  {
    if source.Live? then produced else []
  }

  /** The loop over many iterations: each has a shutdown flag and the events produced meanwhile. */
  datatype Tick = Tick(shutdown: bool, produced: seq<Arrival>)

  function RunTask(proc: Process, clock: Clock, t: Task, source: Source, ticks: seq<Tick>): (r: Task)
    decreases |ticks|
  {
    if ticks == [] then t
    else
      var before := RunTask(proc, clock, t, source, ticks[..|ticks| - 1]);
      var tick := ticks[|ticks| - 1];
      Iterate(proc, clock, before, tick.shutdown, Queued(source, tick.produced))
  }

  /** `start_auto_commit` as written: the task runs, but the watcher is gone. */
  function StartAutoCommit(startedAt: nat): (r: (Task, Source))
    ensures r.0 == SpawnTask(startedAt)
    ensures r.1 == Closed
  {
    (SpawnTask(startedAt), Closed)
  }

  /** As written, the task never commits, however many files change. */
  lemma {:induction false} DroppedWatcherNeverCommits(proc: Process, clock: Clock, startedAt: nat, ticks: seq<Tick>)
    ensures var s := StartAutoCommit(startedAt);
      RunTask(proc, clock, s.0, s.1, ticks).trace == []
    decreases |ticks|
  {
    if ticks != [] {
      DroppedWatcherNeverCommits(proc, clock, startedAt, ticks[..|ticks| - 1]);
    }
  }

  /** The evidently intended start: the watcher is kept alive with the task. */
  function StartAutoCommitKept(startedAt: nat): (r: (Task, Source))
    ensures r.0 == SpawnTask(startedAt)
    ensures r.1 == Live
  {
    (SpawnTask(startedAt), Live)
  }

  /** With the watcher kept, a change a second after the start is committed. */
  lemma KeptWatcherCommits(proc: Process, clock: Clock, startedAt: nat, e: RustEvent, at: nat)
    requires !Skipped(e) && at >= startedAt + ThrottleMs
    ensures var s := StartAutoCommitKept(startedAt);
      var r := RunTask(proc, clock, s.0, s.1, [Tick(false, [Arrival(e, at)])]);
      r.trace != [] && r.trace[0] == AddAllArgv && r.lastCommit == CommitDone(clock, at)
  {
    var s := StartAutoCommitKept(startedAt);
    var ticks := [Tick(false, [Arrival(e, at)])];
    var batch := [Arrival(e, at)];
    assert ticks[..0] == [] && batch[..0] == [];
    assert RunTask(proc, clock, s.0, s.1, ticks) == Drain(proc, clock, s.0, batch);
    assert Drain(proc, clock, s.0, batch) == OnEvent(proc, clock, s.0, batch[0]);
  }
}

=== FILE: sessions.dfy ===
/**
 * The session state machine of src/vibe_git/state_types.py (repeated in
 * src/vibe_git/main.py) and its transition rules from
 * src/vibe_git/state_utils.py.
 *
 * A VibingState owns a watchdog observer and a threading Event; both are
 * represented by one watcher handle, a number naming the observer/event pair
 * that the workspace context tracks.
 */
module Sessions {
  import opened Base

  /** IdleState | VibingState | DirtyState. The values are immutable, like the frozen dataclasses. */
  datatype SessionState =
    | Idle
    | Vibing(branch: string, watcher: nat)
    | Dirty(branch: string, changes: string)

  /** The three state classes, as `get_allowed_transitions` lists them. */
  datatype StateKind = IdleKind | VibingKind | DirtyKind

  function KindOf(s: SessionState): (k: StateKind)
    ensures k == IdleKind <==> s.Idle?
    ensures k == VibingKind <==> s.Vibing?
    ensures k == DirtyKind <==> s.Dirty?
  {
    match s
    case Idle => IdleKind
    case Vibing(_, _) => VibingKind
    case Dirty(_, _) => DirtyKind
  }

  /** `VibeSession`: a mutable box around one state. */
  datatype VibeSession = VibeSession(state: SessionState)

  /** `VibeSession()`: the default state is Idle. */
  function NewSession(): (s: VibeSession)
    ensures s.state.Idle?
  {
    VibeSession(Idle)
  }

  /** `transition_to`: replaces the state, whatever it was and whatever the target. */
  function TransitionTo(s: VibeSession, next: SessionState): (t: VibeSession)
    ensures t.state == next
  {
    s.(state := next)
  }

  /** `get_state_name`. */
  function StateName(s: SessionState): (n: string)
    ensures s.Idle? ==> n == "idle"
    ensures s.Vibing? ==> n == "vibing"
    ensures s.Dirty? ==> n == "dirty"
  {
    match s
    case Idle => "idle"
    case Vibing(_, _) => "vibing"
    case Dirty(_, _) => "dirty"
  }

  /** The name tells the kind and nothing more: equal names exactly for equal kinds. */
  lemma StateNameIdentifiesKind(a: SessionState, b: SessionState)
    ensures StateName(a) == StateName(b) <==> KindOf(a) == KindOf(b)
  {
    if StateName(a) == StateName(b) {
      assert StateName(a)[0] == StateName(b)[0];
    }
  }

  /** `can_transition_to`, its three overloads dispatched on the source state. */
  predicate CanTransition(from: SessionState, to: SessionState) {
    match from
    case Idle => to.Vibing? || to.Dirty?
    case Vibing(_, _) => to.Idle?
    case Dirty(_, _) => to.Idle? || to.Vibing?
  }

  /** `get_allowed_transitions`, in the order the source lists them. */
  function AllowedTransitions(s: SessionState): (ks: seq<StateKind>)
    ensures 1 <= |ks| <= 2
    ensures forall i, j :: 0 <= i < j < |ks| ==> ks[i] != ks[j]
    ensures KindOf(s) !in ks
  {
    match s
    case Idle => [VibingKind, DirtyKind]
    case Vibing(_, _) => [IdleKind]
    case Dirty(_, _) => [IdleKind, VibingKind]
  }

  /** The list and the predicate agree: a target is listed exactly when the move is legal. */
  lemma AllowedTransitionsAgree(s: SessionState, t: SessionState)
    ensures KindOf(t) in AllowedTransitions(s) <==> CanTransition(s, t)
  {
  }

  /** Legality depends on the two kinds only, never on branch names or handles. */
  lemma CanTransitionByKind(s: SessionState, s': SessionState, t: SessionState, t': SessionState)
    requires KindOf(s) == KindOf(s') && KindOf(t) == KindOf(t')
    ensures CanTransition(s, t) <==> CanTransition(s', t')
  {
  }

  /** No state may transition to its own kind. */
  lemma NoSelfTransition(s: SessionState, t: SessionState)
    requires KindOf(s) == KindOf(t)
    ensures !CanTransition(s, t)
  {
  }

  /** Vibing can only end in Idle; a session never goes straight from Vibing to Dirty. */
  lemma VibingOnlyStops(b: string, w: nat, t: SessionState)
    ensures CanTransition(Vibing(b, w), t) <==> t.Idle?
  {
  }

  /** Every kind reaches every other kind in at most two legal moves. */
  lemma TwoStepReachability(s: SessionState, t: SessionState)
    ensures CanTransition(s, t) || KindOf(s) == KindOf(t)
         || (exists m :: CanTransition(s, m) && CanTransition(m, t))
  {
    if s.Vibing? && t.Dirty? {
      assert CanTransition(s, Idle) && CanTransition(Idle, t);
    }
  }

  /**
   * `validate_state_transition`: nothing when the move is legal, otherwise a
   * ValueError naming both states.
   */
  function ValidateTransition(from: SessionState, to: SessionState): (r: Option<string>)
    ensures r.None? <==> CanTransition(from, to)
    ensures r.Some? ==> r.value == "Invalid state transition from " + StateName(from) + " to " + StateName(to)
  {
    if CanTransition(from, to) then None
    else Some("Invalid state transition from " + StateName(from) + " to " + StateName(to))
  }

  /** The unchecked setter accepts moves the validator rejects, Idle to Idle among them. */
  lemma TransitionToIsUnchecked(s: VibeSession)
    requires s.state.Idle?
    ensures TransitionTo(s, Idle).state == Idle
    ensures ValidateTransition(s.state, Idle) == Some("Invalid state transition from idle to idle")
  {
    assert "Invalid state transition from " + "idle" + " to " + "idle" == "Invalid state transition from idle to idle";
  }

  /** What a guarded block did: the session it left, and the error it raised, if any. */
  datatype Guarded = Guarded(session: VibeSession, raised: Option<string>)

  /**
   * `atomic_state_transition`: the block runs on the session; when it raises,
   * the state it started from is put back and the error propagates.
   */
  function AtomicTransition(s: VibeSession, block: VibeSession -> Guarded): (r: Guarded)
    ensures r.raised == block(s).raised
    ensures r.raised.None? ==> r.session == block(s).session
    ensures r.raised.Some? ==> r.session.state == s.state
  {
    var g := block(s);
    if g.raised.Some? then Guarded(g.session.(state := s.state), g.raised) else g
  }

  /**
   * Every use in src/vibe_git/main.py guards a single `transition_to`, which
   * cannot raise, so the rollback never happens and the guarded call is the
   * bare transition.
   */
  lemma GuardedTransitionNeverRollsBack(s: VibeSession, next: SessionState)
    ensures AtomicTransition(s, t => Guarded(TransitionTo(t, next), None)) == Guarded(TransitionTo(s, next), None)
  {
  }
}

=== FILE: start.dfy ===
/**
 * Starting a session: `start_vibing_from_state` (its three overloads) and the
 * `start_vibing` tool of src/vibe_git/main.py.
 */
module Starting {
  import opened Base
  import opened Text
  import opened Paths
  import opened Commands
  import opened GitUtils
  import opened Sessions
  import opened Persistence
  import opened Workspace

  /** Which path a start took, with what its answer text mentions. */
  datatype StartKind =
    | AlreadyVibing                        // start while Vibing
    | StillDirty(on: string)               // start while Dirty on `on`
    | Resumed(on: string)                  // checked out the saved session's branch
    | Reused(on: string)                   // already on a vibe branch
    | DirtyDetected(on: string)            // uncommitted changes found on `on`
    | NoMainBranch                         // neither main nor master could be checked out
    | BranchFailed(out: string)            // `checkout -b` failed with this output
    | Created(on: string, base: string)    // new vibe branch created from `base`
    | LoadRaised(error: string)            // `load_session` raised; nothing was changed or issued

  /**
   * `VibeStartResult` (its `warnings` are never set by the start paths); the
   * `message` of the source is rendered from `kind` by StartMessage.
   */
  datatype StartResult = StartResult(success: bool, branch: Option<string>, kind: StartKind)

  datatype StartOut = StartOut(result: StartResult, ctx: Ctx)

  const RecoveryOptions: string :=
    "Choose one of these functions:\n"
    + "• commit_and_vibe() - Commit changes as 'WIP' then start from main\n"
    + "• stash_and_vibe() - Stash changes then start from main\n"
    + "• vibe_from_here() - Start vibing from current branch with changes\n"

  /** The answer of a start that finds uncommitted changes; `still` when the session was already Dirty. */
  function DirtyMessage(branch: string, still: bool): string {
    "⚠️ Uncommitted changes " + (if still then "still " else "") + "detected on branch '" + branch + "'!\n\n" + RecoveryOptions
  }

  const AlreadyVibingMessage: string := "Already vibing! Session is active and auto-committing changes."

  /** The `message` of a start's result. */
  function StartMessage(k: StartKind): string {
    match k
    case AlreadyVibing => AlreadyVibingMessage
    case StillDirty(b) => DirtyMessage(b, true)
    case Resumed(b) =>
      "🔄 Auto-resumed vibe session on branch '" + b + "'! Continuing from where you left off."
    case Reused(b) =>
      "🚀 Started vibing! Reusing existing vibe branch '" + b
      + "' and auto-committing changes on file modifications."
    case DirtyDetected(b) => DirtyMessage(b, false)
    case NoMainBranch =>
      "❌ Error: Could not checkout main/master branch. Try manually switching to main first."
    case BranchFailed(out) => "❌ Error creating branch: " + out
    case Created(b, main) =>
      "🚀 Started vibing! Created branch '" + b + "' from latest " + main
      + " and auto-committing changes on file modifications."
    case LoadRaised(e) => e
  }

  /**
   * Moves into a freshly watched Vibing state on `branch` and saves `record`;
   * the trace is not extended.
   */
  function Activate(env: Env, c: Ctx, branch: string, record: Persisted): (r: Ctx)
    ensures r.state == Vibing(branch, c.nextWatcher)
    ensures r.running == c.running + {c.nextWatcher} && r.nextWatcher == c.nextWatcher + 1
    ensures r.trace == c.trace && r.signalled == c.signalled
    ensures r.store == Save(c.store, record, env.nowIso)
    ensures Valid(c) ==> Valid(r)
  {
    var w := StartWatcher(c, branch);
    w.ctx.(state := w.state, store := Save(w.ctx.store, record, env.nowIso))
  }

  function PullArgv(main: string): Argv { ["git", "pull", "origin", main] }

  function CreateArgv(branch: string): Argv { ["git", "checkout", "-b", branch] }

  /** Pull the base branch (ignoring the result) and create the new branch: the commands issued. */
  function PullAndCreate(env: Env, trace: Trace, repo: Path, main: string): (r: Ran)
    ensures r.trace == trace + [PullArgv(main), CreateArgv(VibeBranchName(env.now))]
    ensures r.outcome == Collect(env.proc(trace + [PullArgv(main)], CreateArgv(VibeBranchName(env.now))))
  {
    assert ["git"] + ["pull", "origin", main] == PullArgv(main);
    var pull := Git(env, trace, repo, ["pull", "origin", main]);
    CreateBranch(env, pull.trace, repo, VibeBranchName(env.now))
  }

  /**
   * The clean-tree part of an Idle start: main (or master) is checked out,
   * pulled, and `vibe-<now>` is created from it. The session becomes Vibing
   * only when the branch was created; otherwise the state, watchers and store
   * are left as they were.
   */
  function CleanStart(env: Env, c: Ctx, repo: Path): (r: StartOut)
    ensures var m := EnsureOnMainBranch(env, c.trace, repo);
      && (m.value.None? ==> r.result.kind == NoMainBranch && r.ctx == c.(trace := m.trace))
      && (m.value.Some? ==>
            var made := PullAndCreate(env, m.trace, repo, m.value.value);
            && r.ctx.trace == made.trace
            && (r.result.success <==> made.outcome.ok)
            && (made.outcome.ok ==> r.result.kind == Created(VibeBranchName(env.now), m.value.value))
            && (!made.outcome.ok ==> r.result.kind == BranchFailed(made.outcome.out)))
    ensures r.result.success ==>
      && r.result.branch == Some(VibeBranchName(env.now))
      && r.ctx == Activate(env, c, VibeBranchName(env.now), NewPersisted(VibeBranchName(env.now), env.nowIso)).(trace := r.ctx.trace)
    ensures !r.result.success ==> r.result.branch == None && r.ctx == c.(trace := r.ctx.trace)
    ensures Valid(c) ==> Valid(r.ctx)
  {
    var m := EnsureOnMainBranch(env, c.trace, repo);
    match m.value
    case None =>
      StartOut(StartResult(false, None, NoMainBranch), c.(trace := m.trace))
    case Some(main) =>
      var name := VibeBranchName(env.now);
      var made := PullAndCreate(env, m.trace, repo, main);
      if !made.outcome.ok then
        StartOut(StartResult(false, None, BranchFailed(made.outcome.out)),
          c.(trace := made.trace))
      else
        var a := Activate(env, c, name, NewPersisted(name, env.nowIso));
        StartOut(StartResult(true, Some(name), Created(name, main)), a.(trace := made.trace))
  }

  /**
   * An Idle start once resuming is ruled out: reuse a current vibe branch
   * without creating one; else record the dirty tree as DirtyState on the
   * current branch (or "unknown"); else start from a clean tree.
   */
  function FreshStart(env: Env, c: Ctx, repo: Path, current: Option<string>): (r: StartOut)
    ensures current.Some? && IsVibeBranch(current.value) ==>
      && r.result == StartResult(true, current, Reused(current.value))
      && r.ctx == Activate(env, c, current.value, NewPersisted(current.value, env.nowIso))
    ensures !(current.Some? && IsVibeBranch(current.value)) ==>
      var ch := HasUncommittedChanges(env, c.trace, repo);
      && (ch.value.dirty ==>
            && r.result.kind == DirtyDetected(current.GetOr("unknown")) && !r.result.success && r.result.branch == None
            && r.ctx == c.(trace := ch.trace, state := Dirty(current.GetOr("unknown"), ch.value.details)))
      && (!ch.value.dirty ==> r == CleanStart(env, c.(trace := ch.trace), repo))
  {
    if current.Some? && IsVibeBranch(current.value) then
      var b := current.value;
      StartOut(StartResult(true, current, Reused(b)),
        Activate(env, c, b, NewPersisted(b, env.nowIso)))
    else
      var ch := HasUncommittedChanges(env, c.trace, repo);
      if ch.value.dirty then
        var b := current.GetOr("unknown");
        StartOut(StartResult(false, None, DirtyDetected(b)),
          c.(trace := ch.trace, state := Dirty(b, ch.value.details)))
      else CleanStart(env, c.(trace := ch.trace), repo)
  }

  /** What an Idle start reads first: the saved session (loading may drop a corrupt file) and the current branch. */
  datatype Probe = Probe(saved: Option<Persisted>, current: Option<string>, ctx: Ctx)

  /** `load_session`, then the branch query; a load that raises ends the probe before the query. */
  function ProbeIdle(env: Env, c: Ctx, repo: Path): (r: Result<Probe>)
    ensures r.Err? <==> Load(c.store).Err?
    ensures r.Err? ==> r.message == Load(c.store).message
    ensures r.Ok? ==>
      && r.value.saved == Load(c.store).value.session
      && r.value.current == MainCurrentBranch(env, c.trace, repo).value
      && r.value.ctx == c.(store := Load(c.store).value.store, trace := c.trace + [ShowCurrent])
  {
    match Load(c.store)
    case Err(e) => Err(e)
    case Ok(l) =>
      var cur := MainCurrentBranch(env, c.trace, repo);
      Ok(Probe(l.session, cur.value, c.(store := l.store, trace := cur.trace)))
  }

  /** A saved session names a branch other than the current one (or there is no current branch). */
  predicate WantsResume(p: Probe) {
    p.saved.Some? && Some(p.saved.value.branch) != p.current
  }

  /**
   * `start_vibing_from_state(IdleState())`. In order: resume a saved session
   * on another branch when its checkout succeeds (refreshing its start time);
   * otherwise continue as FreshStart. A state file that cannot be read makes
   * the call raise with nothing changed.
   */
  function StartIdle(env: Env, c: Ctx, repo: Path): (r: StartOut)
    ensures Load(c.store).Err? ==> r == StartOut(StartResult(false, None, LoadRaised(Load(c.store).message)), c)
    ensures ProbeIdle(env, c, repo).Ok? ==>
      var p := ProbeIdle(env, c, repo).value;
      && (!WantsResume(p) ==> r == FreshStart(env, p.ctx, repo, p.current))
      && (WantsResume(p) ==>
            var saved := p.saved.value;
            var co := CheckoutBranch(env, p.ctx.trace, repo, saved.branch);
            && (co.outcome.ok ==>
                  && r.result.kind == Resumed(saved.branch) && r.result.success && r.result.branch == Some(saved.branch)
                  && r.ctx == Activate(env, p.ctx.(trace := co.trace), saved.branch,
                                       saved.(sessionStart := env.nowIso)))
            && (!co.outcome.ok ==> r == FreshStart(env, p.ctx.(trace := co.trace), repo, p.current)))
  {
    match ProbeIdle(env, c, repo)
    case Err(e) => StartOut(StartResult(false, None, LoadRaised(e)), c)
    case Ok(p) =>
      if WantsResume(p) then
        var saved := p.saved.value;
        var co := CheckoutBranch(env, p.ctx.trace, repo, saved.branch);
        if co.outcome.ok then
          StartOut(StartResult(true, Some(saved.branch), Resumed(saved.branch)),
            Activate(env, p.ctx.(trace := co.trace), saved.branch, saved.(sessionStart := env.nowIso)))
        else FreshStart(env, p.ctx.(trace := co.trace), repo, p.current)
      else FreshStart(env, p.ctx, repo, p.current)
  }

  /**
   * `start_vibing_from_state`, dispatched on the current state. Vibing and
   * Dirty issue no command and change nothing.
   */
  function StartFromState(env: Env, c: Ctx, repo: Path): (r: StartOut)
    ensures c.state.Vibing? ==>
      r == StartOut(StartResult(true, Some(c.state.branch), AlreadyVibing), c)
    ensures c.state.Dirty? ==>
      && r.ctx == c && !r.result.success && r.result.branch == None && r.result.kind == StillDirty(c.state.branch)
    ensures c.state.Idle? ==> r == StartIdle(env, c, repo)
  {
    match c.state
    case Vibing(b, _) => StartOut(StartResult(true, Some(b), AlreadyVibing), c)
    case Dirty(b, _) =>
      StartOut(StartResult(false, None, StillDirty(b)), c)
    case Idle => StartIdle(env, c, repo)
  }

  /**
   * `start_vibing`: outside a repository nothing happens and the error is
   * reported; otherwise the text of the dispatched start.
   */
  function StartVibing(env: Env, c: Ctx): (r: Reply)
    ensures FindGitRepo(env.cwd, env.present).Err? ==>
      r == Reply(StartError + NotInRepository, c)
    ensures FindGitRepo(env.cwd, env.present).Ok? ==>
      var out := StartFromState(env, c, FindGitRepo(env.cwd, env.present).value);
      && r.ctx == out.ctx
      && (out.result.kind.LoadRaised? ==> r.text == StartError + out.result.kind.error)
      && (!out.result.kind.LoadRaised? ==> r.text == StartMessage(out.result.kind))
  {
    match FindGitRepo(env.cwd, env.present)
    case Err(e) => Reply(StartError + e, c)
    case Ok(repo) =>
      var out := StartFromState(env, c, repo);
      if out.result.kind.LoadRaised? then Reply(StartError + out.result.kind.error, out.ctx)
      else Reply(StartMessage(out.result.kind), out.ctx)
  }

  /** The prefix `start_vibing` puts before the text of an exception. */
  const StartError: string := "❌ Error starting vibe session: "

  /**
   * A state file that is not UTF-8 blocks every start from Idle: the tool
   * reports the decoding error and changes nothing, and the file stays, so
   * the next call fails the same way.
   */
  lemma UndecodableStateBlocksStart(env: Env, c: Ctx)
    requires FindGitRepo(env.cwd, env.present).Ok? && c.state.Idle?
    requires c.store.file.Undecodable?
    ensures StartVibing(env, c) == Reply(StartError + c.store.file.error, c)
    ensures HasSession(StartVibing(env, c).ctx.store)
  {
  }

  // ---------------------------------------------------------------------------
  // Properties of a start from Idle
  // ---------------------------------------------------------------------------

  /** From Idle, a start succeeds exactly when it ends Vibing, and it never issues `checkout -b` unless it is creating the branch. */
  lemma {:induction false} IdleStartSuccessIsVibing(env: Env, c: Ctx, repo: Path)
    requires c.state.Idle?
    ensures var r := StartFromState(env, c, repo);
      (r.result.success <==> r.ctx.state.Vibing?)
      && (r.result.success ==> r.result.branch == Some(r.ctx.state.branch))
      && (r.ctx.state.Vibing? ==> r.ctx.state.watcher == c.nextWatcher && r.ctx.running == c.running + {c.nextWatcher})
      && (!r.ctx.state.Vibing? ==> r.ctx.running == c.running)
  {
    if ProbeIdle(env, c, repo).Ok? {
      var p := ProbeIdle(env, c, repo).value;
      if WantsResume(p) {
        var co := CheckoutBranch(env, p.ctx.trace, repo, p.saved.value.branch);
        if !co.outcome.ok {
          FreshStartShape(env, p.ctx.(trace := co.trace), repo, p.current);
        }
      } else {
        FreshStartShape(env, p.ctx, repo, p.current);
      }
    }
  }

  /** The shared shape of FreshStart's outcomes, for a context that is not Vibing. */
  lemma FreshStartShape(env: Env, c: Ctx, repo: Path, current: Option<string>)
    requires !c.state.Vibing?
    ensures var r := FreshStart(env, c, repo, current);
      (r.result.success <==> r.ctx.state.Vibing?)
      && (r.result.success ==> r.result.branch == Some(r.ctx.state.branch))
      && (r.ctx.state.Vibing? ==> r.ctx.state.watcher == c.nextWatcher && r.ctx.running == c.running + {c.nextWatcher})
      && (!r.ctx.state.Vibing? ==> r.ctx.running == c.running)
  {
  }

  /** Every start keeps the watcher-handle invariant. */
  lemma StartKeepsValid(env: Env, c: Ctx, repo: Path)
    requires Valid(c)
    ensures Valid(StartFromState(env, c, repo).ctx)
  {
    if c.state.Idle? {
      StartIdleValid(env, c, repo);
    }
  }

  lemma StartIdleValid(env: Env, c: Ctx, repo: Path)
    requires Valid(c)
    ensures Valid(StartIdle(env, c, repo).ctx)
  {
    if ProbeIdle(env, c, repo).Ok? {
      var p := ProbeIdle(env, c, repo).value;
      assert Valid(p.ctx);
      if WantsResume(p) {
        var saved := p.saved.value;
        var co := CheckoutBranch(env, p.ctx.trace, repo, saved.branch);
        var c2 := p.ctx.(trace := co.trace);
        assert Valid(c2);
        if co.outcome.ok {
          assert Valid(Activate(env, c2, saved.branch, saved.(sessionStart := env.nowIso)));
        } else {
          FreshStartValid(env, c2, repo, p.current);
        }
      } else {
        FreshStartValid(env, p.ctx, repo, p.current);
      }
    }
  }

  lemma FreshStartValid(env: Env, c: Ctx, repo: Path, current: Option<string>)
    requires Valid(c)
    ensures Valid(FreshStart(env, c, repo, current).ctx)
  {
    if !(current.Some? && IsVibeBranch(current.value)) {
      var ch := HasUncommittedChanges(env, c.trace, repo);
      var c2 := c.(trace := ch.trace);
      assert Valid(c2);
      if ch.value.dirty {
        assert Valid(c2.(state := Dirty(current.GetOr("unknown"), ch.value.details)));
      } else {
        assert Valid(CleanStart(env, c2, repo).ctx);
      }
    }
  }

  /** With a clean tree and both base checkouts failing, a start from Idle stays Idle and creates nothing. */
  lemma NoBaseBranchStaysIdle(env: Env, c: Ctx, repo: Path)
    requires c.state.Idle?
    requires ProbeIdle(env, c, repo).Ok?
    requires var p := ProbeIdle(env, c, repo).value;
      && !WantsResume(p)
      && !(p.current.Some? && IsVibeBranch(p.current.value))
      && !HasUncommittedChanges(env, p.ctx.trace, repo).value.dirty
      && EnsureOnMainBranch(env, p.ctx.trace + [Porcelain], repo).value.None?
    ensures var r := StartFromState(env, c, repo);
      && r.ctx.state == Idle && !r.result.success && r.result.kind == NoMainBranch
      && r.ctx.trace == c.trace + [ShowCurrent, Porcelain, ["git", "checkout", "main"], ["git", "checkout", "master"]]
  {
    var p := ProbeIdle(env, c, repo).value;
    var ch := HasUncommittedChanges(env, p.ctx.trace, repo);
    var c2 := p.ctx.(trace := ch.trace);
    assert FreshStart(env, p.ctx, repo, p.current) == CleanStart(env, c2, repo);
    NoBaseCleanStart(env, c2, repo);
    AppendOneOneTwo(c.trace, ShowCurrent, Porcelain, ["git", "checkout", "main"], ["git", "checkout", "master"]);
  }

  lemma NoBaseCleanStart(env: Env, c: Ctx, repo: Path)
    requires EnsureOnMainBranch(env, c.trace, repo).value.None?
    ensures var r := CleanStart(env, c, repo);
      && r.ctx == c.(trace := c.trace + [["git", "checkout", "main"], ["git", "checkout", "master"]])
      && !r.result.success && r.result.kind == NoMainBranch
  {
  }

  /** A start only issues commands: the trace it leaves extends the one it was given. */
  lemma {:induction false} StartExtendsTrace(env: Env, c: Ctx, repo: Path)
    ensures Extends(StartFromState(env, c, repo).ctx.trace, c.trace)
  {
    if c.state.Idle? && ProbeIdle(env, c, repo).Ok? {
      var p := ProbeIdle(env, c, repo).value;
      ExtendsAppend(c.trace, [ShowCurrent]);
      if WantsResume(p) {
        var co := CheckoutBranch(env, p.ctx.trace, repo, p.saved.value.branch);
        ExtendsAppend(p.ctx.trace, [["git", "checkout", p.saved.value.branch]]);
        ExtendsTrans(co.trace, p.ctx.trace, c.trace);
        if !co.outcome.ok {
          FreshStartExtends(env, p.ctx.(trace := co.trace), repo, p.current);
          ExtendsTrans(StartFromState(env, c, repo).ctx.trace, co.trace, c.trace);
        }
      } else {
        FreshStartExtends(env, p.ctx, repo, p.current);
        ExtendsTrans(StartFromState(env, c, repo).ctx.trace, p.ctx.trace, c.trace);
      }
    } else {
      assert StartFromState(env, c, repo).ctx.trace[..|c.trace|] == c.trace;
    }
  }

  lemma FreshStartExtends(env: Env, c: Ctx, repo: Path, current: Option<string>)
    ensures Extends(FreshStart(env, c, repo, current).ctx.trace, c.trace)
  {
    var r := FreshStart(env, c, repo, current);
    if current.Some? && IsVibeBranch(current.value) {
      assert r.ctx.trace[..|c.trace|] == c.trace;
    } else {
      var ch := HasUncommittedChanges(env, c.trace, repo);
      ExtendsAppend(c.trace, [Porcelain]);
      if !ch.value.dirty {
        var m := EnsureOnMainBranch(env, ch.trace, repo);
        assert Extends(m.trace, ch.trace) by {
          if m.value == Some("main") {
            ExtendsAppend(ch.trace, [["git", "checkout", "main"]]);
          } else {
            ExtendsAppend(ch.trace, [["git", "checkout", "main"], ["git", "checkout", "master"]]);
          }
        }
        if m.value.Some? {
          ExtendsAppend(m.trace, [PullArgv(m.value.value), CreateArgv(VibeBranchName(env.now))]);
          ExtendsTrans(r.ctx.trace, m.trace, ch.trace);
        }
        ExtendsTrans(r.ctx.trace, ch.trace, c.trace);
      }
    }
  }
}

=== FILE: status_only.dfy ===
/**
 * vibe_status_only.py: a minimal copy of the status tool, kept for mutation
 * testing. Its session is the flag record; its runner and repository walk are
 * the shared ones (the same loop and the same `(success, output)` rule).
 */
module StatusOnly {
  import opened Base
  import opened Text
  import opened Paths
  import opened Commands
  import opened GitUtils
  import opened Flags

  /** The answers of `vibe_status`. */
  datatype Answer =
    | RepoError(error: string)     // the walk raised
    | BranchUnknown                // the branch query failed
    | Active(branch: string)
    | VibeBranchSeen(branch: string)
    | Ready

  datatype Report = Report(answer: Answer, session: FlagSession, trace: Trace)

  /**
   * `vibe_status(session)`. Outside a repository the walk raises and the
   * error is reported; otherwise the branch is queried once, and a failed
   * query is reported without touching the session.
   */
  function VibeStatus(env: Env, s: FlagSession, trace: Trace): (r: Report)
    ensures FindGitRepo(env.cwd, env.present).Err? ==> r == Report(RepoError(NotInRepository), s, trace)
    ensures FindGitRepo(env.cwd, env.present).Ok? ==>
      var o := Collect(env.proc(trace, ShowCurrent));
      && (!o.ok ==> r == Report(BranchUnknown, s, trace + [ShowCurrent]))
      && (o.ok ==> r == Judge(s, Strip(o.out), trace + [ShowCurrent]))
  {
    match FindGitRepo(env.cwd, env.present)
    case Err(e) => Report(RepoError(e), s, trace)
    case Ok(repo) =>
      assert ["git"] + ["branch", "--show-current"] == ShowCurrent;
      var ran := Git(env, trace, repo, ["branch", "--show-current"]);
      if !ran.outcome.ok then Report(BranchUnknown, s, ran.trace)
      else Judge(s, Strip(ran.outcome.out), ran.trace)
  }

  /**
   * The decision on a known current branch. A vibing session with a branch
   * name is Active when the names agree and is forgotten when they differ;
   * after that, a "vibe-" branch with no vibing session is reported as such,
   * and anything else is Ready.
   */
  function Judge(s: FlagSession, current: string, trace: Trace): (r: Report)
    ensures r.trace == trace
    ensures r.answer.Active? <==> s.vibing && HasBranchName(s) && current == s.branch.value
    ensures r.answer.Active? ==> r.answer.branch == current && r.session == s
    ensures s.vibing && HasBranchName(s) && current != s.branch.value ==> r.session == Forget(s)
    ensures !(s.vibing && HasBranchName(s)) ==> r.session == s
    ensures r.answer.VibeBranchSeen? <==> !r.answer.Active? && IsVibeBranch(current) && !r.session.vibing
    ensures r.answer.VibeBranchSeen? ==> r.answer.branch == current
    ensures r.answer.Active? || r.answer.VibeBranchSeen? || r.answer.Ready?
  {
    if s.vibing && HasBranchName(s) && current == s.branch.value then Report(Active(current), s, trace)
    else
      var s2 := if s.vibing && HasBranchName(s) then Forget(s) else s;
      if IsVibeBranch(current) && !s2.vibing then Report(VibeBranchSeen(current), s2, trace)
      else Report(Ready, s2, trace)
  }

  function AnswerText(a: Answer): string {
    match a
    case RepoError(e) => "⚪ NOT INITIALIZED: Error checking repository status: " + e
    case BranchUnknown => "⚪ NOT INITIALIZED: Could not determine current branch"
    case Active(b) => "🟢 VIBING: Active session on branch '" + b + "' - auto-committing changes on file modifications"
    case VibeBranchSeen(b) =>
      "🟡 VIBE BRANCH DETECTED: On branch '" + b
      + "' but session is idle. Call start_vibing() to resume or vibe_from_here() to restart watching."
    case Ready => "🔵 IDLE: Ready to start vibing. Call start_vibing() to begin!"
  }

  /**
   * A session flagged as vibing but without a branch name is never examined:
   * it is neither Active nor reset, and because it still counts as vibing even
   * a "vibe-" branch is reported as Ready.
   */
  lemma NamelessVibingLooksReady(s: FlagSession, current: string, trace: Trace)
    requires s.vibing && !HasBranchName(s)
    ensures Judge(s, current, trace) == Report(Ready, s, trace)
  {
  }

  /**
   * A mismatch resets the session, and the reset session is then judged like
   * any idle one: on a "vibe-" branch the branch is reported.
   */
  lemma MismatchOnVibeBranchIsSeen(s: FlagSession, current: string, trace: Trace)
    requires s.vibing && HasBranchName(s) && current != s.branch.value && IsVibeBranch(current)
    ensures Judge(s, current, trace) == Report(VibeBranchSeen(current), Forget(s), trace)
  {
  }

  /**
   * The self-healing settles at once: judging the session it leaves, on the
   * same branch, gives the same answer and changes nothing further.
   */
  lemma {:induction false} JudgeIsStable(s: FlagSession, current: string, trace: Trace)
    ensures var r := Judge(s, current, trace);
      Judge(r.session, current, trace) == r
  {
    var r := Judge(s, current, trace);
    if r.answer.Active? {
      assert r.session == s;
    } else if s.vibing && HasBranchName(s) {
      assert r.session == Forget(s) && !r.session.vibing;
    }
  }

  /** A failed query reports the fixed text and leaves the session alone. */
  lemma FailedQueryKeepsSession(env: Env, s: FlagSession, trace: Trace)
    requires FindGitRepo(env.cwd, env.present).Ok? && !Collect(env.proc(trace, ShowCurrent)).ok
    ensures VibeStatus(env, s, trace).session == s
    ensures AnswerText(VibeStatus(env, s, trace).answer) == "⚪ NOT INITIALIZED: Could not determine current branch"
  {
  }
}

=== FILE: stop.dfy ===
/**
 * Ending a session: the `stop_vibing` tool of src/vibe_git/main.py.
 *
 * The stop is a fixed command script with early exits. It is modelled in three
 * phases, each a function over the trace: finding the branch point, squashing
 * the session's commits, and publishing (rebase, push, PR, return to main).
 * A labelled failure ("❌ Error ...") ends the call and leaves the session
 * Vibing with its watcher running; only a raised exception resets the session.
 */
module Stopping {
  import opened Base
  import opened Text
  import opened Paths
  import opened Commands
  import opened GitUtils
  import opened Sessions
  import opened Persistence
  import opened Workspace

  /** The steps whose failure `stop_vibing` reports with its own label. */
  datatype StopStep =
    | FindingBranchPoint
    | ResettingToBase
    | CreatingSquashCommit
    | RunningHooks
    | CheckingOutMain
    | PullingMain
    | CheckingOutVibeBranch
    | PushingAfterConflicts
    | PushingRebased
    | SwitchingBackToMain

  /** How a call of `stop_vibing` ended. */
  datatype StopResult =
    | NotVibing
    | StepFailed(step: StopStep, detail: string)
    | Crashed(error: string)
    | Stopped(prUrl: Option<string>, squashed: nat, hadConflicts: bool, warnings: seq<string>)

  const NotVibingMessage: string := "Not currently vibing. You can start a vibe session with start_vibing()."
  const ConflictWarning: string := "Had to force push due to rebase conflicts. Review the PR carefully."

  // ---------------------------------------------------------------------------
  // The commands of the script
  // ---------------------------------------------------------------------------

  function MergeBaseArgv(target: string): Argv { ["git", "merge-base", target, "HEAD"] }
  function RevListArgv(base: string): Argv { ["git", "rev-list", "--count", base + "..HEAD"] }
  function ResetArgv(base: string): Argv { ["git", "reset", "--soft", base] }
  function SquashArgv(msg: string): Argv { ["git", "commit", "-m", msg, "--no-verify"] }
  function AmendArgv(): Argv { ["git", "commit", "--amend", "--no-edit"] }
  function CheckoutArgv(b: string): Argv { ["git", "checkout", b] }
  function PullMainArgv(): Argv { ["git", "pull", "origin", "main"] }
  function RebaseArgv(): Argv { ["git", "rebase", "main"] }
  function AbortArgv(): Argv { ["git", "rebase", "--abort"] }
  function PushArgv(b: string): Argv { ["git", "push", "-f", "-u", "origin", b] }
  function PrArgv(title: string, body: string): Argv { ["gh", "pr", "create", "--title", title, "--body", body] }

  /** The outcome of the next command, given the trace so far. */
  function Next(env: Env, trace: Trace, argv: Argv): Outcome {
    Collect(env.proc(trace, argv))
  }

  /**
   * `parse_commit_message(str)`: the title is the first line of the stripped
   * message and the body is the message unchanged.
   */
  function ParseCommitMessage(message: string): (r: (string, string))
    ensures '\n' !in r.0 && StartsWith(Strip(message), r.0)
    ensures r.0 == Strip(message) || Strip(message)[|r.0|] == '\n'
    ensures r.1 == message
  {
    (FirstLine(Strip(message)), message)
  }

  /** A message without newlines is its own title once stripped. */
  lemma SingleLineTitle(message: string)
    requires '\n' !in Strip(message)
    ensures ParseCommitMessage(message).0 == Strip(message)
  {
  }

  /**
   * `parse_commit_message(list)`: "No commit message" twice for no lines;
   * otherwise the stripped first line and the lines joined by newlines.
   */
  function ParseCommitLines(lines: seq<string>): (r: (string, string))
    ensures lines == [] ==> r == ("No commit message", "No commit message")
    ensures lines != [] ==> r.0 == Strip(lines[0]) && r.1 == JoinWith(lines, "\n")
  {
    if lines == [] then ("No commit message", "No commit message")
    else (Strip(lines[0]), JoinWith(lines, "\n"))
  }

  /** Joining a message's lines and parsing them back gives the message as the body and its first line as the title. */
  lemma ParseCommitLinesOfSplit(message: string)
    ensures ParseCommitLines(SplitOn(message, '\n')).1 == message
    ensures ParseCommitLines(SplitOn(message, '\n')).0 == Strip(FirstLine(message))
  {
    JoinSplit(message, '\n');
  }

  // ---------------------------------------------------------------------------
  // Phase 1: the branch point
  // ---------------------------------------------------------------------------

  /** The result of a phase: either an early exit, or the trace to continue from and a value. */
  datatype Phase<T> = Exit(result: StopResult, trace: Trace) | Continue(value: T, trace: Trace)

  /**
   * `merge-base main HEAD`, and `merge-base master HEAD` only if that fails;
   * both failing is a labelled failure. The base is the stripped output.
   */
  function FindBase(env: Env, trace: Trace): (r: Phase<string>)
    ensures r.Exit? ==> r.result.StepFailed?
    ensures var main := Next(env, trace, MergeBaseArgv("main"));
      var t1 := trace + [MergeBaseArgv("main")];
      var master := Next(env, t1, MergeBaseArgv("master"));
      && (main.ok ==> r == Continue(Strip(main.out), t1))
      && (!main.ok && master.ok ==> r == Continue(Strip(master.out), t1 + [MergeBaseArgv("master")]))
      && (!main.ok && !master.ok ==>
            r == Exit(StepFailed(FindingBranchPoint, master.out), t1 + [MergeBaseArgv("master")]))
  {
    var main := Next(env, trace, MergeBaseArgv("main"));
    var t1 := trace + [MergeBaseArgv("main")];
    if main.ok then Continue(Strip(main.out), t1)
    else
      var master := Next(env, t1, MergeBaseArgv("master"));
      var t2 := t1 + [MergeBaseArgv("master")];
      if master.ok then Continue(Strip(master.out), t2)
      else Exit(StepFailed(FindingBranchPoint, master.out), t2)
  }

  // ---------------------------------------------------------------------------
  // Phase 2: squashing
  // ---------------------------------------------------------------------------

  /** The Python text of the ValueError `int()` raises for a non-number. */
  function IntError(s: string): string {
    "invalid literal for int() with base 10: '" + s + "'"
  }

  /** `reset --soft`, then the squash commit with hooks bypassed, then an amend that runs the hooks. */
  function SquashCommands(env: Env, trace: Trace, base: string, msg: string): (r: Phase<()>)
    ensures r.Exit? ==> r.result.StepFailed?
    ensures var t1 := trace + [ResetArgv(base)];
      var t2 := t1 + [SquashArgv(msg)];
      var t3 := t2 + [AmendArgv()];
      && (!Next(env, trace, ResetArgv(base)).ok ==>
            r == Exit(StepFailed(ResettingToBase, Next(env, trace, ResetArgv(base)).out), t1))
      && (Next(env, trace, ResetArgv(base)).ok && !Next(env, t1, SquashArgv(msg)).ok ==>
            r == Exit(StepFailed(CreatingSquashCommit, Next(env, t1, SquashArgv(msg)).out), t2))
      && (Next(env, trace, ResetArgv(base)).ok && Next(env, t1, SquashArgv(msg)).ok && !Next(env, t2, AmendArgv()).ok ==>
            r == Exit(StepFailed(RunningHooks, Next(env, t2, AmendArgv()).out), t3))
      && (Next(env, trace, ResetArgv(base)).ok && Next(env, t1, SquashArgv(msg)).ok && Next(env, t2, AmendArgv()).ok ==>
            r == Continue((), t3))
  {
    var reset := Next(env, trace, ResetArgv(base));
    var t1 := trace + [ResetArgv(base)];
    if !reset.ok then Exit(StepFailed(ResettingToBase, reset.out), t1)
    else
      var squash := Next(env, t1, SquashArgv(msg));
      var t2 := t1 + [SquashArgv(msg)];
      if !squash.ok then Exit(StepFailed(CreatingSquashCommit, squash.out), t2)
      else
        var amend := Next(env, t2, AmendArgv());
        var t3 := t2 + [AmendArgv()];
        if !amend.ok then Exit(StepFailed(RunningHooks, amend.out), t3)
        else Continue((), t3)
  }

  /**
   * Counting and squashing. A failed count squashes nothing; a count that is
   * not a number raises; a count above 1 squashes, and that number is reported.
   */
  function Squash(env: Env, trace: Trace, base: string, msg: string): (r: Phase<nat>)
    ensures var count := Next(env, trace, RevListArgv(base));
      var t1 := trace + [RevListArgv(base)];
      var n := ParseInt(Strip(count.out));
      && (!count.ok ==> r == Continue(0, t1))
      && (count.ok && n.None? ==> r == Exit(Crashed(IntError(Strip(count.out))), t1))
      && (count.ok && n.Some? && n.value <= 1 ==> r == Continue(0, t1))
      && (count.ok && n.Some? && n.value > 1 ==> r == SquashMany(env, t1, base, msg, n.value))
    ensures r.Exit? ==> r.result.StepFailed? || r.result.Crashed?
  {
    var count := Next(env, trace, RevListArgv(base));
    var t1 := trace + [RevListArgv(base)];
    if !count.ok then Continue(0, t1)
    else
      var n := ParseInt(Strip(count.out));
      if n.None? then Exit(Crashed(IntError(Strip(count.out))), t1)
      else if n.value <= 1 then Continue(0, t1)
      else SquashMany(env, t1, base, msg, n.value)
  }

  /** The squash of `n` commits: the commands' result, reporting `n` when they all succeed. */
  function SquashMany(env: Env, trace: Trace, base: string, msg: string, n: nat): (r: Phase<nat>)
    ensures var s := SquashCommands(env, trace, base, msg);
      && r.trace == s.trace
      && (s.Exit? ==> r.Exit? && r.result == s.result)
      && (s.Continue? ==> r == Continue(n, s.trace))
    ensures r.Exit? ==> r.result.StepFailed?
  {
    var s := SquashCommands(env, trace, base, msg);
    if s.Exit? then Exit(s.result, s.trace) else Continue(n, s.trace)
  }

  // ---------------------------------------------------------------------------
  // Phase 3: publishing
  // ---------------------------------------------------------------------------

  /** `checkout main`, `pull origin main`, `checkout <branch>`, each a labelled failure. */
  function Refresh(env: Env, trace: Trace, branch: string): (r: Phase<()>)
    ensures r.Exit? ==> r.result.StepFailed?
    ensures var t1 := trace + [CheckoutArgv("main")];
      var t2 := t1 + [PullMainArgv()];
      var t3 := t2 + [CheckoutArgv(branch)];
      && (!Next(env, trace, CheckoutArgv("main")).ok ==>
            r == Exit(StepFailed(CheckingOutMain, Next(env, trace, CheckoutArgv("main")).out), t1))
      && (Next(env, trace, CheckoutArgv("main")).ok && !Next(env, t1, PullMainArgv()).ok ==>
            r == Exit(StepFailed(PullingMain, Next(env, t1, PullMainArgv()).out), t2))
      && ((Next(env, trace, CheckoutArgv("main")).ok && Next(env, t1, PullMainArgv()).ok
           && !Next(env, t2, CheckoutArgv(branch)).ok) ==>
            r == Exit(StepFailed(CheckingOutVibeBranch, Next(env, t2, CheckoutArgv(branch)).out), t3))
      && ((Next(env, trace, CheckoutArgv("main")).ok && Next(env, t1, PullMainArgv()).ok
           && Next(env, t2, CheckoutArgv(branch)).ok) ==> r == Continue((), t3))
  {
    var co := Next(env, trace, CheckoutArgv("main"));
    var t1 := trace + [CheckoutArgv("main")];
    if !co.ok then Exit(StepFailed(CheckingOutMain, co.out), t1)
    else
      var pull := Next(env, t1, PullMainArgv());
      var t2 := t1 + [PullMainArgv()];
      if !pull.ok then Exit(StepFailed(PullingMain, pull.out), t2)
      else
        var back := Next(env, t2, CheckoutArgv(branch));
        var t3 := t2 + [CheckoutArgv(branch)];
        if !back.ok then Exit(StepFailed(CheckingOutVibeBranch, back.out), t3)
        else Continue((), t3)
  }

  /**
   * `rebase main`; on failure `rebase --abort` and a warning. Then the force
   * push, whose failure is labelled differently after a conflict. The value is
   * whether there were conflicts.
   */
  function RebaseAndPush(env: Env, trace: Trace, branch: string): (r: Phase<bool>)
    ensures r.Exit? ==> r.result.StepFailed?
    ensures var rebase := Next(env, trace, RebaseArgv());
      var t1 := trace + [RebaseArgv()];
      && (rebase.ok ==>
            var push := Next(env, t1, PushArgv(branch));
            && (push.ok ==> r == Continue(false, t1 + [PushArgv(branch)]))
            && (!push.ok ==> r == Exit(StepFailed(PushingRebased, push.out), t1 + [PushArgv(branch)])))
      && (!rebase.ok ==>
            var t2 := t1 + [AbortArgv()];
            var push := Next(env, t2, PushArgv(branch));
            && (push.ok ==> r == Continue(true, t2 + [PushArgv(branch)]))
            && (!push.ok ==>
                  r == Exit(StepFailed(PushingAfterConflicts, rebase.out + "\nPush error: " + push.out),
                            t2 + [PushArgv(branch)])))
  {
    var rebase := Next(env, trace, RebaseArgv());
    var t1 := trace + [RebaseArgv()];
    if rebase.ok then
      var push := Next(env, t1, PushArgv(branch));
      if push.ok then Continue(false, t1 + [PushArgv(branch)])
      else Exit(StepFailed(PushingRebased, push.out), t1 + [PushArgv(branch)])
    else
      var t2 := t1 + [AbortArgv()];
      var push := Next(env, t2, PushArgv(branch));
      if push.ok then Continue(true, t2 + [PushArgv(branch)])
      else Exit(StepFailed(PushingAfterConflicts, rebase.out + "\nPush error: " + push.out), t2 + [PushArgv(branch)])
  }

  /**
   * `gh pr create` through the plain runner (not through git), then the final
   * `checkout main`. The PR URL is the output when gh succeeded with output.
   */
  function OpenPr(env: Env, trace: Trace, msg: string): (r: Phase<Option<string>>)
    ensures r.Exit? ==> r.result.StepFailed?
    ensures var (title, body) := ParseCommitMessage(msg);
      var gh := Next(env, trace, PrArgv(title, body));
      var t1 := trace + [PrArgv(title, body)];
      var fin := Next(env, t1, CheckoutArgv("main"));
      var t2 := t1 + [CheckoutArgv("main")];
      && (!fin.ok ==> r == Exit(StepFailed(SwitchingBackToMain, fin.out), t2))
      && (fin.ok ==> r.Continue? && r.trace == t2)
      && (fin.ok ==> (r.value.Some? <==> gh.ok && gh.out != ""))
      && (fin.ok && r.value.Some? ==> r.value.value == gh.out)
  {
    var (title, body) := ParseCommitMessage(msg);
    var gh := Next(env, trace, PrArgv(title, body));
    var t1 := trace + [PrArgv(title, body)];
    var url := if gh.ok && gh.out != "" then Some(Strip(gh.out)) else None;
    var fin := Next(env, t1, CheckoutArgv("main"));
    var t2 := t1 + [CheckoutArgv("main")];
    if !fin.ok then Exit(StepFailed(SwitchingBackToMain, fin.out), t2)
    else Continue(url, t2)
  }

  /** Everything after squashing: refresh, rebase and push, PR, back to main. */
  function Publish(env: Env, trace: Trace, branch: string, msg: string, squashed: nat): (r: Phase<StopResult>)
    ensures r.Continue? ==> r.value.Stopped? && r.value.squashed == squashed
    ensures r.Continue? ==> (r.value.hadConflicts <==> r.value.warnings == [ConflictWarning])
    ensures r.Continue? ==> !r.value.hadConflicts ==> r.value.warnings == []
    ensures r.Exit? ==> r.result.StepFailed?
  {
    match Refresh(env, trace, branch)
    case Exit(res, t) => Exit(res, t)
    case Continue(_, t1) =>
      match RebaseAndPush(env, t1, branch)
      case Exit(res, t) => Exit(res, t)
      case Continue(conflicts, t2) =>
        match OpenPr(env, t2, msg)
        case Exit(res, t) => Exit(res, t)
        case Continue(url, t3) =>
          Continue(Stopped(url, squashed, conflicts, if conflicts then [ConflictWarning] else []), t3)
  }

  // ---------------------------------------------------------------------------
  // The tool
  // ---------------------------------------------------------------------------

  /** The script of a Vibing session in repository `repo`: the result and the trace after it. */
  function Script(env: Env, trace: Trace, branch: string, msg: string): (r: Phase<StopResult>)
    ensures r.Continue? ==> r.value.Stopped?
    ensures r.Exit? ==> r.result.StepFailed? || r.result.Crashed?
  {
    match FindBase(env, trace)
    case Exit(res, t) => Exit(res, t)
    case Continue(base, t1) =>
      match Squash(env, t1, base, msg)
      case Exit(res, t) => Exit(res, t)
      case Continue(n, t2) => Publish(env, t2, branch, msg, n)
  }

  /** The text `stop_vibing` returns for each ending. */
  function StopMessage(r: StopResult, msg: string): string {
    match r
    case NotVibing => NotVibingMessage
    case Crashed(e) => "❌ Error stopping vibe session: " + e
    case StepFailed(step, d) =>
      (match step
      case FindingBranchPoint => "❌ Error finding branch point: " + d
      case ResettingToBase => "❌ Error resetting to base commit: " + d
      case CreatingSquashCommit => "❌ Error creating squash commit: " + d
      case RunningHooks => "❌ Error running hooks on squash commit: " + d
      case CheckingOutMain => "❌ Error checking out main: " + d
      case PullingMain => "❌ Error pulling latest main: " + d
      case CheckingOutVibeBranch => "❌ Error checking out vibe branch: " + d
      case PushingAfterConflicts => "❌ Error: Rebase failed and couldn't force push: " + d
      case PushingRebased => "❌ Error force pushing rebased branch: " + d
      case SwitchingBackToMain => "❌ Error switching back to main: " + d)
    case Stopped(url, _, _, warnings) =>
      "🏁 Stopped vibing! Squashed commits into: '" + msg + "', rebased on main, and pushed to origin."
      + (if url.Some? && url.value != "" then "\n📋 Created PR: " + url.value else "")
      + Warnings(warnings)
  }

  function Warnings(ws: seq<string>): string
    decreases |ws|
  {
    if ws == [] then "" else "\n⚠️ " + ws[0] + Warnings(ws[1..])
  }

  datatype StopOut = StopOut(result: StopResult, ctx: Ctx)

  /**
   * `stop_vibing(commit_message)`. Outside Vibing nothing happens. A raised
   * error (no repository, an unparseable count) stops the observer and forces
   * Idle without touching the store. A labelled failure changes nothing but the
   * trace. Success stops the observer, sets its Event to release the worker,
   * forces Idle and deletes the saved session.
   */
  function StopVibing(env: Env, c: Ctx, msg: string): (r: StopOut)
    ensures !c.state.Vibing? ==> r == StopOut(NotVibing, c)
    ensures c.state.Vibing? && FindGitRepo(env.cwd, env.present).Err? ==>
      r == StopOut(Crashed(NotInRepository),
                   c.(state := Idle, running := c.running - {c.state.watcher}))
    ensures c.state.Vibing? && FindGitRepo(env.cwd, env.present).Ok? ==>
      var s := Script(env, c.trace, c.state.branch, msg);
      && r.result == (if s.Exit? then s.result else s.value)
      && r.ctx.trace == s.trace
      && (r.result.StepFailed? ==> r.ctx == c.(trace := s.trace))
      && (r.result.Crashed? ==>
            r.ctx == c.(trace := s.trace, state := Idle, running := c.running - {c.state.watcher}))
      && (r.result.Stopped? ==>
            r.ctx == c.(trace := s.trace, state := Idle,
                        running := c.running - {c.state.watcher},
                        signalled := c.signalled + {c.state.watcher},
                        store := Delete(c.store, env.nowIso)))
  {
    if !c.state.Vibing? then StopOut(NotVibing, c)
    else
      var w := c.state.watcher;
      match FindGitRepo(env.cwd, env.present)
      case Err(e) => StopOut(Crashed(e), c.(state := Idle, running := c.running - {w}))
      case Ok(_) =>
        var s := Script(env, c.trace, c.state.branch, msg);
        match s
        case Exit(res, t) =>
          if res.Crashed? then StopOut(res, c.(trace := t, state := Idle, running := c.running - {w}))
          else StopOut(res, c.(trace := t))
        case Continue(res, t) =>
          StopOut(res, c.(trace := t, state := Idle, running := c.running - {w},
                          signalled := c.signalled + {w}, store := Delete(c.store, env.nowIso)))
  }

  /** `stop_vibing` as the tool returns it. */
  function StopVibingTool(env: Env, c: Ctx, msg: string): (r: Reply)
    ensures r.ctx == StopVibing(env, c, msg).ctx
    ensures !c.state.Vibing? ==> r.text == NotVibingMessage
  {
    var out := StopVibing(env, c, msg);
    Reply(StopMessage(out.result, msg), out.ctx)
  }

  // ---------------------------------------------------------------------------
  // Properties of a stop
  // ---------------------------------------------------------------------------

  /**
   * The commands of a successful stop, in order. The flags choose the three
   * optional parts: the fallback to `master`, the squash, and the rebase abort.
   */
  function StopScript(base: string, branch: string, msg: string, fellBack: bool, squashed: bool, conflicts: bool): Trace {
    (if fellBack then [MergeBaseArgv("main"), MergeBaseArgv("master")] else [MergeBaseArgv("main")])
    + [RevListArgv(base)]
    + (if squashed then [ResetArgv(base), SquashArgv(msg), AmendArgv()] else [])
    + [CheckoutArgv("main"), PullMainArgv(), CheckoutArgv(branch), RebaseArgv()]
    + (if conflicts then [AbortArgv()] else [])
    + [PushArgv(branch), PrArgv(ParseCommitMessage(msg).0, msg), CheckoutArgv("main")]
  }

  /** A branch point that was found extends the trace by one or two `merge-base` queries. */
  lemma FindBaseTrace(env: Env, trace: Trace)
    requires FindBase(env, trace).Continue?
    ensures var fellBack := !Next(env, trace, MergeBaseArgv("main")).ok;
      FindBase(env, trace).trace
        == trace + (if fellBack then [MergeBaseArgv("main"), MergeBaseArgv("master")] else [MergeBaseArgv("main")])
  {
    AppendTwo(trace, MergeBaseArgv("main"), MergeBaseArgv("master"));
  }

  /** A count that let the stop continue extends the trace by the count and, when it squashed, the three squash commands. */
  lemma SquashTrace(env: Env, trace: Trace, base: string, msg: string)
    requires Squash(env, trace, base, msg).Continue?
    ensures var r := Squash(env, trace, base, msg);
      r.trace == trace + [RevListArgv(base)]
        + (if r.value > 0 then [ResetArgv(base), SquashArgv(msg), AmendArgv()] else [])
  {
    var r := Squash(env, trace, base, msg);
    var count := Next(env, trace, RevListArgv(base));
    var t1 := trace + [RevListArgv(base)];
    var n := ParseInt(Strip(count.out));
    if r.value > 0 {
      assert count.ok && n.Some? && n.value > 1;
      assert r == SquashMany(env, t1, base, msg, n.value);
      var s := SquashCommands(env, t1, base, msg);
      assert s.Continue?;
      var sq := [ResetArgv(base), SquashArgv(msg), AmendArgv()];
      assert r.trace == t1 + [ResetArgv(base)] + [SquashArgv(msg)] + [AmendArgv()];
      AppendThree(t1, ResetArgv(base), SquashArgv(msg), AmendArgv());
      assert r.trace == trace + [RevListArgv(base)] + sq;
    } else {
      assert r.trace == t1;
    }
  }

  /** A completed refresh issued `checkout main`, `pull origin main` and `checkout <branch>`. */
  lemma RefreshTrace(env: Env, trace: Trace, branch: string)
    requires Refresh(env, trace, branch).Continue?
    ensures Refresh(env, trace, branch).trace == trace + [CheckoutArgv("main"), PullMainArgv(), CheckoutArgv(branch)]
  {
    AppendThree(trace, CheckoutArgv("main"), PullMainArgv(), CheckoutArgv(branch));
  }

  /** A completed rebase-and-push issued the rebase, the abort exactly after a conflict, and the push. */
  lemma RebaseTrace(env: Env, trace: Trace, branch: string)
    requires RebaseAndPush(env, trace, branch).Continue?
    ensures var g := RebaseAndPush(env, trace, branch);
      g.trace == trace + [RebaseArgv()] + (if g.value then [AbortArgv()] else []) + [PushArgv(branch)]
  {
    var g := RebaseAndPush(env, trace, branch);
    AppendMaybe(trace + [RebaseArgv()], g.value, AbortArgv(), PushArgv(branch));
  }

  /** A completed PR step issued `gh pr create` and the final `checkout main`. */
  lemma OpenPrTrace(env: Env, trace: Trace, msg: string)
    requires OpenPr(env, trace, msg).Continue?
    ensures OpenPr(env, trace, msg).trace == trace + [PrArgv(ParseCommitMessage(msg).0, msg), CheckoutArgv("main")]
  {
    AppendTwo(trace, PrArgv(ParseCommitMessage(msg).0, msg), CheckoutArgv("main"));
  }

  /** A completed publication extends the trace by the refresh, rebase, push, PR and final checkout. */
  lemma PublishTrace(env: Env, trace: Trace, branch: string, msg: string, squashed: nat)
    requires Publish(env, trace, branch, msg, squashed).Continue?
    ensures var r := Publish(env, trace, branch, msg, squashed);
      r.trace == trace + [CheckoutArgv("main"), PullMainArgv(), CheckoutArgv(branch), RebaseArgv()]
        + (if r.value.hadConflicts then [AbortArgv()] else [])
        + [PushArgv(branch), PrArgv(ParseCommitMessage(msg).0, msg), CheckoutArgv("main")]
  {
    var f := Refresh(env, trace, branch);
    RefreshTrace(env, trace, branch);
    var g := RebaseAndPush(env, f.trace, branch);
    RebaseTrace(env, f.trace, branch);
    var p := OpenPr(env, g.trace, msg);
    OpenPrTrace(env, g.trace, msg);
    var r := Publish(env, trace, branch, msg, squashed);
    assert r.value.hadConflicts == g.value && r.trace == p.trace;
    PublishShape(trace, CheckoutArgv("main"), PullMainArgv(), CheckoutArgv(branch), RebaseArgv(),
                 if g.value then [AbortArgv()] else [], PushArgv(branch),
                 PrArgv(ParseCommitMessage(msg).0, msg), CheckoutArgv("main"));
  }

  lemma AppendMaybe<T>(t: seq<T>, b: bool, x: T, y: T)
    ensures t + (if b then [x] else []) + [y] == if b then t + [x] + [y] else t + [y]
  {
    if !b {
      assert t + [] == t;
    }
  }

  lemma PublishShape<T>(t: seq<T>, co: T, pull: T, cob: T, rb: T, ab: seq<T>, push: T, pr: T, co2: T)
    ensures t + [co, pull, cob] + [rb] + ab + [push] + [pr, co2]
         == t + [co, pull, cob, rb] + ab + [push, pr, co2]
  {
  }

  lemma ScriptShape<T>(t: seq<T>, a: seq<T>, b: seq<T>, c: seq<T>, d: seq<T>, e: seq<T>, f: seq<T>)
    ensures t + a + b + c + d + e + f == t + (a + b + c + d + e + f)
  {
  }

  /**
   * A stop that reports success issued exactly the stop script, from the
   * branch point `merge-base` printed: the fallback to `master` is in it
   * exactly when `merge-base main` failed, the squash exactly when commits
   * were squashed, and the rebase abort exactly when there were conflicts.
   * The PR is created with `gh` itself, not through git, and the script ends
   * back on main.
   */
  lemma {:induction false} StoppedFollowsScript(env: Env, c: Ctx, msg: string)
    requires StopVibing(env, c, msg).result.Stopped?
    ensures c.state.Vibing? && FindBase(env, c.trace).Continue?
    ensures var r := StopVibing(env, c, msg);
      r.ctx.trace == c.trace + StopScript(FindBase(env, c.trace).value, c.state.branch, msg,
                                          !Next(env, c.trace, MergeBaseArgv("main")).ok,
                                          r.result.squashed > 0, r.result.hadConflicts)
  {
    var r := StopVibing(env, c, msg);
    var t := c.trace;
    var branch := c.state.branch;
    var fb := FindBase(env, t);
    assert fb.Continue?;
    FindBaseTrace(env, t);
    var fellBack := !Next(env, t, MergeBaseArgv("main")).ok;
    var mb := if fellBack then [MergeBaseArgv("main"), MergeBaseArgv("master")] else [MergeBaseArgv("main")];
    var sq := Squash(env, fb.trace, fb.value, msg);
    assert sq.Continue?;
    SquashTrace(env, fb.trace, fb.value, msg);
    var sqs := if sq.value > 0 then [ResetArgv(fb.value), SquashArgv(msg), AmendArgv()] else [];
    var p := Publish(env, sq.trace, branch, msg, sq.value);
    assert r.result == p.value && r.ctx.trace == p.trace;
    PublishTrace(env, sq.trace, branch, msg, sq.value);
    var ab := if p.value.hadConflicts then [AbortArgv()] else [];
    var tail := [PushArgv(branch), PrArgv(ParseCommitMessage(msg).0, msg), CheckoutArgv("main")];
    var mid := [CheckoutArgv("main"), PullMainArgv(), CheckoutArgv(branch), RebaseArgv()];
    assert p.trace == t + mb + [RevListArgv(fb.value)] + sqs + mid + ab + tail;
    ScriptShape(t, mb, [RevListArgv(fb.value)], sqs, mid, ab, tail);
  }

  /** When `checkout main` fails, publication ends at its first step. */
  lemma MainFailureStopsPublish(env: Env, trace: Trace, branch: string, msg: string, squashed: nat)
    requires !Next(env, trace, CheckoutArgv("main")).ok
    ensures Publish(env, trace, branch, msg, squashed) == Exit(StepFailed(CheckingOutMain, Next(env, trace, CheckoutArgv("main")).out), trace + [CheckoutArgv("main")])
  {
  }

  /**
   * The branch point may be found against `master`, but the rest of the script
   * is hard-wired to `main`: in a repository where `checkout main` always
   * fails, no stop ever succeeds, and the session stays Vibing unless the call
   * raised.
   */
  lemma {:induction false} MasterOnlyNeverStops(env: Env, c: Ctx, msg: string)
    requires forall t: Trace :: !Next(env, t, CheckoutArgv("main")).ok
    ensures !StopVibing(env, c, msg).result.Stopped?
    ensures StopVibing(env, c, msg).result.StepFailed? ==> StopVibing(env, c, msg).ctx.state == c.state
  {
    if c.state.Vibing? && FindGitRepo(env.cwd, env.present).Ok? {
      ScriptNeedsMain(env, c.trace, c.state.branch, msg);
    }
  }

  /** With `checkout main` always failing, the script never reaches its end. */
  lemma ScriptNeedsMain(env: Env, trace: Trace, branch: string, msg: string)
    requires forall t: Trace :: !Next(env, t, CheckoutArgv("main")).ok
    ensures Script(env, trace, branch, msg).Exit?
  {
    var fb := FindBase(env, trace);
    if fb.Continue? {
      var sq := Squash(env, fb.trace, fb.value, msg);
      if sq.Continue? {
        MainFailureStopsPublish(env, sq.trace, branch, msg, sq.value);
      }
    }
  }

  /**
   * Stopping keeps the handle invariant: watchers are only stopped or
   * signalled, never created.
   */
  lemma StopKeepsValid(env: Env, c: Ctx, msg: string)
    requires Valid(c)
    ensures Valid(StopVibing(env, c, msg).ctx)
    ensures StopVibing(env, c, msg).ctx.nextWatcher == c.nextWatcher
  {
    var r := StopVibing(env, c, msg);
    if c.state.Vibing? {
      var w := c.state.watcher;
      assert r.ctx.running <= c.running;
      assert r.ctx.signalled <= c.signalled + {w};
      ValidAfterRelease(c, r.ctx);
    }
  }

  /**
   * Only a stop that completes forgets the saved session: a crash leaves the
   * file for `check_orphaned_sessions` to find, and a labelled failure leaves
   * the whole session as it was.
   */
  lemma OnlySuccessDeletesSession(env: Env, c: Ctx, msg: string)
    ensures var r := StopVibing(env, c, msg);
      && (r.ctx.store != c.store ==> r.result.Stopped?)
      && (r.result.StepFailed? ==> r.ctx.state == c.state && r.ctx.running == c.running
                                   && r.ctx.signalled == c.signalled && r.ctx.store == c.store)
      && (r.result.Crashed? ==> r.ctx.state.Idle? && r.ctx.store == c.store && r.ctx.signalled == c.signalled)
  {
  }
}

=== FILE: text.dfy ===
/**
 * The string primitives the Python and Rust sources lean on: `str.strip`,
 * `str.split()`, `str.split("\n")`, `"\n".join`, `startswith`/`endswith`,
 * substring tests, decimal rendering of timestamps and `int(...)` parsing.
 * Python and Rust disagree on what whitespace is, so the tokeniser is told
 * which of the two sets it splits on.
 */
module Text {
  import opened Base

  /**
   * Unicode's White_Space property: the blanks of Rust's `char::is_whitespace`
   * and `split_whitespace`.
   */
  predicate IsUnicodeSpace(c: char) {
    || ('\t' <= c <= '\r') || c == ' ' || c == '\U{0085}' || c == '\U{00A0}' || c == '\U{1680}'
    || ('\U{2000}' <= c <= '\U{200A}') || c == '\U{2028}' || c == '\U{2029}' || c == '\U{202F}'
    || c == '\U{205F}' || c == '\U{3000}'
  }

  /**
   * Python's `str.isspace`, the blanks of `str.strip()` and `str.split()`: the
   * Unicode set plus the four separators U+001C to U+001F.
   */
  predicate IsSpace(c: char) {
    IsUnicodeSpace(c) || ('\U{001C}' <= c <= '\U{001F}')
  }

  /** Which language's whitespace a tokeniser splits on. */
  datatype Blanks = PythonBlanks | RustBlanks

  predicate IsBlank(ws: Blanks, c: char) {
    match ws
    case PythonBlanks => IsSpace(c)
    case RustBlanks => IsUnicodeSpace(c)
  }

  predicate AllBlank(ws: Blanks, s: string) {
    forall i :: 0 <= i < |s| ==> IsBlank(ws, s[i])
  }

  predicate NoBlank(ws: Blanks, s: string) {
    forall i :: 0 <= i < |s| ==> !IsBlank(ws, s[i])
  }

  predicate AllSpace(s: string) {
    forall i :: 0 <= i < |s| ==> IsSpace(s[i])
  }

  predicate NoSpace(s: string) {
    forall i :: 0 <= i < |s| ==> !IsSpace(s[i])
  }

  // ---------------------------------------------------------------------------
  // Trimming
  // ---------------------------------------------------------------------------

  /** Removes leading whitespace: the result is the suffix of `s` after its leading blank run. */
  function TrimLeft(s: string): (r: string)
    ensures |r| <= |s| && r == s[|s| - |r|..]
    ensures AllSpace(s[..|s| - |r|])
    ensures r == [] || !IsSpace(r[0])
    decreases |s|
  {
    if |s| > 0 && IsSpace(s[0]) then
      var r := TrimLeft(s[1..]);
      assert AllSpace([s[0]]);
      AllSpaceConcat([s[0]], s[1..][..|s| - 1 - |r|]);
      assert [s[0]] + s[1..][..|s| - 1 - |r|] == s[..|s| - |r|];
      assert s[1..][|s| - 1 - |r|..] == s[|s| - |r|..];
      r
    else s
  }

  /** Removes trailing whitespace: the result is the prefix of `s` before its trailing blank run. */
  function TrimRight(s: string): (r: string)
    ensures |r| <= |s| && r == s[..|r|]
    ensures AllSpace(s[|r|..])
    ensures r == [] || !IsSpace(r[|r| - 1])
    decreases |s|
  {
    if |s| > 0 && IsSpace(s[|s| - 1]) then
      var r := TrimRight(s[..|s| - 1]);
      assert AllSpace([s[|s| - 1]]);
      AllSpaceConcat(s[..|s| - 1][|r|..], [s[|s| - 1]]);
      assert s[..|s| - 1][|r|..] + [s[|s| - 1]] == s[|r|..];
      r
    else s
  }

  /**
   * Python's `str.strip()`. The result has no blank at either end, is empty
   * exactly when `s` is all blanks, and is never longer than `s`;
   * `StripIsSlice` adds that it is the slice of `s` between its blank runs.
   */
  function Strip(s: string): (r: string)
    ensures |r| <= |s|
    ensures r == [] || (!IsSpace(r[0]) && !IsSpace(r[|r| - 1]))
    ensures r == [] <==> AllSpace(s)
  {
    var t := TrimLeft(s);
    var r := TrimRight(t);
    TrimsLeaveSlice(s, t, r);
    r
  }

  /** What `strip()` returns is `s` with a blank prefix and a blank suffix cut off. */
  lemma StripIsSlice(s: string)
    ensures exists i, j :: 0 <= i <= j <= |s| && Strip(s) == s[i..j] && AllSpace(s[..i]) && AllSpace(s[j..])
  {
    TrimsLeaveSlice(s, TrimLeft(s), TrimRight(TrimLeft(s)));
  }

  /**
   * What `Strip` promises, from what `TrimLeft` and `TrimRight` promise: a
   * blank-free-ended slice of `s`, empty exactly when `s` is all blanks.
   */
  lemma TrimsLeaveSlice(s: string, t: string, r: string)
    requires |t| <= |s| && t == s[|s| - |t|..] && AllSpace(s[..|s| - |t|]) && (t == [] || !IsSpace(t[0]))
    requires |r| <= |t| && r == t[..|r|] && AllSpace(t[|r|..]) && (r == [] || !IsSpace(r[|r| - 1]))
    ensures exists i, j :: 0 <= i <= j <= |s| && r == s[i..j] && AllSpace(s[..i]) && AllSpace(s[j..])
    ensures r == [] || (!IsSpace(r[0]) && !IsSpace(r[|r| - 1]))
    ensures r == [] <==> AllSpace(s)
  {
    var i := |s| - |t|;
    assert s[i..i + |r|] == r;
    assert s[i + |r|..] == t[|r|..];
    if r == [] {
      assert t[|r|..] == t;
      BlankHalves(s, i);
    } else {
      assert r[0] == t[0];
      NotBlankAt(s, t);
    }
  }

  /** A string whose two halves are blank is blank. */
  lemma BlankHalves(s: string, i: nat)
    requires i <= |s| && AllSpace(s[..i]) && AllSpace(s[i..])
    ensures AllSpace(s)
  {
    AllSpaceConcat(s[..i], s[i..]);
    assert s == s[..i] + s[i..];
  }

  /** A suffix of `s` that starts with a non-blank shows `s` is not blank. */
  lemma NotBlankAt(s: string, t: string)
    requires |t| <= |s| && t == s[|s| - |t|..] && t != [] && !IsSpace(t[0])
    ensures !AllSpace(s)
  {
    assert s[|s| - |t|] == t[0];
  }

  lemma AllSpaceConcat(a: string, b: string)
    requires AllSpace(a) && AllSpace(b)
    ensures AllSpace(a + b)
  {
    forall i | 0 <= i < |a + b|
      ensures IsSpace((a + b)[i])
    {
      if i < |a| {
        assert (a + b)[i] == a[i];
      } else {
        assert (a + b)[i] == b[i - |a|];
      }
    }
  }

  /** A string with no blank at either end is its own strip. */
  lemma StripSolidEnds(s: string)
    requires s == [] || (!IsSpace(s[0]) && !IsSpace(s[|s| - 1]))
    ensures Strip(s) == s
  {
    if s != [] {
      assert TrimLeft(s) == s;
      assert TrimRight(s) == s;
    }
  }

  /** Stripping twice is stripping once; the model relies on it when the source re-strips output. */
  lemma StripIdempotent(s: string)
    ensures Strip(Strip(s)) == Strip(s)
  {
    var r := Strip(s);
    assert r == [] || (!IsSpace(r[0]) && !IsSpace(r[|r| - 1]));
    StripSolidEnds(r);
  }

  // ---------------------------------------------------------------------------
  // Prefixes, suffixes, substrings
  // ---------------------------------------------------------------------------

  predicate StartsWith(s: string, prefix: string) {
    |prefix| <= |s| && s[..|prefix|] == prefix
  }

  predicate EndsWith(s: string, suffix: string) {
    |suffix| <= |s| && s[|s| - |suffix|..] == suffix
  }

  /** Python's `sub in s` / Rust's `str::contains`. */
  predicate Contains(s: string, sub: string)
    decreases |s|
  {
    StartsWith(s, sub) || (|s| > 0 && Contains(s[1..], sub))
  }

  /** `Contains` holds exactly when `sub` occurs at some offset of `s`. */
  lemma {:induction false} ContainsAt(s: string, sub: string)
    ensures Contains(s, sub) <==> exists i :: 0 <= i <= |s| && StartsWith(s[i..], sub)
    decreases |s|
  {
    assert s[0..] == s;
    if Contains(s, sub) && !StartsWith(s, sub) {
      ContainsAt(s[1..], sub);
      var i :| 0 <= i <= |s[1..]| && StartsWith(s[1..][i..], sub);
      assert s[1..][i..] == s[i + 1..];
    }
    if exists i :: 0 <= i <= |s| && StartsWith(s[i..], sub) {
      var i :| 0 <= i <= |s| && StartsWith(s[i..], sub);
      if i > 0 {
        ContainsAt(s[1..], sub);
        assert s[1..][i - 1..] == s[i..];
      }
    }
  }

  // ---------------------------------------------------------------------------
  // Splitting on a separator and joining
  // ---------------------------------------------------------------------------

  /** Index of the first occurrence of `c` in `s`. */
  function IndexOf(s: string, c: char): (k: nat)
    requires c in s
    ensures k < |s| && s[k] == c && c !in s[..k]
  {
    if s[0] == c then 0
    else
      var k := IndexOf(s[1..], c);
      assert s[..k + 1] == [s[0]] + s[1..][..k];
      k + 1
  }

  /** Python's `s.split(sep)` for a one-character separator. */
  function SplitOn(s: string, sep: char): (r: seq<string>)
    ensures |r| >= 1
    ensures forall i :: 0 <= i < |r| ==> sep !in r[i]
    decreases |s|
  {
    if sep !in s then [s]
    else
      var k := IndexOf(s, sep);
      [s[..k]] + SplitOn(s[k + 1..], sep)
  }

  /** Python's `sep.join(parts)`. */
  function JoinWith(parts: seq<string>, sep: string): string
    decreases |parts|
  {
    if |parts| == 0 then ""
    else if |parts| == 1 then parts[0]
    else parts[0] + sep + JoinWith(parts[1..], sep)
  }

  /** Joining the pieces of a split with the same separator rebuilds the string. */
  lemma {:induction false} JoinSplit(s: string, sep: char)
    ensures JoinWith(SplitOn(s, sep), [sep]) == s
    decreases |s|
  {
    if sep in s {
      var k := IndexOf(s, sep);
      var tail := SplitOn(s[k + 1..], sep);
      JoinSplit(s[k + 1..], sep);
      assert SplitOn(s, sep) == [s[..k]] + tail;
      assert ([s[..k]] + tail)[1..] == tail;
      assert JoinWith([s[..k]] + tail, [sep]) == s[..k] + [sep] + JoinWith(tail, [sep]);
      assert s == s[..k] + [sep] + s[k + 1..];
    }
  }

  /** Splitting a join of separator-free pieces gives the pieces back. */
  lemma {:induction false} SplitJoin(parts: seq<string>, sep: char)
    requires |parts| >= 1
    requires forall i :: 0 <= i < |parts| ==> sep !in parts[i]
    ensures SplitOn(JoinWith(parts, [sep]), sep) == parts
    decreases |parts|
  {
    if |parts| > 1 {
      var rest := JoinWith(parts[1..], [sep]);
      var s := parts[0] + [sep] + rest;
      assert sep !in parts[0];
      SplitFirstPiece(parts[0], sep, rest);
      SplitJoin(parts[1..], sep);
      assert JoinWith(parts, [sep]) == s;
      assert [parts[0]] + parts[1..] == parts;
    }
  }

  /** Splitting a separator-free piece followed by the separator peels that piece off. */
  lemma SplitFirstPiece(a: string, sep: char, rest: string)
    requires sep !in a
    ensures SplitOn(a + [sep] + rest, sep) == [a] + SplitOn(rest, sep)
  {
    var s := a + [sep] + rest;
    assert s[|a|] == sep;
    var k := IndexOf(s, sep);
    assert forall j :: 0 <= j < |a| ==> s[j] == a[j];
    assert forall j :: 0 <= j < k ==> s[..k][j] == s[j];
    assert k == |a|;
    assert s[..k] == a;
    assert s[k + 1..] == rest;
  }

  /** The first line of `s`: the text before its first newline, or all of `s`. */
  function FirstLine(s: string): (r: string)
    ensures StartsWith(s, r) && '\n' !in r
    ensures r == s || s[|r|] == '\n'
  {
    var r := SplitOn(s, '\n')[0];
    if '\n' in s then
      assert r == s[..IndexOf(s, '\n')];
      r
    else r
  }

  // ---------------------------------------------------------------------------
  // Whitespace tokenising: Python's `str.split()` and Rust's `split_whitespace`
  // ---------------------------------------------------------------------------

  /** Length of the leading run of non-blank characters. */
  function TokenEnd(ws: Blanks, s: string): (k: nat)
    ensures k <= |s| && NoBlank(ws, s[..k])
    ensures k == |s| || IsBlank(ws, s[k])
  {
    if |s| == 0 || IsBlank(ws, s[0]) then 0
    else
      var k := TokenEnd(ws, s[1..]);
      assert s[..k + 1] == [s[0]] + s[1..][..k];
      k + 1
  }

  /** A token: a non-empty run of non-blank characters. */
  predicate IsToken(ws: Blanks, t: string) {
    t != [] && NoBlank(ws, t)
  }

  /** The maximal blank-free runs of `s`, in order; never an empty token. */
  function SplitWhitespace(ws: Blanks, s: string): (r: seq<string>)
    ensures forall i :: 0 <= i < |r| ==> IsToken(ws, r[i])
    decreases |s|
  {
    if s == [] then []
    else if IsBlank(ws, s[0]) then SplitWhitespace(ws, s[1..])
    else
      var k := TokenEnd(ws, s);
      [s[..k]] + SplitWhitespace(ws, s[k..])
  }

  /** A line has no tokens exactly when it is blank. */
  lemma {:induction false} SplitWhitespaceEmpty(ws: Blanks, s: string)
    ensures SplitWhitespace(ws, s) == [] <==> AllBlank(ws, s)
    decreases |s|
  {
    if s != [] && IsBlank(ws, s[0]) {
      SplitWhitespaceEmpty(ws, s[1..]);
      assert AllBlank(ws, s) <==> AllBlank(ws, s[1..]) by {
        assert forall i :: 1 <= i < |s| ==> s[i] == s[1..][i - 1];
      }
    }
  }

  /** `s` with every blank removed. */
  function RemoveSpace(ws: Blanks, s: string): (r: string)
    ensures NoBlank(ws, r)
  {
    if s == [] then []
    else if IsBlank(ws, s[0]) then RemoveSpace(ws, s[1..])
    else [s[0]] + RemoveSpace(ws, s[1..])
  }

  function Concat(parts: seq<string>): string {
    if parts == [] then "" else parts[0] + Concat(parts[1..])
  }

  lemma {:induction false} RemoveSpaceAppend(ws: Blanks, a: string, b: string)
    ensures RemoveSpace(ws, a + b) == RemoveSpace(ws, a) + RemoveSpace(ws, b)
    decreases |a|
  {
    if a != [] {
      assert (a + b)[1..] == a[1..] + b;
      RemoveSpaceAppend(ws, a[1..], b);
    } else {
      assert a + b == b;
    }
  }

  lemma {:induction false} RemoveSpaceOfBlank(ws: Blanks, s: string)
    requires AllBlank(ws, s)
    ensures RemoveSpace(ws, s) == []
    decreases |s|
  {
    if s != [] {
      RemoveSpaceOfBlank(ws, s[1..]);
    }
  }

  lemma {:induction false} RemoveSpaceOfSolid(ws: Blanks, s: string)
    requires NoBlank(ws, s)
    ensures RemoveSpace(ws, s) == s
    decreases |s|
  {
    if s != [] {
      RemoveSpaceOfSolid(ws, s[1..]);
    }
  }

  /** The tokens of `s`, glued back together, are exactly the non-blank characters of `s`. */
  lemma {:induction false} SplitWhitespaceKeepsText(ws: Blanks, s: string)
    ensures Concat(SplitWhitespace(ws, s)) == RemoveSpace(ws, s)
    decreases |s|
  {
    if s != [] {
      if IsBlank(ws, s[0]) {
        SplitWhitespaceKeepsText(ws, s[1..]);
      } else {
        var k := TokenEnd(ws, s);
        assert s == s[..k] + s[k..];
        RemoveSpaceAppend(ws, s[..k], s[k..]);
        RemoveSpaceOfSolid(ws, s[..k]);
        SplitWhitespaceKeepsText(ws, s[k..]);
        var r := SplitWhitespace(ws, s);
        assert r[1..] == SplitWhitespace(ws, s[k..]);
      }
    }
  }

  /** The token run of a blank-free prefix stops at the blank after it. */
  lemma {:induction false} TokenEndAt(ws: Blanks, a: string, rest: string)
    requires NoBlank(ws, a)
    requires rest == [] || IsBlank(ws, rest[0])
    ensures TokenEnd(ws, a + rest) == |a|
    decreases |a|
  {
    if a != [] {
      assert (a + rest)[1..] == a[1..] + rest;
      TokenEndAt(ws, a[1..], rest);
    }
  }

  /** A token followed by a blank splits off as the first token. */
  lemma SplitAtBlank(ws: Blanks, a: string, c: char, b: string)
    requires IsToken(ws, a) && IsBlank(ws, c)
    ensures SplitWhitespace(ws, a + [c] + b) == [a] + SplitWhitespace(ws, b)
  {
    var s := a + [c] + b;
    TokenEndAt(ws, a, [c] + b);
    assert s == a + ([c] + b);
    assert s[..|a|] == a;
    assert s[|a|..] == [c] + b;
    assert ([c] + b)[1..] == b;
  }

  /** A blank-free word is its own only token. */
  lemma SplitSolid(ws: Blanks, a: string)
    requires IsToken(ws, a)
    ensures SplitWhitespace(ws, a) == [a]
  {
    TokenEndAt(ws, a, []);
    assert a + [] == a;
    assert a[|a|..] == [];
  }

  /**
   * The two sets differ: an information separator such as U+001C splits a
   * Python line but not a Rust one, while both split on an ideographic space.
   */
  lemma SeparatorSplitsOnlyInPython()
    ensures SplitWhitespace(PythonBlanks, "a\U{001C}b") == ["a", "b"]
    ensures SplitWhitespace(RustBlanks, "a\U{001C}b") == ["a\U{001C}b"]
    ensures SplitWhitespace(RustBlanks, "start\U{3000}b") == ["start", "b"]
  {
    SeparatorSplitsPython();
    SeparatorStaysInRust();
    IdeographicSpaceSplitsRust();
  }

  lemma SeparatorSplitsPython()
    ensures SplitWhitespace(PythonBlanks, "a\U{001C}b") == ["a", "b"]
  {
    assert IsBlank(PythonBlanks, '\U{001C}');
    assert IsToken(PythonBlanks, "a") && IsToken(PythonBlanks, "b");
    assert "a\U{001C}b" == "a" + ['\U{001C}'] + "b";
    SplitAtBlank(PythonBlanks, "a", '\U{001C}', "b");
    SplitSolid(PythonBlanks, "b");
  }

  lemma SeparatorStaysInRust()
    ensures SplitWhitespace(RustBlanks, "a\U{001C}b") == ["a\U{001C}b"]
  {
    var s := "a\U{001C}b";
    assert !IsBlank(RustBlanks, s[0]) && !IsBlank(RustBlanks, s[1]) && !IsBlank(RustBlanks, s[2]);
    assert IsToken(RustBlanks, s);
    SplitSolid(RustBlanks, s);
  }

  lemma IdeographicSpaceSplitsRust()
    ensures SplitWhitespace(RustBlanks, "start\U{3000}b") == ["start", "b"]
  {
    assert IsBlank(RustBlanks, '\U{3000}');
    assert IsToken(RustBlanks, "start") && IsToken(RustBlanks, "b");
    assert "start\U{3000}b" == "start" + ['\U{3000}'] + "b";
    SplitAtBlank(RustBlanks, "start", '\U{3000}', "b");
    SplitSolid(RustBlanks, "b");
  }

  /** `str.strip()` removes a trailing no-break space. */
  lemma NoBreakSpaceIsStripped()
    ensures Strip("Fix\U{00A0}") == "Fix"
  {
    assert TrimLeft("Fix\U{00A0}") == "Fix\U{00A0}";
    assert TrimRight("Fix\U{00A0}") == "Fix" by { assert "Fix\U{00A0}"[..3] == "Fix"; }
  }

  // ---------------------------------------------------------------------------
  // Decimal numbers
  // ---------------------------------------------------------------------------

  predicate IsDigit(c: char) {
    '0' <= c <= '9'
  }

  predicate AllDigits(s: string) {
    forall i :: 0 <= i < |s| ==> IsDigit(s[i])
  }

  function DigitChar(d: nat): (c: char)
    requires d < 10
    ensures IsDigit(c)
  {
    ('0' as int + d) as char
  }

  /** Python's `str(n)` / Rust's `n.to_string()` for a non-negative integer. */
  function NatToString(n: nat): (r: string)
    ensures r != [] && AllDigits(r)
    ensures |r| > 1 ==> r[0] != '0'
  {
    if n < 10 then [DigitChar(n)]
    else
      var p := NatToString(n / 10);
      p + [DigitChar(n % 10)]
  }

  /** `str(i)` for any integer: a minus sign before the magnitude when negative. */
  function IntToString(i: int): (r: string)
    ensures r != []
    ensures i >= 0 ==> AllDigits(r)
    ensures i < 0 ==> r[0] == '-' && AllDigits(r[1..])
  {
    if i < 0 then "-" + NatToString(-i) else NatToString(i)
  }

  function DigitsValue(s: string): nat
    requires AllDigits(s)
  {
    if s == [] then 0
    else DigitsValue(s[..|s| - 1]) * 10 + (s[|s| - 1] as int - '0' as int)
  }

  /** A non-empty run of decimal digits, read as a number. */
  function ParseNat(s: string): Option<nat> {
    if s != [] && AllDigits(s) then Some(DigitsValue(s)) else None
  }

  /** Python's `int(s)` on already-stripped text: an optional sign followed by digits. */
  function ParseInt(s: string): (r: Option<int>)
    ensures r.Some? ==> s != []
  {
    if |s| > 0 && s[0] == '-' then
      match ParseNat(s[1..])
      case Some(n) => Some(0 - n as int)
      case None => None
    else if |s| > 0 && s[0] == '+' then
      match ParseNat(s[1..])
      case Some(n) => Some(n)
      case None => None
    else
      match ParseNat(s)
      case Some(n) => Some(n)
      case None => None
  }

  /** Rendering a number in decimal and reading it back gives the number. */
  lemma {:induction false} ParseNatToString(n: nat)
    ensures ParseNat(NatToString(n)) == Some(n)
  {
    var s := NatToString(n);
    if n < 10 {
      assert s == [DigitChar(n)];
      assert s[..|s| - 1] == [];
      assert s[0] as int - '0' as int == n;
      assert DigitsValue(s) == n;
    } else {
      var p := NatToString(n / 10);
      ParseNatToString(n / 10);
      assert s[..|s| - 1] == p;
      assert s[|s| - 1] as int - '0' as int == n % 10;
    }
  }

  lemma ParseIntToString(n: nat)
    ensures ParseInt(NatToString(n)) == Some(n)
  {
    ParseNatToString(n);
  }

  // ---------------------------------------------------------------------------
  // Case
  // ---------------------------------------------------------------------------

  /**
   * The lower case of one character, for the characters whose lower case in
   * Python is a single ASCII letter: A to Z, and U+212A KELVIN SIGN, which
   * lowers to 'k'. Every other character is kept as it is.
   */
  function LowerChar(c: char): char {
    if 'A' <= c <= 'Z' then (c as int + 32) as char
    else if c == '\U{212A}' then 'k'
    else c
  }

  /**
   * `str.lower()` as far as ASCII letters in the result go: a character lowers
   * to an ASCII letter here exactly when it does in Python (apart from U+0130,
   * whose lower case is 'i' followed by a combining dot).
   */
  function ToLower(s: string): (r: string)
    ensures |r| == |s|
    ensures forall i :: 0 <= i < |s| ==> r[i] == LowerChar(s[i])
  {
    if s == [] then [] else [LowerChar(s[0])] + ToLower(s[1..])
  }
}

=== FILE: tools.dfy ===
/**
 * The remaining MCP tools of src/vibe_git/main.py: the two ways out of a
 * Dirty start (`stash_and_vibe`, `commit_and_vibe`), `vibe_from_here`,
 * `vibe_status`, the startup check `check_orphaned_sessions`, and the
 * SIGINT/SIGTERM handler.
 */
module Tools {
  import opened Base
  import opened Text
  import opened Paths
  import opened Commands
  import opened GitUtils
  import opened Sessions
  import opened Persistence
  import opened Workspace
  import opened Starting

  // ---------------------------------------------------------------------------
  // stash_and_vibe and commit_and_vibe
  // ---------------------------------------------------------------------------

  function StashArgv(): Argv { ["git", "stash", "push", "-m", "Pre-vibe stash"] }
  function WipArgv(): Argv { ["git", "commit", "-m", "WIP: Pre-vibe commit"] }

  const StashNote: string := "\n\n💡 Your changes are stashed. Run 'git stash pop' after vibing to restore them."
  const WipNote: string := "\n\n✅ Your changes were committed as 'WIP: Pre-vibe commit'"

  /** `git stash push -m "Pre-vibe stash"`. */
  function Stash(env: Env, trace: Trace, repo: Path): (r: Ran)
    ensures r.trace == trace + [StashArgv()]
    ensures r.outcome == Collect(env.proc(trace, StashArgv()))
  {
    assert ["git"] + ["stash", "push", "-m", "Pre-vibe stash"] == StashArgv();
    Git(env, trace, repo, ["stash", "push", "-m", "Pre-vibe stash"])
  }

  /** How the WIP commit of `commit_and_vibe` went. */
  datatype Wip = AddFailed(trace: Trace) | CommitFailed(out: string, trace: Trace) | Committed(trace: Trace)

  /** `git add .`, then `git commit -m "WIP: Pre-vibe commit"` only if the add succeeded. */
  function CommitWip(env: Env, trace: Trace, repo: Path): (r: Wip)
    ensures !Collect(env.proc(trace, AddAllArgv)).ok ==> r == AddFailed(trace + [AddAllArgv])
    ensures Collect(env.proc(trace, AddAllArgv)).ok ==>
      var commit := Collect(env.proc(trace + [AddAllArgv], WipArgv()));
      && (commit.ok ==> r == Committed(trace + [AddAllArgv, WipArgv()]))
      && (!commit.ok ==> r == CommitFailed(commit.out, trace + [AddAllArgv, WipArgv()]))
  {
    var add := AddAll(env, trace, repo);
    if !add.outcome.ok then AddFailed(add.trace)
    else
      var commit := WipCommit(env, add.trace, repo);
      AppendTwo(trace, AddAllArgv, WipArgv());
      if commit.outcome.ok then Committed(commit.trace) else CommitFailed(commit.outcome.out, commit.trace)
  }

  /** `git add .`. */
  function AddAll(env: Env, trace: Trace, repo: Path): (r: Ran)
    ensures r.trace == trace + [AddAllArgv]
    ensures r.outcome == Collect(env.proc(trace, AddAllArgv))
  {
    assert ["git"] + ["add", "."] == AddAllArgv;
    Git(env, trace, repo, ["add", "."])
  }

  /** `git commit -m "WIP: Pre-vibe commit"`. */
  function WipCommit(env: Env, trace: Trace, repo: Path): (r: Ran)
    ensures r.trace == trace + [WipArgv()]
    ensures r.outcome == Collect(env.proc(trace, WipArgv()))
  {
    assert ["git"] + ["commit", "-m", "WIP: Pre-vibe commit"] == WipArgv();
    Git(env, trace, repo, ["commit", "-m", "WIP: Pre-vibe commit"])
  }

  /** How `stash_and_vibe` and `commit_and_vibe` ended. */
  datatype Prep =
    | PrepOutside(error: string)          // not in a repository
    | NothingToSave                       // clean tree: the call ends here
    | StashFailed(out: string)
    | AddFailedPrep
    | WipFailed(out: string)
    | Restarted(start: StartResult)       // changes put away, then an Idle start

  datatype PrepOut = PrepOut(prep: Prep, ctx: Ctx)

  /**
   * The common ending of both tools: the session is forced to Idle, whatever
   * it was, and an Idle start is run.
   */
  function RestartFromIdle(env: Env, c: Ctx, repo: Path): (r: PrepOut)
    ensures var out := StartIdle(env, c.(state := Idle), repo);
      r == PrepOut(Restarted(out.result), out.ctx)
  {
    var out := StartIdle(env, c.(state := Idle), repo);
    PrepOut(Restarted(out.result), out.ctx)
  }

  /**
   * `stash_and_vibe`. A clean tree ends the call and nothing is started.
   * Otherwise the changes are stashed and a start runs from a forced Idle.
   */
  function StashAndVibe(env: Env, c: Ctx): (r: PrepOut)
    ensures FindGitRepo(env.cwd, env.present).Err? ==> r == PrepOut(PrepOutside(NotInRepository), c)
    ensures FindGitRepo(env.cwd, env.present).Ok? ==>
      var repo := FindGitRepo(env.cwd, env.present).value;
      var ch := HasUncommittedChanges(env, c.trace, repo);
      var st := Stash(env, ch.trace, repo);
      && (!ch.value.dirty ==> r == PrepOut(NothingToSave, c.(trace := ch.trace)))
      && (ch.value.dirty && !st.outcome.ok ==> r == PrepOut(StashFailed(st.outcome.out), c.(trace := st.trace)))
      && (ch.value.dirty && st.outcome.ok ==> r == RestartFromIdle(env, c.(trace := st.trace), repo))
  {
    match FindGitRepo(env.cwd, env.present)
    case Err(e) => PrepOut(PrepOutside(e), c)
    case Ok(repo) =>
      var ch := HasUncommittedChanges(env, c.trace, repo);
      if !ch.value.dirty then PrepOut(NothingToSave, c.(trace := ch.trace))
      else
        var st := Stash(env, ch.trace, repo);
        if !st.outcome.ok then PrepOut(StashFailed(st.outcome.out), c.(trace := st.trace))
        else RestartFromIdle(env, c.(trace := st.trace), repo)
  }

  /**
   * `commit_and_vibe`. A clean tree ends the call; otherwise everything is
   * added and committed as "WIP: Pre-vibe commit" (hooks run), and a start
   * runs from a forced Idle.
   */
  function CommitAndVibe(env: Env, c: Ctx): (r: PrepOut)
    ensures FindGitRepo(env.cwd, env.present).Err? ==> r == PrepOut(PrepOutside(NotInRepository), c)
    ensures FindGitRepo(env.cwd, env.present).Ok? ==>
      var repo := FindGitRepo(env.cwd, env.present).value;
      var ch := HasUncommittedChanges(env, c.trace, repo);
      && (!ch.value.dirty ==> r == PrepOut(NothingToSave, c.(trace := ch.trace)))
      && (ch.value.dirty ==> r == AfterWip(env, c, repo, CommitWip(env, ch.trace, repo)))
  {
    match FindGitRepo(env.cwd, env.present)
    case Err(e) => PrepOut(PrepOutside(e), c)
    case Ok(repo) =>
      var ch := HasUncommittedChanges(env, c.trace, repo);
      if !ch.value.dirty then PrepOut(NothingToSave, c.(trace := ch.trace))
      else AfterWip(env, c, repo, CommitWip(env, ch.trace, repo))
  }

  /** What follows the WIP commit: a failure changes only the trace; a commit leads to the restart. */
  function AfterWip(env: Env, c: Ctx, repo: Path, w: Wip): (r: PrepOut)
    ensures !w.Committed? ==> r.ctx == c.(trace := w.trace)
    ensures w.AddFailed? ==> r.prep == AddFailedPrep
    ensures w.CommitFailed? ==> r.prep == WipFailed(w.out)
    ensures w.Committed? ==> r == RestartFromIdle(env, c.(trace := w.trace), repo)
  {
    match w
    case AddFailed(t) => PrepOut(AddFailedPrep, c.(trace := t))
    case CommitFailed(out, t) => PrepOut(WipFailed(out), c.(trace := t))
    case Committed(t) => RestartFromIdle(env, c.(trace := t), repo)
  }

  /** The text of either tool; `stash` says which one. A restart's text is the start's, with a note appended. */
  function PrepText(p: Prep, stash: bool): string {
    match p
    case PrepOutside(e) => "❌ Error: " + e
    case NothingToSave =>
      (if stash then "No changes to stash." else "No changes to commit.") + " Proceeding to start vibe session..."
    case StashFailed(out) => "❌ Error stashing changes: " + out
    case AddFailedPrep => "❌ Error adding changes. Check if files are ignored by .gitignore"
    case WipFailed(out) => "❌ Error committing changes: " + out
    case Restarted(start) =>
      if start.kind.LoadRaised? then "❌ Error: " + start.kind.error
      else StartMessage(start.kind) + (if stash then StashNote else WipNote)
  }

  /**
   * The forced Idle of both tools ignores the transition table: from Vibing
   * it leaves the old watcher running (its observer is never stopped), and a
   * session that starts again gets a new watcher.
   */
  lemma {:induction false} RestartLeaksWatcher(env: Env, c: Ctx, repo: Path)
    requires Valid(c) && c.state.Vibing?
    ensures var r := RestartFromIdle(env, c, repo);
      && (c.state.watcher in r.ctx.running <==> c.state.watcher in c.running)
      && (r.ctx.state.Vibing? ==> r.ctx.state.watcher != c.state.watcher)
  {
    var c2 := c.(state := Idle);
    StartIdleWatchers(env, c2, repo);
    LeakedWatcher(c, StartIdle(env, c2, repo).ctx);
  }

  /** An Idle start allocates the next handle exactly when it ends Vibing, and stops no watcher. */
  lemma StartIdleWatchers(env: Env, c: Ctx, repo: Path)
    requires c.state.Idle?
    ensures var r := StartIdle(env, c, repo).ctx;
      && (r.state.Vibing? ==> r.state.watcher == c.nextWatcher && r.running == c.running + {c.nextWatcher})
      && (!r.state.Vibing? ==> r.running == c.running)
  {
    IdleStartSuccessIsVibing(env, c, repo);
    assert StartFromState(env, c, repo) == StartIdle(env, c, repo);
  }

  lemma LeakedWatcher(c: Ctx, r: Ctx)
    requires Valid(c) && c.state.Vibing?
    requires r.state.Vibing? ==> r.state.watcher == c.nextWatcher && r.running == c.running + {c.nextWatcher}
    requires !r.state.Vibing? ==> r.running == c.running
    ensures c.state.watcher in r.running <==> c.state.watcher in c.running
    ensures r.state.Vibing? ==> r.state.watcher != c.state.watcher
  {
  }

  /**
   * `stash_and_vibe` issues the stash exactly when the tree is dirty: right
   * after the status query. A restart succeeds exactly when the session ends
   * Vibing, and everything it issues comes after the stash.
   */
  lemma {:induction false} StashOnlyWhenDirty(env: Env, c: Ctx)
    requires FindGitRepo(env.cwd, env.present).Ok?
    ensures var repo := FindGitRepo(env.cwd, env.present).value;
      var dirty := HasUncommittedChanges(env, c.trace, repo).value.dirty;
      var r := StashAndVibe(env, c);
      && (!dirty ==> r.ctx.trace == c.trace + [Porcelain])
      && (dirty ==> Extends(r.ctx.trace, c.trace + [Porcelain, StashArgv()]))
      && (r.prep.Restarted? ==> (r.prep.start.success <==> r.ctx.state.Vibing?))
  {
    var repo := FindGitRepo(env.cwd, env.present).value;
    if HasUncommittedChanges(env, c.trace, repo).value.dirty {
      DirtyStashExtends(env, c, repo);
      DirtyStashRestart(env, c, repo);
    }
  }

  /** With changes, the stash command follows the status query and the rest only adds commands. */
  lemma DirtyStashExtends(env: Env, c: Ctx, repo: Path)
    requires FindGitRepo(env.cwd, env.present) == Ok(repo)
    requires HasUncommittedChanges(env, c.trace, repo).value.dirty
    ensures Extends(StashAndVibe(env, c).ctx.trace, c.trace + [Porcelain, StashArgv()])
  {
    var st := Stash(env, HasUncommittedChanges(env, c.trace, repo).trace, repo);
    StashFollowsStatus(env, c.trace, repo);
    if st.outcome.ok {
      StashedRestartExtends(env, c, repo, st);
    } else {
      FailedStashExtends(env, c, repo, st);
    }
  }

  /** The stash is issued right after the status query. */
  lemma StashFollowsStatus(env: Env, trace: Trace, repo: Path)
    ensures Stash(env, HasUncommittedChanges(env, trace, repo).trace, repo).trace == trace + [Porcelain, StashArgv()]
  {
    AppendTwo(trace, Porcelain, StashArgv());
  }

  lemma StashedRestartExtends(env: Env, c: Ctx, repo: Path, st: Ran)
    requires FindGitRepo(env.cwd, env.present) == Ok(repo)
    requires HasUncommittedChanges(env, c.trace, repo).value.dirty
    requires st == Stash(env, HasUncommittedChanges(env, c.trace, repo).trace, repo) && st.outcome.ok
    ensures Extends(StashAndVibe(env, c).ctx.trace, st.trace)
  {
    assert StashAndVibe(env, c) == RestartFromIdle(env, c.(trace := st.trace), repo);
    RestartShape(env, c.(trace := st.trace), repo);
  }

  lemma FailedStashExtends(env: Env, c: Ctx, repo: Path, st: Ran)
    requires FindGitRepo(env.cwd, env.present) == Ok(repo)
    requires HasUncommittedChanges(env, c.trace, repo).value.dirty
    requires st == Stash(env, HasUncommittedChanges(env, c.trace, repo).trace, repo) && !st.outcome.ok
    ensures Extends(StashAndVibe(env, c).ctx.trace, st.trace)
  {
    assert StashAndVibe(env, c).ctx.trace == st.trace;
    ExtendsAppend(st.trace, []);
    assert st.trace + [] == st.trace;
  }

  /** With changes, a restart reports success exactly when it ends Vibing. */
  lemma DirtyStashRestart(env: Env, c: Ctx, repo: Path)
    requires FindGitRepo(env.cwd, env.present) == Ok(repo)
    requires HasUncommittedChanges(env, c.trace, repo).value.dirty
    ensures var r := StashAndVibe(env, c);
      r.prep.Restarted? ==> (r.prep.start.success <==> r.ctx.state.Vibing?)
  {
    var ch := HasUncommittedChanges(env, c.trace, repo);
    var st := Stash(env, ch.trace, repo);
    if st.outcome.ok {
      RestartShape(env, c.(trace := st.trace), repo);
    }
  }

  /** A restart only adds commands, and its start succeeds exactly when it ends Vibing. */
  lemma RestartShape(env: Env, c: Ctx, repo: Path)
    ensures var r := RestartFromIdle(env, c, repo);
      && Extends(r.ctx.trace, c.trace)
      && r.prep.Restarted? && (r.prep.start.success <==> r.ctx.state.Vibing?)
  {
    var c2 := c.(state := Idle);
    IdleStartSuccessIsVibing(env, c2, repo);
    StartExtendsTrace(env, c2, repo);
    assert StartFromState(env, c2, repo) == StartIdle(env, c2, repo);
  }

  // ---------------------------------------------------------------------------
  // vibe_from_here
  // ---------------------------------------------------------------------------

  /** The branch `vibe_from_here` will watch: the current vibe branch, or a new `vibe-<now>`. */
  datatype Target = NoBranch(trace: Trace) | CreateFailed(out: string, trace: Trace) | OnBranch(branch: string, trace: Trace)

  /**
   * Given the current branch (main.py's query), a vibe branch is kept; from
   * any other branch a new `vibe-<now>` is created.
   */
  function ChooseBranch(env: Env, cur: Query<Option<string>>, repo: Path): (r: Target)
    ensures cur.value.None? ==> r == NoBranch(cur.trace)
    ensures cur.value.Some? && IsVibeBranch(cur.value.value) ==> r == OnBranch(cur.value.value, cur.trace)
    ensures cur.value.Some? && !IsVibeBranch(cur.value.value) ==> r == MakeBranch(env, cur.trace, repo)
    ensures r.OnBranch? ==> IsVibeBranch(r.branch)
  {
    match cur.value
    case None => NoBranch(cur.trace)
    case Some(b) => if IsVibeBranch(b) then OnBranch(b, cur.trace) else MakeBranch(env, cur.trace, repo)
  }

  /** `checkout -b vibe-<now>`. */
  function MakeBranch(env: Env, trace: Trace, repo: Path): (r: Target)
    ensures var made := CreateBranch(env, trace, repo, VibeBranchName(env.now));
      && (made.outcome.ok ==> r == OnBranch(VibeBranchName(env.now), made.trace))
      && (!made.outcome.ok ==> r == CreateFailed(made.outcome.out, made.trace))
    ensures r.OnBranch? ==> IsVibeBranch(r.branch)
  {
    var made := CreateBranch(env, trace, repo, VibeBranchName(env.now));
    if made.outcome.ok then OnBranch(VibeBranchName(env.now), made.trace) else CreateFailed(made.outcome.out, made.trace)
  }

  /** How `vibe_from_here` ended. */
  datatype FromHere =
    | AlreadyHere
    | FromHereOutside(error: string)
    | NoCurrentBranch
    | FromHereCreateFailed(out: string)
    | StartedHere(branch: string, dirty: bool)

  datatype FromHereOut = FromHereOut(result: FromHere, ctx: Ctx)

  /**
   * `vibe_from_here`. Outside Vibing, a watcher is started on the chosen
   * branch and the session becomes Vibing there, whatever it was before (Dirty
   * included). Nothing is saved to disk.
   */
  function VibeFromHere(env: Env, c: Ctx): (r: FromHereOut)
    ensures c.state.Vibing? ==> r == FromHereOut(AlreadyHere, c)
    ensures !c.state.Vibing? && FindGitRepo(env.cwd, env.present).Err? ==>
      r == FromHereOut(FromHereOutside(NotInRepository), c)
    ensures !c.state.Vibing? && FindGitRepo(env.cwd, env.present).Ok? ==>
      var repo := FindGitRepo(env.cwd, env.present).value;
      r == WatchHere(env, c, repo, ChooseBranch(env, MainCurrentBranch(env, c.trace, repo), repo))
  {
    if c.state.Vibing? then FromHereOut(AlreadyHere, c)
    else
      match FindGitRepo(env.cwd, env.present)
      case Err(e) => FromHereOut(FromHereOutside(e), c)
      case Ok(repo) => WatchHere(env, c, repo, ChooseBranch(env, MainCurrentBranch(env, c.trace, repo), repo))
  }

  /**
   * Watching the chosen branch: a fresh watcher, the Vibing state, then the
   * status query; uncommitted changes set the new watcher's Event at once.
   */
  function WatchHere(env: Env, c: Ctx, repo: Path, t: Target): (r: FromHereOut)
    ensures t.NoBranch? ==> r == FromHereOut(NoCurrentBranch, c.(trace := t.trace))
    ensures t.CreateFailed? ==> r == FromHereOut(FromHereCreateFailed(t.out), c.(trace := t.trace))
    ensures t.OnBranch? ==>
      var ch := HasUncommittedChanges(env, t.trace, repo);
      var w := c.nextWatcher;
      && r.result == StartedHere(t.branch, ch.value.dirty)
      && r.ctx.state == Vibing(t.branch, w) && r.ctx.trace == t.trace + [Porcelain]
      && r.ctx.running == c.running + {w} && r.ctx.nextWatcher == w + 1 && r.ctx.store == c.store
      && r.ctx.signalled == (if ch.value.dirty then c.signalled + {w} else c.signalled)
  {
    match t
    case NoBranch(tr) => FromHereOut(NoCurrentBranch, c.(trace := tr))
    case CreateFailed(out, tr) => FromHereOut(FromHereCreateFailed(out), c.(trace := tr))
    case OnBranch(b, tr) =>
      var watched := StartWatcher(c.(trace := tr), b);
      var ch := HasUncommittedChanges(env, tr, repo);
      var w := c.nextWatcher;
      var set_ := if ch.value.dirty then c.signalled + {w} else c.signalled;
      FromHereOut(StartedHere(b, ch.value.dirty), watched.ctx.(state := watched.state, trace := ch.trace, signalled := set_))
  }

  function FromHereText(f: FromHere): string {
    match f
    case AlreadyHere => AlreadyVibingMessage
    case FromHereOutside(e) => "❌ Error starting vibe session: " + e
    case NoCurrentBranch => "❌ Error: Could not determine current branch"
    case FromHereCreateFailed(out) => "❌ Error creating branch: " + out
    case StartedHere(b, dirty) =>
      "🚀 Started vibing on branch '" + b + "'! "
      + (if dirty then "Existing uncommitted changes will be auto-committed shortly." else "Auto-committing future changes.")
  }

  /**
   * `vibe_from_here` keeps the handle invariant and never touches the store,
   * so unlike `start_vibing` it saves nothing for a later resume.
   */
  lemma {:induction false} VibeFromHereKeepsValid(env: Env, c: Ctx)
    requires Valid(c)
    ensures Valid(VibeFromHere(env, c).ctx) && VibeFromHere(env, c).ctx.store == c.store
  {
    if !c.state.Vibing? && FindGitRepo(env.cwd, env.present).Ok? {
      var repo := FindGitRepo(env.cwd, env.present).value;
      WatchHereKeepsValid(env, c, repo, ChooseBranch(env, MainCurrentBranch(env, c.trace, repo), repo));
    }
  }

  lemma WatchHereKeepsValid(env: Env, c: Ctx, repo: Path, t: Target)
    requires Valid(c)
    ensures Valid(WatchHere(env, c, repo, t).ctx) && WatchHere(env, c, repo, t).ctx.store == c.store
  {
    if t.OnBranch? {
      ValidAfterAllocation(c, WatchHere(env, c, repo, t).ctx);
    }
  }

  /**
   * A successful `vibe_from_here` is exactly the move into Vibing: it ends on
   * a vibe branch with a fresh watcher, whose Event is set exactly when the
   * tree was dirty.
   */
  lemma {:induction false} VibeFromHereStarts(env: Env, c: Ctx)
    requires Valid(c)
    ensures var r := VibeFromHere(env, c);
      && (r.result.StartedHere? <==> r.ctx.state.Vibing? && !c.state.Vibing?)
      && (r.result.StartedHere? ==>
            && r.ctx.state == Vibing(r.result.branch, c.nextWatcher) && IsVibeBranch(r.result.branch)
            && c.nextWatcher !in c.running && r.ctx.running == c.running + {c.nextWatcher}
            && (c.nextWatcher in r.ctx.signalled <==> r.result.dirty))
  {
    if !c.state.Vibing? && FindGitRepo(env.cwd, env.present).Ok? {
      var repo := FindGitRepo(env.cwd, env.present).value;
      WatchHereStarts(env, c, repo, ChooseBranch(env, MainCurrentBranch(env, c.trace, repo), repo));
    }
  }

  lemma WatchHereStarts(env: Env, c: Ctx, repo: Path, t: Target)
    requires Valid(c) && !c.state.Vibing?
    requires t.OnBranch? ==> IsVibeBranch(t.branch)
    ensures var r := WatchHere(env, c, repo, t);
      && (r.result.StartedHere? <==> r.ctx.state.Vibing?)
      && (r.result.StartedHere? ==>
            && r.ctx.state == Vibing(r.result.branch, c.nextWatcher) && IsVibeBranch(r.result.branch)
            && c.nextWatcher !in c.running && r.ctx.running == c.running + {c.nextWatcher}
            && (c.nextWatcher in r.ctx.signalled <==> r.result.dirty))
  {
    if t.OnBranch? {
      assert c.nextWatcher !in c.signalled && c.nextWatcher !in c.running;
    }
  }

  /** Every ending of `vibe_from_here` other than a start leaves everything but the trace as it was. */
  lemma {:induction false} VibeFromHereFailureKeepsCtx(env: Env, c: Ctx)
    ensures var r := VibeFromHere(env, c);
      !r.result.StartedHere? ==> r.ctx == c.(trace := r.ctx.trace)
  {
    if !c.state.Vibing? && FindGitRepo(env.cwd, env.present).Ok? {
      var repo := FindGitRepo(env.cwd, env.present).value;
      var t := ChooseBranch(env, MainCurrentBranch(env, c.trace, repo), repo);
      assert VibeFromHere(env, c) == WatchHere(env, c, repo, t);
    }
  }

  // ---------------------------------------------------------------------------
  // vibe_status
  // ---------------------------------------------------------------------------

  /** The five answers of `vibe_status`. */
  datatype Status = Active(branch: string) | DirtyOn(branch: string) | VibeBranchIdle(branch: string) | IdleReady | NotInitialized(error: string)

  /** The light and headline an answer opens with. */
  function StatusLabel(s: Status): (r: string)
    ensures |r| > 1 && r[1] == ' '
  {
    match s
    case Active(_) => "🟢 VIBING: "
    case DirtyOn(_) => "🟡 DIRTY: "
    case VibeBranchIdle(_) => "🟡 VIBE BRANCH DETECTED: "
    case IdleReady => "🔵 IDLE: "
    case NotInitialized(_) => "⚪ NOT INITIALIZED: "
  }

  function StatusDetail(s: Status): string {
    match s
    case Active(b) => "Active session on branch '" + b + "' - auto-committing changes on file modifications"
    case DirtyOn(b) => "Uncommitted changes on branch '" + b + "'. Choose commit_and_vibe(), stash_and_vibe(), or vibe_from_here()."
    case VibeBranchIdle(b) =>
      "On branch '" + b + "' but session is idle. Call start_vibing() to resume or vibe_from_here() to restart watching."
    case IdleReady => "Ready to start vibing. Call start_vibing() to begin!"
    case NotInitialized(e) => "Error checking repository status: " + e
  }

  function StatusText(s: Status): (r: string)
    ensures |r| > 0 && r[0] == StatusLabel(s)[0]
  {
    StatusLabel(s) + StatusDetail(s)
  }

  datatype StatusOut = StatusOut(status: Status, ctx: Ctx)

  /**
   * `vibe_status`. The current branch is always queried. A Vibing session on
   * another branch is reset to Idle on the spot (its watcher keeps running)
   * and the answer is then worked out as for Idle.
   */
  function VibeStatus(env: Env, c: Ctx): (r: StatusOut)
    ensures FindGitRepo(env.cwd, env.present).Err? ==> r == StatusOut(NotInitialized(NotInRepository), c)
    ensures FindGitRepo(env.cwd, env.present).Ok? ==>
      var cur := MainCurrentBranch(env, c.trace, FindGitRepo(env.cwd, env.present).value);
      && r.ctx.trace == cur.trace
      && r.ctx.running == c.running && r.ctx.signalled == c.signalled && r.ctx.store == c.store
      && r.ctx.nextWatcher == c.nextWatcher
      && (r.status.Active? <==> c.state.Vibing? && cur.value == Some(c.state.branch))
      && (r.status.Active? ==> r.status.branch == c.state.branch && r.ctx.state == c.state)
      && (r.status.DirtyOn? <==> c.state.Dirty?)
      && (r.status.DirtyOn? ==> r.status.branch == c.state.branch && r.ctx.state == c.state)
      && (r.status.VibeBranchIdle? <==>
            !c.state.Dirty? && !(c.state.Vibing? && cur.value == Some(c.state.branch))
            && cur.value.Some? && IsVibeBranch(cur.value.value))
      && (r.status.VibeBranchIdle? ==> Some(r.status.branch) == cur.value)
      && !r.status.NotInitialized?
      && (r.status.VibeBranchIdle? || r.status.IdleReady? ==> r.ctx.state == Idle && (c.state.Idle? || c.state.Vibing?))
  {
    match FindGitRepo(env.cwd, env.present)
    case Err(e) => StatusOut(NotInitialized(e), c)
    case Ok(repo) =>
      var cur := MainCurrentBranch(env, c.trace, repo);
      var c1 := c.(trace := cur.trace);
      if c.state.Vibing? && cur.value == Some(c.state.branch) then StatusOut(Active(c.state.branch), c1)
      else
        var c2 := if c.state.Vibing? then c1.(state := Idle) else c1;
        if c2.state.Dirty? then StatusOut(DirtyOn(c2.state.branch), c2)
        else if cur.value.Some? && IsVibeBranch(cur.value.value) then StatusOut(VibeBranchIdle(cur.value.value), c2)
        else StatusOut(IdleReady, c2)
  }

  /** `vibe_status` as the tool returns it. */
  function VibeStatusTool(env: Env, c: Ctx): (r: Reply)
    ensures r.ctx == VibeStatus(env, c).ctx
  {
    var s := VibeStatus(env, c);
    Reply(StatusText(s.status), s.ctx)
  }

  /**
   * A status query that finds a Vibing session on the wrong branch drops the
   * session but not its watcher: the observer still runs, with no state
   * pointing at it.
   */
  lemma StatusResetLeaksWatcher(env: Env, c: Ctx)
    requires FindGitRepo(env.cwd, env.present).Ok? && c.state.Vibing?
    requires MainCurrentBranch(env, c.trace, FindGitRepo(env.cwd, env.present).value).value != Some(c.state.branch)
    ensures var r := VibeStatus(env, c).ctx;
      r.state == Idle && r.running == c.running && (c.state.watcher in c.running ==> c.state.watcher in r.running)
  {
  }

  /**
   * The leading light tells the answers apart: green only for an active
   * session, yellow for Dirty or an idle vibe branch, blue for ready, white
   * for an error.
   */
  lemma StatusLight(s: Status)
    ensures StatusText(s)[0] == '🟢' <==> s.Active?
    ensures StatusText(s)[0] == '🟡' <==> s.DirtyOn? || s.VibeBranchIdle?
    ensures StatusText(s)[0] == '🔵' <==> s.IdleReady?
    ensures StatusText(s)[0] == '⚪' <==> s.NotInitialized?
  {
    var head := StatusLabel(s);
    match s
    case Active(_) => assert head[0] == '🟢';
    case DirtyOn(_) => assert head[0] == '🟡';
    case VibeBranchIdle(_) => assert head[0] == '🟡';
    case IdleReady => assert head[0] == '🔵';
    case NotInitialized(_) => assert head[0] == '⚪';
  }

  // ---------------------------------------------------------------------------
  // check_orphaned_sessions
  // ---------------------------------------------------------------------------

  /** `str()` of an optional branch: Python renders None as "None". */
  function PyStr(o: Option<string>): string {
    if o.Some? then o.value else "None"
  }

  /** What the startup check reports. */
  datatype Orphan =
    | NothingFound
    | StaleCleared(branch: string)
    | FoundHere(branch: string)
    | Orphaned(branch: string, current: Option<string>)
    | CheckFailed(error: string)          // an exception other than RuntimeError

  datatype Startup = Startup(report: Orphan, ctx: Ctx)

  /**
   * `check_orphaned_sessions`, run at import time. Outside a repository, with
   * no state file, or with one that does not load, there is nothing to report
   * (loading removes a bad file). A file that cannot be read at all raises,
   * and the error is reported. Otherwise the saved session is judged.
   */
  function CheckOrphanedSessions(env: Env, c: Ctx, parseTime: string -> Option<int>): (r: Startup)
    ensures FindGitRepo(env.cwd, env.present).Err? || !HasSession(c.store) ==> r == Startup(NothingFound, c)
    ensures FindGitRepo(env.cwd, env.present).Ok? && HasSession(c.store) ==>
      && (Load(c.store).Err? ==> r == Startup(CheckFailed(Load(c.store).message), c))
      && (Load(c.store).Ok? ==>
            var l := Load(c.store).value;
            && (l.session.None? ==> r == Startup(NothingFound, c.(store := l.store)))
            && (l.session.Some? ==>
                  r == JudgeSession(env, c, FindGitRepo(env.cwd, env.present).value, l.session.value, parseTime)))
  {
    match FindGitRepo(env.cwd, env.present)
    case Err(_) => Startup(NothingFound, c)
    case Ok(repo) =>
      if !HasSession(c.store) then Startup(NothingFound, c)
      else
        match Load(c.store)
        case Err(e) => Startup(CheckFailed(e), c)
        case Ok(l) =>
          match l.session
          case None => Startup(NothingFound, c.(store := l.store))
          case Some(saved) => JudgeSession(env, c, repo, saved, parseTime)
  }

  /**
   * A loaded session strictly older than 24 hours is deleted; a younger one
   * is compared with the current branch. The staleness test loads the file
   * again, and a raise there is reported like any other error.
   */
  function JudgeSession(env: Env, c: Ctx, repo: Path, saved: Persisted, parseTime: string -> Option<int>): (r: Startup)
    ensures var stale := IsSessionStale(c.store, 24, env.now, parseTime);
      && (stale.Err? ==> r == Startup(CheckFailed(stale.message), c))
      && (stale.Ok? && stale.value.value ==>
            r == Startup(StaleCleared(saved.branch), c.(store := Delete(stale.value.store, env.nowIso))))
      && (stale.Ok? && !stale.value.value ==>
            r == Resumable(c.(store := stale.value.store), saved, CurrentBranch(env, c.trace, repo)))
  {
    match IsSessionStale(c.store, 24, env.now, parseTime)
    case Err(e) => Startup(CheckFailed(e), c)
    case Ok(stale) =>
      if stale.value then Startup(StaleCleared(saved.branch), c.(store := Delete(stale.store, env.nowIso)))
      else Resumable(c.(store := stale.store), saved, CurrentBranch(env, c.trace, repo))
  }

  /**
   * Given the current branch (git_utils' query), a live session can simply be
   * resumed when it is the session's branch and is orphaned otherwise.
   */
  function Resumable(c: Ctx, saved: Persisted, cur: Query<Option<string>>): (r: Startup)
    ensures r.ctx == c.(trace := cur.trace)
    ensures cur.value == Some(saved.branch) ==> r.report == FoundHere(saved.branch)
    ensures cur.value != Some(saved.branch) ==> r.report == Orphaned(saved.branch, cur.value)
  {
    if cur.value == Some(saved.branch) then Startup(FoundHere(saved.branch), c.(trace := cur.trace))
    else Startup(Orphaned(saved.branch, cur.value), c.(trace := cur.trace))
  }

  /** The startup message, or None. */
  function OrphanText(o: Orphan): Option<string> {
    match o
    case NothingFound => None
    case StaleCleared(b) => Some("⚠️ Found stale vibe session on branch '" + b + "' (older than 24 hours). Session cleared.")
    case FoundHere(b) => Some("📍 Found existing vibe session on branch '" + b + "'. Use start_vibing() to resume.")
    case Orphaned(b, cur) =>
      Some("⚠️ Found orphaned vibe session on branch '" + b + "'. Current branch is '" + PyStr(cur)
           + "'. Use start_vibing() to resume or stop_vibing() to clean up.")
    case CheckFailed(e) => Some("⚠️ Error checking for orphaned sessions: " + e)
  }

  /**
   * A session saved by a start and at most 24 hours old is not cleared: the
   * startup check goes straight to comparing branches, with the store as saved.
   */
  lemma {:induction false} FreshSavedSessionIsJudged(env: Env, c: Ctx, p: Persisted, savedAt: string, parseTime: string -> Option<int>)
    requires FindGitRepo(env.cwd, env.present).Ok?
    requires parseTime(p.sessionStart).Some? && env.now - parseTime(p.sessionStart).value <= 24 * 3600
    ensures var st := Save(c.store, p, savedAt);
      CheckOrphanedSessions(env, c.(store := st), parseTime)
        == Resumable(c.(store := st), p, CurrentBranch(env, c.trace, FindGitRepo(env.cwd, env.present).value))
  {
    var st := Save(c.store, p, savedAt);
    SaveThenLoad(c.store, p, savedAt);
    var stale := IsSessionStale(st, 24, env.now, parseTime);
    assert stale == Ok(Answer(false, st));
  }

  /**
   * A state file that is not UTF-8 is not a RuntimeError: the startup check
   * reports the decoding error instead of staying silent, and keeps the file.
   */
  lemma UndecodableStateIsReported(env: Env, c: Ctx, parseTime: string -> Option<int>)
    requires FindGitRepo(env.cwd, env.present).Ok? && c.store.file.Undecodable?
    ensures CheckOrphanedSessions(env, c, parseTime) == Startup(CheckFailed(c.store.file.error), c)
    ensures OrphanText(CheckOrphanedSessions(env, c, parseTime).report)
      == Some("⚠️ Error checking for orphaned sessions: " + c.store.file.error)
  {
  }

  /** A stale session is deleted: afterwards there is no session to resume, and the deletion is logged. */
  lemma StaleSessionIsDeleted(env: Env, c: Ctx, parseTime: string -> Option<int>)
    requires CheckOrphanedSessions(env, c, parseTime).report.StaleCleared?
    ensures var r := CheckOrphanedSessions(env, c, parseTime);
      && !HasSession(r.ctx.store) && Load(r.ctx.store) == Ok(Loaded(None, r.ctx.store))
      && r.ctx.store.events == c.store.events + [SessionEnded(env.nowIso)]
      && r.ctx.state == c.state && r.ctx.trace == c.trace
  {
    var repo := FindGitRepo(env.cwd, env.present);
    assert repo.Ok? && HasSession(c.store);
    var l := Load(c.store);
    assert l.Ok? && l.value.session.Some?;
    var stale := IsSessionStale(c.store, 24, env.now, parseTime);
    assert stale.Ok? && stale.value.value;
    var after := Delete(stale.value.store, env.nowIso);
    assert CheckOrphanedSessions(env, c, parseTime).ctx == c.(store := after);
    DeleteThenLoad(stale.value.store, env.nowIso);
  }

  // ---------------------------------------------------------------------------
  // signal_handler
  // ---------------------------------------------------------------------------

  /** SIGINT/SIGTERM: a Vibing session's observer is stopped and the session goes Idle (then the process exits). */
  function SignalHandler(c: Ctx): (r: Ctx)
    ensures r.state == Idle && r.trace == c.trace && r.store == c.store && r.signalled == c.signalled
    ensures c.state.Vibing? ==> r.running == c.running - {c.state.watcher}
    ensures !c.state.Vibing? ==> r.running == c.running
    ensures Valid(c) ==> Valid(r)
  {
    if c.state.Vibing? then c.(state := Idle, running := c.running - {c.state.watcher})
    else c.(state := Idle)
  }
}

=== FILE: watch.dfy ===
/**
 * The auto-commit machinery of src/vibe_git/main.py: `VibeFileHandler`
 * (ignore decision and debounce) and one iteration of `auto_commit_worker`.
 *
 * Times are integer milliseconds of `time.time()`; the handler's interval is
 * in the same unit.
 */
module Watch {
  import opened Base
  import opened Text
  import opened Paths
  import opened Commands
  import opened GitUtils
  import opened Sessions
  import opened Workspace

  /** An event path as watchdog reports it: absolute or relative, as components. */
  datatype FsPath = FsPath(absolute: bool, parts: seq<string>)

  datatype FsEvent = FsEvent(isDirectory: bool, src: FsPath)

  /** `VibeFileHandler`: its repository, the watcher whose Event it sets, and the debounce state. */
  datatype Handler = Handler(repo: Path, watcher: nat, lastCommit: int, minInterval: int)

  /** `VibeFileHandler(repo, event)`: `last_commit_time` 0.0 and `min_commit_interval` 0.0. */
  function NewHandler(repo: Path, watcher: nat): (h: Handler)
    ensures h.repo == repo && h.watcher == watcher
    ensures h.lastCommit == 0 && h.minInterval == 0
  {
    Handler(repo, watcher, 0, 0)
  }

  /** `str(relative_path)`: components joined by "/", and "." for the empty path. */
  function RelText(rel: seq<string>): (t: string)
    ensures rel == [] ==> t == "."
    ensures rel != [] ==> t == JoinWith(rel, "/")
  {
    if rel == [] then "." else JoinWith(rel, "/")
  }

  /** The path below the repository, when an absolute path lies inside it. */
  function Relative(repo: Path, p: FsPath): (r: Option<seq<string>>)
    ensures !p.absolute ==> r == Some(p.parts)
    ensures p.absolute ==> (r.Some? <==> StartsWithPath(p.parts, repo))
    ensures p.absolute && r.Some? ==> repo + r.value == p.parts
  {
    if !p.absolute then Some(p.parts)
    else if StartsWithPath(p.parts, repo) then
      assert repo + p.parts[|repo|..] == p.parts;
      Some(p.parts[|repo|..])
    else None
  }

  predicate StartsWithPath(p: seq<string>, prefix: seq<string>) {
    |prefix| <= |p| && p[..|prefix|] == prefix
  }

  function CheckIgnoreArgv(rel: seq<string>): Argv {
    ["git", "check-ignore", RelText(rel)]
  }

  /**
   * `_check_ignore`: a ".git" component or an absolute path outside the
   * repository is ignored without asking git; otherwise the path is ignored
   * exactly when `git check-ignore <relative path>` succeeds.
   */
  function CheckIgnore(env: Env, trace: Trace, repo: Path, p: FsPath): (r: Query<bool>)
    ensures GitEntry in p.parts ==> r == Query(true, trace)
    ensures GitEntry !in p.parts && Relative(repo, p).None? ==> r == Query(true, trace)
    ensures GitEntry !in p.parts && Relative(repo, p).Some? ==>
      var argv := CheckIgnoreArgv(Relative(repo, p).value);
      r == Query(Collect(env.proc(trace, argv)).ok, trace + [argv])
  {
    if GitEntry in p.parts then Query(true, trace)
    else
      match Relative(repo, p)
      case None => Query(true, trace)
      case Some(rel) =>
        assert ["git"] + ["check-ignore", RelText(rel)] == CheckIgnoreArgv(rel);
        var ran := Git(env, trace, repo, ["check-ignore", RelText(rel)]);
        Query(ran.outcome.ok, ran.trace)
  }

  /** What one event does to the handler, the trace and the set Events. */
  datatype HandlerStep = HandlerStep(handler: Handler, trace: Trace, signalled: set<nat>)

  /** The rate-limit test of `on_any_event`: the event passes when at least the interval has elapsed. */
  predicate DebouncePasses(h: Handler, now: int) {
    !(now - h.lastCommit < h.minInterval)
  }

  /**
   * `on_any_event`: directory events and ignored paths are dropped; otherwise,
   * when the debounce passes, `last_commit_time` becomes `now` and the commit
   * Event is set.
   */
  function OnAnyEvent(env: Env, trace: Trace, h: Handler, ev: FsEvent, now: int, signalled: set<nat>): (r: HandlerStep)
    ensures ev.isDirectory ==> r == HandlerStep(h, trace, signalled)
    ensures !ev.isDirectory ==> r.trace == CheckIgnore(env, trace, h.repo, ev.src).trace
    ensures var fires := !ev.isDirectory && !CheckIgnore(env, trace, h.repo, ev.src).value && DebouncePasses(h, now);
      && (fires ==> r.handler == h.(lastCommit := now) && r.signalled == signalled + {h.watcher})
      && (!fires ==> r.handler == h && r.signalled == signalled)
  {
    if ev.isDirectory then HandlerStep(h, trace, signalled)
    else
      var ig := CheckIgnore(env, trace, h.repo, ev.src);
      if ig.value then HandlerStep(h, ig.trace, signalled)
      else if !DebouncePasses(h, now) then HandlerStep(h, ig.trace, signalled)
      else HandlerStep(h.(lastCommit := now), ig.trace, signalled + {h.watcher})
  }

  /** The handler after an event, and the context it left. */
  datatype Delivered = Delivered(handler: Handler, ctx: Ctx)

  /**
   * Events reach a handler only while its observer runs. The handler keeps
   * the commit time it records, so the next event is measured against it.
   */
  function Deliver(env: Env, c: Ctx, h: Handler, ev: FsEvent, now: int): (r: Delivered)
    ensures h.watcher !in c.running ==> r == Delivered(h, c)
    ensures h.watcher in c.running ==> r.handler == OnAnyEvent(env, c.trace, h, ev, now, c.signalled).handler
    ensures r.handler.repo == h.repo && r.handler.watcher == h.watcher && r.handler.minInterval == h.minInterval
    ensures r.handler.lastCommit != h.lastCommit ==> r.handler.lastCommit == now && h.watcher in r.ctx.signalled
    ensures r.ctx.state == c.state && r.ctx.running == c.running && r.ctx.store == c.store
    ensures r.ctx.signalled - c.signalled <= {h.watcher}
    ensures Valid(c) && h.watcher < c.nextWatcher ==> Valid(r.ctx)
  {
    if h.watcher !in c.running then Delivered(h, c)
    else
      var step := OnAnyEvent(env, c.trace, h, ev, now, c.signalled);
      Delivered(step.handler, c.(trace := step.trace, signalled := step.signalled))
  }

  /** A run of timed events delivered one after another to the same handler. */
  function DeliverAll(env: Env, c: Ctx, h: Handler, evs: seq<(FsEvent, int)>): (r: Delivered)
    decreases |evs|
  {
    if evs == [] then Delivered(h, c)
    else
      var d := Deliver(env, c, h, evs[0].0, evs[0].1);
      DeliverAll(env, d.ctx, d.handler, evs[1..])
  }

  /**
   * After a run of events the handler's last commit time is either the one it
   * started with or the time of one of the events, and the only signal the
   * run can raise is its own.
   */
  lemma {:induction false} DeliverAllRecordsEventTimes(env: Env, c: Ctx, h: Handler, evs: seq<(FsEvent, int)>)
    ensures var r := DeliverAll(env, c, h, evs);
      && (r.handler.lastCommit == h.lastCommit || exists i :: 0 <= i < |evs| && r.handler.lastCommit == evs[i].1)
      && r.handler.watcher == h.watcher && r.handler.minInterval == h.minInterval
      && r.ctx.signalled - c.signalled <= {h.watcher}
      && r.ctx.state == c.state && r.ctx.running == c.running
    decreases |evs|
  {
    if evs != [] {
      var d := Deliver(env, c, h, evs[0].0, evs[0].1);
      DeliverAllRecordsEventTimes(env, d.ctx, d.handler, evs[1..]);
      var r := DeliverAll(env, c, h, evs);
      if r.handler.lastCommit != d.handler.lastCommit {
        var i :| 0 <= i < |evs[1..]| && r.handler.lastCommit == evs[1..][i].1;
        assert r.handler.lastCommit == evs[i + 1].1;
      } else if d.handler.lastCommit != h.lastCommit {
        assert r.handler.lastCommit == evs[0].1;
      }
    }
  }

  /**
   * The commit time recorded by one event governs the next: a second event
   * that comes sooner than the interval after a signalled one is suppressed
   * and changes nothing but the trace.
   */
  lemma SecondEventMeasuredFromFirst(env: Env, c: Ctx, h: Handler, ev1: FsEvent, t1: int, ev2: FsEvent, t2: int)
    requires h.watcher in c.running
    requires !ev1.isDirectory && !CheckIgnore(env, c.trace, h.repo, ev1.src).value && DebouncePasses(h, t1)
    requires t2 - t1 < h.minInterval
    ensures var d1 := Deliver(env, c, h, ev1, t1);
      var d2 := Deliver(env, d1.ctx, d1.handler, ev2, t2);
      && d1.handler.lastCommit == t1 && h.watcher in d1.ctx.signalled
      && d2.handler == d1.handler && d2.ctx.signalled == d1.ctx.signalled
  {
  }

  /**
   * With the interval at 0 the debounce suppresses an event only when the
   * clock has gone backwards; under a clock that never decreases it never
   * suppresses anything.
   */
  lemma DebounceOnlyCatchesClockSteps(repo: Path, w: nat, last: int, now: int)
    ensures DebouncePasses(NewHandler(repo, w).(lastCommit := last), now) <==> now >= last
  {
  }

  /**
   * The rapid-event scenario: a second event half a second after a commit is
   * not suppressed, so the Event is set again.
   */
  lemma HalfSecondLaterStillSignals(env: Env, trace: Trace, repo: Path, w: nat, now: int, ev: FsEvent, signalled: set<nat>)
    requires !ev.isDirectory && !CheckIgnore(env, trace, repo, ev.src).value
    ensures var h := NewHandler(repo, w).(lastCommit := now - 500);
      OnAnyEvent(env, trace, h, ev, now, signalled).signalled == signalled + {w}
  {
  }

  /** A path under `.git` never reaches git and never signals. */
  lemma GitInternalsIgnored(env: Env, trace: Trace, h: Handler, ev: FsEvent, now: int, signalled: set<nat>)
    requires GitEntry in ev.src.parts
    ensures OnAnyEvent(env, trace, h, ev, now, signalled) == HandlerStep(h, trace, signalled)
  {
  }

  // ---------------------------------------------------------------------------
  // auto_commit_worker
  // ---------------------------------------------------------------------------

  function AutoCommitArgv(ts: nat): Argv {
    ["git", "commit", "-m", "Auto-commit " + NatToString(ts), "--no-verify"]
  }

  /** `add .` followed by the hook-bypassing auto-commit. */
  function CommitAll(env: Env, trace: Trace, repo: Path): (t: Trace)
    ensures t == trace + [AddAllArgv, AutoCommitArgv(env.now)]
  {
    assert ["git"] + ["add", "."] == AddAllArgv;
    var add := Git(env, trace, repo, ["add", "."]);
    var msg := "Auto-commit " + NatToString(env.now);
    assert ["git"] + ["commit", "-m", msg, "--no-verify"] == AutoCommitArgv(env.now);
    Git(env, add.trace, repo, ["commit", "-m", msg, "--no-verify"]).trace
  }

  /**
   * One pass of the worker loop. The loop runs only while the session is
   * Vibing and waits on the current state's Event. A set Event is cleared;
   * then, if `status --porcelain` reports changes, everything is added and
   * committed as "Auto-commit <timestamp>" with hooks bypassed.
   */
  function AutoCommitStep(env: Env, c: Ctx, repo: Path): (r: Ctx)
    ensures r.state == c.state && r.running == c.running && r.store == c.store
    ensures r.nextWatcher == c.nextWatcher && r.signalled <= c.signalled
    ensures !(c.state.Vibing? && c.state.watcher in c.signalled) ==> r == c
    ensures c.state.Vibing? && c.state.watcher in c.signalled ==>
      r.signalled == c.signalled - {c.state.watcher} && r.trace == CommitIfDirty(env, c.trace, repo)
  {
    if !c.state.Vibing? || c.state.watcher !in c.signalled then c
    else c.(trace := CommitIfDirty(env, c.trace, repo), signalled := c.signalled - {c.state.watcher})
  }

  /** The body of a woken worker: look for changes, and commit them when there are any. */
  function CommitIfDirty(env: Env, trace: Trace, repo: Path): (t: Trace)
    ensures var dirty := HasUncommittedChanges(env, trace, repo).value.dirty;
      && (dirty ==> t == trace + [Porcelain, AddAllArgv, AutoCommitArgv(env.now)])
      && (!dirty ==> t == trace + [Porcelain])
  {
    var ch := HasUncommittedChanges(env, trace, repo);
    if !ch.value.dirty then ch.trace
    else
      AppendOneTwo(trace, Porcelain, AddAllArgv, AutoCommitArgv(env.now));
      CommitAll(env, ch.trace, repo)
  }

  /** The worker keeps the handle invariant. */
  lemma AutoCommitStepValid(env: Env, c: Ctx, repo: Path)
    requires Valid(c)
    ensures Valid(AutoCommitStep(env, c, repo))
  {
  }

  /** A commit is attempted exactly when the tree was seen dirty. */
  lemma AutoCommitOnlyWhenDirty(env: Env, c: Ctx, repo: Path)
    requires c.state.Vibing? && c.state.watcher in c.signalled
    ensures var r := AutoCommitStep(env, c, repo);
      AutoCommitArgv(env.now) in r.trace[|c.trace|..] <==> HasUncommittedChanges(env, c.trace, repo).value.dirty
  {
    var t := AutoCommitStep(env, c, repo).trace;
    assert t == CommitIfDirty(env, c.trace, repo);
    if HasUncommittedChanges(env, c.trace, repo).value.dirty {
      var more := [Porcelain, AddAllArgv, AutoCommitArgv(env.now)];
      assert t == c.trace + more;
      assert t[|c.trace|..] == more;
      assert more[2] == AutoCommitArgv(env.now);
    } else {
      assert t == c.trace + [Porcelain];
      assert t[|c.trace|..] == [Porcelain];
      assert Porcelain[1] != AutoCommitArgv(env.now)[1];
    }
  }
}

=== FILE: workspace.dfy ===
/**
 * The server-wide context of src/vibe_git/main.py: the global session state,
 * the commands issued so far, the watchers (observer plus commit Event) that
 * `start_file_watcher` has created, and the persisted session store of the
 * repository.
 */
module Workspace {
  import opened Base
  import opened Text
  import opened Paths
  import opened Commands
  import opened GitUtils
  import opened Sessions
  import opened Persistence

  /** Everything one tool call can change. */
  datatype Ctx = Ctx(
    state: SessionState,   // the global `session.state`
    trace: Trace,          // every command issued so far
    running: set<nat>,     // watchers whose observer has not been stopped
    signalled: set<nat>,   // watchers whose commit Event is set
    nextWatcher: nat,      // the handle the next watcher receives
    store: Store)          // `.git/vibe-session.json` and `.git/vibe-events.jsonl`

  /** Handles are allocated in order, so every handle in use is below `nextWatcher`. */
  predicate Valid(c: Ctx) {
    && (forall w :: w in c.running ==> w < c.nextWatcher)
    && (forall w :: w in c.signalled ==> w < c.nextWatcher)
    && (c.state.Vibing? ==> c.state.watcher < c.nextWatcher)
  }

  /** The context at import time: a fresh `VibeSession()`, nothing issued, no watcher. */
  function InitialCtx(store: Store): (c: Ctx)
    ensures Valid(c) && c.state == NewSession().state
    ensures c.trace == [] && c.running == {} && c.signalled == {}
  {
    Ctx(Idle, [], {}, {}, 0, store)
  }

  /** What an MCP tool returns, and the context it leaves behind. */
  datatype Reply = Reply(text: string, ctx: Ctx)

  /** A context and the state value an operation produced with it. */
  datatype Watched = Watched(state: SessionState, ctx: Ctx)

  /**
   * `start_file_watcher`: a new observer is started with a new, unset Event,
   * and the VibingState holding them is returned. The session state itself is
   * not changed here; callers transition to the returned state.
   */
  function StartWatcher(c: Ctx, branch: string): (r: Watched)
    ensures r.state == Vibing(branch, c.nextWatcher)
    ensures r.ctx == c.(running := c.running + {c.nextWatcher}, nextWatcher := c.nextWatcher + 1)
    ensures Valid(c) ==> c.nextWatcher !in c.running && c.nextWatcher !in c.signalled
    ensures Valid(c) ==> Valid(r.ctx) && Valid(r.ctx.(state := r.state))
  {
    var w := c.nextWatcher;
    Watched(Vibing(branch, w), c.(running := c.running + {w}, nextWatcher := w + 1))
  }

  /**
   * A context whose handles are all old ones or the one just allocated is
   * valid again once `nextWatcher` has moved past that handle.
   */
  lemma ValidAfterAllocation(c: Ctx, r: Ctx)
    requires Valid(c)
    requires r.nextWatcher >= c.nextWatcher + 1
    requires r.running <= c.running + {c.nextWatcher}
    requires r.signalled <= c.signalled + {c.nextWatcher}
    requires r.state.Vibing? ==> r.state.watcher <= c.nextWatcher
    ensures Valid(r)
  {
  }

  /**
   * A context that only stops watchers, signals the current one, or leaves
   * Vibing, stays valid.
   */
  lemma ValidAfterRelease(c: Ctx, r: Ctx)
    requires Valid(c) && c.state.Vibing?
    requires r.nextWatcher == c.nextWatcher
    requires r.running <= c.running
    requires r.signalled <= c.signalled + {c.state.watcher}
    requires r.state == c.state || !r.state.Vibing?
    ensures Valid(r)
  {
  }

  /**
   * `get_current_branch` of src/vibe_git/main.py. Unlike the git_utils
   * version, a failed query whose output starts with "vibe-" is still taken
   * as the branch name.
   */
  function MainCurrentBranch(env: Env, trace: Trace, repo: Path): (r: Query<Option<string>>)
    ensures r.trace == trace + [ShowCurrent]
    ensures var o := Collect(env.proc(trace, ShowCurrent));
      && (r.value.Some? <==> (o.ok && o.out != "") || (!o.ok && IsVibeBranch(Strip(o.out))))
      && (r.value.Some? ==> r.value.value == Strip(o.out) && r.value.value != "")
  {
    assert ["git"] + ["branch", "--show-current"] == ShowCurrent;
    var ran := Git(env, trace, repo, ["branch", "--show-current"]);
    var o := ran.outcome;
    if o.ok && o.out != "" then
      StripIdempotent(o.out);
      Query(Some(Strip(o.out)), ran.trace)
    else if !o.ok && IsVibeBranch(Strip(o.out)) then Query(Some(Strip(o.out)), ran.trace)
    else Query(None, ran.trace)
  }

  /** The two branch queries agree whenever the command succeeds. */
  lemma BranchQueriesAgreeOnSuccess(env: Env, trace: Trace, repo: Path)
    requires Collect(env.proc(trace, ShowCurrent)).ok
    ensures MainCurrentBranch(env, trace, repo) == CurrentBranch(env, trace, repo)
  {
  }

  /**
   * They differ on a failed query whose output names a vibe branch (git's
   * complaint in a detached HEAD never does, but the helper accepts it): the
   * main.py helper returns the name, the git_utils helper returns None.
   */
  lemma DetachedHeadQueriesDiffer(env: Env, trace: Trace, repo: Path, code: int, name: string)
    requires code != 0 && IsVibeBranch(name) && Strip(name) == name
    requires env.proc(trace, ShowCurrent) == Exited(code, "", name)
    ensures CurrentBranch(env, trace, repo).value == None
    ensures MainCurrentBranch(env, trace, repo).value == Some(name)
  {
    FailedQueryReports(env.proc(trace, ShowCurrent), code, name);
    MainKeepsFailedVibeBranch(env, trace, repo, name);
  }

  lemma MainKeepsFailedVibeBranch(env: Env, trace: Trace, repo: Path, name: string)
    requires IsVibeBranch(name) && Strip(name) == name
    requires Collect(env.proc(trace, ShowCurrent)) == Outcome(false, name)
    ensures MainCurrentBranch(env, trace, repo).value == Some(name)
  {
  }

  /** A failed process with blank stdout reports its stripped stderr. */
  lemma FailedQueryReports(p: ProcessResult, code: int, name: string)
    requires code != 0 && Strip(name) == name
    requires p == Exited(code, "", name)
    ensures Collect(p) == Outcome(false, name)
  {
    StripSolidEnds("");
  }
}
